=== FILE: README.md ===
# yomibo core, modelled in Dafny

yomibo is a read-later service. A signed-in user saves a URL; the server
either stores it at once under its host name (`mode: "fast"`) or fetches the
page first, takes its title, description and body length, embeds the title
for semantic search and tags the article with words pulled from its title
and summary. Articles live in a relational database, or, when no database is
configured, in a JSON file (the fallback store). Around that sit the search
endpoint (embedding similarity with a substring fallback), bulk auto-tagging,
the removal of noisy tags, two reading-insight endpoints, the invite gate
for sign-up, the list page's display helpers and a one-shot script that
moves the file store into the database.

This project models that core. Each source file has a module of its own:

| module | source |
|---|---|
| `Tags` | `src/lib/tags.ts` — tag normalisation, the noise filter, hashtag/keyword/article tag extraction |
| `Tagging` | `src/lib/tagging.ts` — get-or-create tags and attach them to an article |
| `FallbackStore` | `src/lib/fallback-store.ts` — the file store as a class `Store` whose article list methods update in place |
| `ArticlesRoute` | `src/app/api/articles/route.ts` — fast and enriched saving, listing |
| `SearchRoute` | `src/app/api/search/route.ts` — semantic top-50 ranking and the lexical fallback |
| `TagsAutoRoute` | `src/app/api/tags/auto/route.ts` — auto-tagging of untagged articles |
| `TagsCleanupRoute` | `src/app/api/tags/cleanup/route.ts` — noisy-link removal and tag garbage collection |
| `InsightsStats`, `TagStats` | `src/app/api/insights/stats/route.ts` — counters, the weekly chart, tag counts, recommendations |
| `InsightsRoute` | `src/app/api/insights/route.ts` — read articles grouped by week, top five tags, summaries |
| `FetchTitle` | `src/lib/fetch-title.ts` — the HTML entity decoder and the title/summary rules |
| `Invite` | `src/lib/invite.ts` — invite codes and the signed invite cookie |
| `ArticlesClient` | `src/app/articles/ArticlesClient.tsx` — sort order, filters, badges, labels, reading time |
| `ImportScript` | `scripts/import-fallback-to-db.mjs` — the file-to-database migration |

Shared modules: `Database` is the ORM's tables as a class `Db` (users,
articles, the tag table keyed by unique name and the article/tag link set),
with `Valid()` stating the foreign-key and uniqueness constraints every
method keeps; `Text` holds the JavaScript string operations used (trim,
`toLowerCase`, `includes`, `split`, `join`, number rendering); `Lists` holds
filter, slice, de-duplication and the descending sort; `Calendar`
holds local-day and Monday-week arithmetic; `Services` the session and the
embedding service's answers; `Wrappers` `Option` and `Result`.

Everything the code does not compute itself is a parameter: the clock, the
page fetch (arriving as the pieces of text the extraction expressions
captured), URL parsing, the embedding service and the similarity score, the
text generator for weekly summaries, the recency decay `Math.exp(-d / 14)`,
HMAC-SHA256 (RFC 2104) and the process environment. A parameter named
`racing` says which links a concurrent request made between a read and a
write, so the duplicate-key branches of the code are reachable.

Loops in the source are loops here: tag extraction, merging tags into an
article, auto-tagging, the cleanup, the weekly buckets, the per-week grouping
and the import are methods with `while`/`for` loops. Each is proved against
a function that states what it computes, or, for auto-tagging and the
import, against a predicate on the final state: every target carries its
extracted tags (`TagsAutoRoute.Carries`), and every importable record has a
user who has its URL (`ImportScript.Landed`). The further properties are
proved about those functions and predicates.

Some behaviour is modelled as the code has it, not as one might expect:

- `extractHashtags` does not de-duplicate; `extractArticleTags` does.
- `parseInviteCodes` splits on the character class `[,\\n]`, that is on a
  comma, a backslash or the letter `n` (not on a line break), so a code that
  contains `n` is cut in two (`Invite.ParseInviteCodes`, `Invite.CodesRoundTrip`).
- The comparator of `listArticlesForUser` never answers 0.
- Database search looks at title, url and summary; file-store search also
  looks at the tags.
- `mergeTagsToArticle` reports every name it tried to add as added, even
  when the insert of that link was absorbed as a duplicate.
- A dotted word such as `A.I` passes the English keyword pattern and
  normalises to `ai` (`Tags.DottedAcronymPushesAi`).
- The cleanup applies `isNoisyTag` to names that are already normalised, so
  its `/` and `:` rule never fires there.

## Model

| member | source | states |
|---|---|---|
| Tags.DropLeadingHashes | src/lib/tags.ts:7 | the result is a suffix of the input that does not start with `#` or `＃` |
| Tags.DropTrailingHashes | src/lib/tags.ts:9 | the result is a prefix of the input that does not end with `#` or `＃` |
| Tags.KeepTagChars | src/lib/tags.ts:17 | the result is no longer than the input and holds only letters, digits, `_`, `-`, `ー` and `々` |
| Tags.Lowered | src/lib/tags.ts:20 | length is kept, allowed characters stay allowed, an ASCII letter is present after exactly when before, and then the text is in lower-case form |
| Tags.NormalizeTag | src/lib/tags.ts:1-43 | a tag it returns is canonical: 2 to 40 allowed characters, not a stop word, lower case whenever it has an ASCII letter; blank input gives no tag |
| Tags.FinishTag | src/lib/tags.ts:19-42 | the lower-casing, length and stop-word steps only ever produce canonical tags |
| Tags.NormalizeTagChars | src/lib/tags.ts:2-17 | on input made only of allowed characters, trimming, hash stripping and filtering change nothing |
| Tags.NormalizeWellFormed | src/lib/tags.ts:1-43 | 2 to 40 allowed characters normalise to their lowered form, or to nothing when that form is a stop word |
| Tags.CaseKeptWithoutAscii | src/lib/tags.ts:19-20 | text without ASCII letters (Japanese) keeps its case |
| Tags.CaseFoldedWithAscii | src/lib/tags.ts:19-20 | text with an ASCII letter is lower-cased as a whole |
| Tags.NormalizeLong | src/lib/tags.ts:22-24 | a tag longer than 40 characters is cut to the first 40 of its lowered form (the stop list cannot match it) |
| Tags.StopWordsShort | src/lib/tags.ts:27-40 | no text longer than 7 characters is a stop word |
| Tags.CanonicalIsFixedPoint | src/lib/tags.ts:1-43 | a canonical tag normalises to itself |
| Tags.NormalizeIdempotent | src/lib/tags.ts:1-43 | normalising a normalised tag gives it back |
| Tags.NormalizeStripsHashes | src/lib/tags.ts:6-11 | any run of `#`/`＃` before and after a canonical tag is removed and the tag comes back unchanged |
| Tags.NoisyCanonical | src/lib/tags.ts:45-93 | for a canonical tag, noisy exactly when all digits, a generic Japanese word or a generic katakana word |
| Tags.IsNoisyTag | src/lib/tags.ts:45-93 | a blank name and a name holding `/` or `:` are noise; a clean name has a normal form that is not all digits |
| Tags.NoSlashOrColon | src/lib/tags.ts:53-54 | text of allowed characters never holds `/` or `:` |
| Tags.NoisyByNormalForm | src/lib/tags.ts:45-54 | without `/` or `:` in the raw name, a name is noisy exactly when its normal form is |
| Tags.HashtagMatches | src/lib/tags.ts:98 | each hashtag body matched is 2 to 40 allowed characters |
| Tags.NormalizedAll | src/lib/tags.ts:100-103 | no more tags than matches, each canonical |
| Tags.NormalizeMatches | src/lib/tags.ts:100-103 | the loop pushes exactly the normal forms of the matches, each canonical |
| Tags.ExtractHashtags | src/lib/tags.ts:95-105 | returns the normal forms of the hashtags of the text, each canonical |
| Tags.HashtagBodyTag | src/lib/tags.ts:98-102 | a hashtag body that is not a stop word yields exactly its lowered form |
| Tags.EnglishMatches | src/lib/tags.ts:140 | each English match starts with an ASCII letter, is 3 to 41 word characters long |
| Tags.KatakanaMatches | src/lib/tags.ts:155 | each katakana match is 4 to 20 katakana characters |
| Tags.PushFor | src/lib/tags.ts:145-151 | a match pushes its normal form at most twice and nothing else |
| Tags.EnglishPush | src/lib/tags.ts:141-152 | at most two pushes, each the match's normal form |
| Tags.EnglishPushes | src/lib/tags.ts:141-152 | everything pushed for the English matches is canonical |
| Tags.PushEnglishMatches | src/lib/tags.ts:141-152 | the loop over English matches pushes exactly what the per-match rule says |
| Tags.PushEnglishMatch | src/lib/tags.ts:142-151 | one iteration appends exactly the pushes of that match |
| Tags.PushNormalForm | src/lib/tags.ts:145-151 | the allow-list, model-version and technical-word tests push as the per-match rule says |
| Tags.KeywordTags | src/lib/tags.ts:107-164 | keyword tags are distinct, non-noisy and canonical |
| Tags.ExtractKeywordTags | src/lib/tags.ts:107-164 | returns the keyword tags of the text: distinct, non-noisy and canonical |
| Tags.SourceText | src/lib/tags.ts:171-175 | an empty title gives just the summary, an empty summary just the title |
| Tags.ExtractArticleTags | src/lib/tags.ts:166-184 | at most 20 distinct, non-noisy, canonical tags, each a hashtag or keyword tag of title and summary, hashtags before keyword-only tags |
| Tags.MergedTags | src/lib/tags.ts:177-183 | merging, de-duplicating, filtering and cutting at 20 keeps tags distinct, clean, canonical and drawn from the two lists, hashtags first |
| Tags.HashtagsFirst | src/lib/tags.ts:177-183 | after de-duplication, filtering and truncation, no element of the first list follows one that is not in it |
| Tags.DottedAcronymMatches | src/lib/tags.ts:140 | the English pattern matches `A.I` as a whole |
| Tags.DottedAcronymIsAi | src/lib/tags.ts:1-43 | `A.I` normalises to `ai` |
| Tags.DottedAcronymPushesAi | src/lib/tags.ts:139-148 | `A.I` in English text pushes the allow-listed tag `ai` |
| ArticlesClient.Compare | src/app/articles/ArticlesClient.tsx:41-53 | negative exactly when the first comes first (unread before read, then newer first), positive exactly when the second does, zero exactly on equal read state and creation time |
| ArticlesClient.ComparatorConsistent | src/app/articles/ArticlesClient.tsx:41-53 | the comparator is antisymmetric and transitive |
| ArticlesClient.Insert | src/app/articles/ArticlesClient.tsx:41-53 | inserting into an ordered list keeps it ordered and adds exactly that article |
| ArticlesClient.SortArticles | src/app/articles/ArticlesClient.tsx:41-55 | a permutation in which unread articles precede read ones and each group is newest first |
| ArticlesClient.Bare | src/app/articles/ArticlesClient.tsx:63 | strips one leading `http://` or `https://` and one trailing `/`, and leaves other text alone |
| ArticlesClient.BareOfLink | src/app/articles/ArticlesClient.tsx:63 | the bare form of `http(s)://host[/]` is the host |
| ArticlesClient.ToRefresh | src/app/articles/ArticlesClient.tsx:57-66 | selects exactly the fetched articles whose title is missing or URL-like or whose body length is unknown |
| ArticlesClient.DisplayTitle | src/app/articles/ArticlesClient.tsx:258-264 | a real title is shown as is; a missing or URL-like one is replaced by the bare URL |
| ArticlesClient.NeedsRefresh | src/app/articles/ArticlesClient.tsx:57-66 | every article displayed under its URL instead of its title is queued for a refresh, and an article not queued shows its own title, which is not its bare URL |
| ArticlesClient.Visible | src/app/articles/ArticlesClient.tsx:109-111 | no tag selected shows all; a selected tag shows exactly the articles carrying it |
| ArticlesClient.UnreadCount | src/app/articles/ArticlesClient.tsx:112 | at most the number shown; equal to it exactly when none is read, zero exactly when all are |
| ArticlesClient.TagNarrowsUnread | src/app/articles/ArticlesClient.tsx:109-112 | selecting a tag never raises the unread count |
| ArticlesClient.VisibleKeepsOrder | src/app/articles/ArticlesClient.tsx:109-111 | filtering by tag keeps the sorted order |
| ArticlesClient.GetContentType | src/app/articles/ArticlesClient.tsx:169-174 | a video exactly when the URL contains `youtube.com` or `youtu.be`, otherwise a page |
| ArticlesClient.YouTubeLinksAreVideos | src/app/articles/ArticlesClient.tsx:169-174 | `youtube.com/watch` and `youtu.be` links are videos |
| ArticlesClient.FormatTimeAgo | src/app/articles/ArticlesClient.tsx:176-192 | under an hour, whole hours under a day, "1 day", then whole days, with the hour and day counts in range |
| ArticlesClient.HoursThenDays | src/app/articles/ArticlesClient.tsx:180-181 | flooring to hours then to days equals flooring to days |
| ArticlesClient.ReadMinutes | src/app/articles/ArticlesClient.tsx:194-218 | a positive body length gives the least whole minutes covering it at 400 characters a minute; without one, 5 for empty title and summary, otherwise the least minutes covering 4 × summary + 0.5 × title; never below 1 |
| ArticlesClient.LongerBodyNotFaster | src/app/articles/ArticlesClient.tsx:196-201 | a longer body never reads in fewer minutes |
| ArticlesClient.EstimateReadTime | src/app/articles/ArticlesClient.tsx:194-218 | the label ends in ` min read`, and what comes before is a decimal number without a leading zero that reads back as the minute count |
| ArticlesRoute.HostnameOrUrl | src/app/api/articles/route.ts:14-21 | the host name without a leading `www.` when the URL parses and that is non-empty, otherwise the raw URL; never empty for a non-empty URL |
| ArticlesRoute.ViewOf | src/app/api/articles/route.ts:214-226 | the response carries the row's id, URL, title and the given tag names |
| ArticlesRoute.Enriched | src/app/api/articles/route.ts:146-159 | the title is the fetched title when there is one, else the URL; the summary comes from the fetch; a body length is kept exactly when it is positive; a failed fetch leaves URL, no summary, no length |
| ArticlesRoute.EmbeddingJson | src/app/api/articles/route.ts:161-171 | an embedding is stored exactly when the embedder returns a vector for `title + " " + url`, and then it is that vector's encoding |
| ArticlesRoute.Post | src/app/api/articles/route.ts:75-235 | 400 exactly for a missing or empty URL, 401 exactly for no session, and both change nothing; with the file store the new article is prepended there and the database is untouched; fast mode saves the host name as title with no summary, length, embedding or tags; otherwise the enriched fields and embedding are saved, every extracted tag is linked to the new article, links only grow and new links are only to it, and the users stay the same |
| ArticlesRoute.SaveEnriched | src/app/api/articles/route.ts:190-212 | the row is appended with the next id, every extracted tag ends up linked to it, no other article gains a link, and the returned view shows its linked tag names |
| ArticlesRoute.CanonicalNamesKept | src/app/api/articles/route.ts:203-204 | de-duplicating canonical tag names keeps every one of them |
| ArticlesRoute.NewestRows | src/app/api/articles/route.ts:40-49 | at most `take` of the user's own rows, each at most as often as it occurs in the store (so distinct when ids are), newest first, none newer than any left out, and all of them when fewer than `take` |
| ArticlesRoute.Views | src/app/api/articles/route.ts:51-63 | one view per row, each with the row's linked tag names |
| ArticlesRoute.ViewsFacts | src/app/api/articles/route.ts:40-63 | views of the newest rows show only the user's own rows, newest first, and no left-out row is newer than a shown one |
| ArticlesRoute.ViewsShowRows | src/app/api/articles/route.ts:40-63 | the views show the user's rows: one for each of min(50, own rows), each a view of one of them |
| ArticlesRoute.ViewsLeaveOutOlder | src/app/api/articles/route.ts:40-49 | a row of the user's without a view is no newer than any shown |
| ArticlesRoute.ViewsDistinct | src/app/api/articles/route.ts:40-63 | with unique ids in the store, no two views show the same article |
| ArticlesRoute.ShownIds | src/app/api/articles/route.ts:53-54 | exactly the ids of the views |
| ArticlesRoute.Listing | src/app/api/articles/route.ts:40-63 | at most 50 of the user's own articles, all of them when fewer, distinct when ids are, newest first, each with its tags, and none left out is newer than one shown |
| ArticlesRoute.Get | src/app/api/articles/route.ts:24-72 | 401 exactly without a session; with the file store, that store's listing of 50; otherwise the database listing with the properties above (all of the user's rows up to 50, distinct, newest first) |
| Calendar.Weekday | src/app/api/insights/route.ts:106 | the day of the week is in 0..6 (0 = Sunday) |
| Calendar.StartOfDay | src/app/api/insights/route.ts:109 | midnight of the day holding the instant, at most a day before it |
| Calendar.DaysSinceMonday | src/app/api/insights/route.ts:106-107 | in 0..6, and 0 exactly on a Monday |
| Calendar.StartOfWeek | src/app/api/insights/route.ts:104-111 | a Monday midnight at most one week before the instant |
| Calendar.WeekStartUnique | src/app/api/insights/route.ts:104-111 | every instant of the week that starts at a Monday midnight maps back to that Monday |
| Calendar.SameWeek | src/app/api/insights/stats/route.ts:146-153 | applying the week start twice changes nothing |
| InsightsRoute.ReadRows | src/app/api/insights/route.ts:15-26 | exactly the user's read articles, latest read first |
| InsightsRoute.ReadRowsMembers | src/app/api/insights/route.ts:15-26 | a permutation of the filtered rows holds exactly the user's read articles |
| InsightsRoute.WeekOf | src/app/api/insights/route.ts:36-37 | an article's week key is a Monday midnight |
| InsightsRoute.Weeks | src/app/api/insights/route.ts:35-42 | exactly the week keys of the rows |
| InsightsRoute.WeeksSnoc | src/app/api/insights/route.ts:35-42 | one more row adds exactly its week |
| InsightsRoute.GroupStep | src/app/api/insights/route.ts:39-41 | one grouping step keeps the groups keyed by week, each holding that week's rows in order |
| InsightsRoute.GroupStepWeeks | src/app/api/insights/route.ts:39-41 | one grouping step keeps the key order distinct and equal to the weeks seen |
| InsightsRoute.GroupStepMembers | src/app/api/insights/route.ts:39-41 | one grouping step keeps each group equal to its week's rows |
| InsightsRoute.InWeekSnoc | src/app/api/insights/route.ts:39-41 | one more row lands in its own week's group only |
| InsightsRoute.GroupByWeek | src/app/api/insights/route.ts:32-42 | distinct week keys in insertion order, exactly the rows' weeks, each group the rows of that week in order |
| InsightsRoute.GroupTotalSnoc | src/app/api/insights/route.ts:35-42 | one more row raises the total of the groups by one when its week is listed |
| InsightsRoute.GroupsPartition | src/app/api/insights/route.ts:35-42 | the groups together hold every row exactly once |
| InsightsRoute.GroupTotalEmpty | src/app/api/insights/route.ts:35-42 | no rows, no grouped rows |
| InsightsRoute.TopTags | src/app/api/insights/route.ts:47-60 | up to five distinct tag names of the week, as many as there are (capped at 5), by non-increasing count, none left out with a higher count |
| InsightsRoute.Names | src/app/api/insights/route.ts:60 | the names of the top entries, in order |
| InsightsRoute.TopTagsFacts | src/app/api/insights/route.ts:57-60 | the sorted, cut and projected counts satisfy the top-tags property, names distinct included |
| InsightsRoute.BestAreCounts | src/app/api/insights/route.ts:57-59 | every kept entry carries its tag's true count |
| InsightsRoute.LeftOutNotMore | src/app/api/insights/route.ts:57-60 | no tag left out of the top five has a higher count than one kept |
| InsightsRoute.TopNamesDistinct | src/app/api/insights/route.ts:47-60 | the kept names repeat none, because the counted names are distinct keys |
| InsightsRoute.FinalSummary | src/app/api/insights/route.ts:71-79 | the AI summary when it returns non-empty text, otherwise the bullet lines |
| InsightsRoute.TopicLineNames | src/app/api/insights/route.ts:64-66 | `TopicLine`: the no-tags line when there are no top tags, and each top tag occurs in the line |
| InsightsRoute.BulletsName | src/app/api/insights/route.ts:62-69 | `Bullets`: the bullets name the week's count followed by `件`, each top tag, and the no-tags line when there are none |
| InsightsRoute.InsightOfFacts | src/app/api/insights/route.ts:62-87 | the entry is keyed by its week and stamped now; its summary is the generated text when that is non-empty, otherwise the bullets |
| InsightsRoute.TopsSnoc | src/app/api/insights/route.ts:46-60 | one more week's top tags keeps every week's top tags correct |
| InsightsRoute.PayloadSnoc | src/app/api/insights/route.ts:81-86 | one more pushed entry is that week's insight |
| InsightsRoute.WeekInsights | src/app/api/insights/route.ts:44-87 | one entry per week, in key order, each built from that week's rows, top tags (distinct) and summary |
| InsightsRoute.PayloadFacts | src/app/api/insights/route.ts:44-87 | each pushed entry is its week's insight |
| InsightsRoute.GetInsights | src/app/api/insights/route.ts:7-102 | 401 exactly without a session; no read articles give no insights; otherwise one insight per week that has read articles, strictly newest week first, each with its own count, distinct top tags and summary |
| InsightsRoute.SortedDistinct | src/app/api/insights/route.ts:89-92 | sorting distinct week keys descending makes them strictly decreasing |
| InsightsRoute.SortedWeeks | src/app/api/insights/route.ts:89-92 | sorting keeps the set of weeks |
| InsightsRoute.SortedOk | src/app/api/insights/route.ts:89-92 | sorting keeps each entry correct for its week |
| TagStats.AllNamesMeaning | src/app/api/insights/stats/route.ts:68-74 | a name is counted exactly when some article is linked to it |
| TagStats.CountTagged | src/app/api/insights/stats/route.ts:68-74 | a tag's count never exceeds the number of articles |
| TagStats.CountPositive | src/app/api/insights/stats/route.ts:68-74 | a count is positive exactly when some article carries the tag |
| TagStats.CountTags | src/app/api/insights/stats/route.ts:68-74 | the map's keys, in first-seen order without repeats, are exactly the tags in use, each mapped to the number of articles carrying it |
| TagStats.CountArticle | src/app/api/insights/stats/route.ts:70-73 | one article's tags each gain one, new names are appended once, nothing else changes |
| TagStats.Entries | src/app/api/insights/stats/route.ts:76-78 | one entry per name, with its count |
| InsightsStats.Own | src/app/api/insights/stats/route.ts:16-23 | exactly the user's articles |
| InsightsStats.ReadCount | src/app/api/insights/stats/route.ts:26 | at most the number saved, and equal to it exactly when every article is read |
| InsightsStats.Round | src/app/api/insights/stats/route.ts:27 | the nearest integer, halves rounded up |
| InsightsStats.ReadPercentage | src/app/api/insights/stats/route.ts:27 | 0 when nothing is saved, otherwise the read share in percent rounded to the nearest integer, always within 0..100 |
| InsightsStats.TargetWeekStart | src/app/api/insights/stats/route.ts:29-37 | a Monday midnight `weekOffset` weeks before this week's, and none when the offset does not parse |
| InsightsStats.CountIn | src/app/api/insights/stats/route.ts:47-58 | a day's count never exceeds the number of articles |
| InsightsStats.CountInSplit | src/app/api/insights/stats/route.ts:39-58 | counts over adjacent intervals add up |
| InsightsStats.Bar | src/app/api/insights/stats/route.ts:40-64 | day i's label and its saved and read counts for that day |
| InsightsStats.WeeklyActivity | src/app/api/insights/stats/route.ts:38-65 | seven bars Monday to Sunday, each counting that day's saves and reads, whose saves add up to the week's saves |
| InsightsStats.Bucket | src/app/api/insights/stats/route.ts:39-51 | at most the number of articles, 0 for an invalid week start, and adding day i's bucket to the count up to day i gives the count up to day i+1 |
| InsightsStats.SavedSumSnoc | src/app/api/insights/stats/route.ts:60-64 | one more bar adds its saves to the total |
| InsightsStats.DaysAgo | src/app/api/insights/stats/route.ts:91-92 | never negative |
| InsightsStats.ReadTagged | src/app/api/insights/stats/route.ts:99 | a tag's read count never exceeds its article count |
| InsightsStats.TallyTags | src/app/api/insights/stats/route.ts:81-103 | one tally per tag in use, in first-seen order, each its article count, read count and summed recency |
| InsightsStats.TallySnoc | src/app/api/insights/stats/route.ts:87-103 | one more article updates exactly its own tags' tallies |
| InsightsStats.TallyArticle | src/app/api/insights/stats/route.ts:96-102 | one article bumps each of its tags once and leaves the rest alone |
| InsightsStats.ZeroTally | src/app/api/insights/stats/route.ts:97 | a tag no article carries has the empty tally |
| InsightsStats.Round2 | src/app/api/insights/stats/route.ts:120 | within half a hundredth of the score |
| InsightsStats.Reasons | src/app/api/insights/stats/route.ts:108-123 | "many read" exactly when at least 2 and at least half are read, "recent" exactly when recency reaches 1.5, "frequent" only alone and exactly when neither applies and the tag has 2 or more articles |
| InsightsStats.Recommend | src/app/api/insights/stats/route.ts:106-124 | keeps name, count and read count; the score is total + 2 × read + 3 × recency, rounded to hundredths |
| InsightsStats.Candidates | src/app/api/insights/stats/route.ts:105-125 | one recommendation per tag, in order |
| InsightsStats.Recommended | src/app/api/insights/stats/route.ts:105-127 | exactly min(12, tags in use) entries, best score first (the further facts are the lemmas below) |
| InsightsStats.RecommendedKept | src/app/api/insights/stats/route.ts:105-127 | every kept entry is the recommendation of its own tag, scored from that tag's tally, with reads not above its count |
| InsightsStats.RecommendedLeftOut | src/app/api/insights/stats/route.ts:126-127 | no tag left out scores higher than one kept |
| InsightsStats.RecommendedDistinct | src/app/api/insights/stats/route.ts:105-127 | with distinct tag names, no tag is recommended twice |
| InsightsStats.RecommendedCount | src/app/api/insights/stats/route.ts:126-127 | the list holds min(12, tags in use) entries with distinct names |
| InsightsStats.LeftOutScoreLower | src/app/api/insights/stats/route.ts:126-127 | no tag cut by the sort and slice scores higher than one kept |
| InsightsStats.KeptAreCandidates | src/app/api/insights/stats/route.ts:126-127 | every kept recommendation is a tag's own |
| InsightsStats.RankTags | src/app/api/insights/stats/route.ts:76-78 | one entry per tag name with its count, most frequent first |
| InsightsStats.EntriesDistinct | src/app/api/insights/stats/route.ts:76-78 | a permutation of the entries repeats no name |
| InsightsStats.TagRanking | src/app/api/insights/stats/route.ts:67-78 | each tag in use exactly once with its positive article count, most frequent first |
| InsightsStats.RecommendedTags | src/app/api/insights/stats/route.ts:80-127 | the recommendation list for the user's own articles: min(12, tags in use) distinct tags, best score first, each scored from its true tally, none left out scoring higher |
| InsightsStats.ReadWithinTotal | src/app/api/insights/stats/route.ts:96-101 | no tally counts more reads than articles |
| InsightsStats.KeptScored | src/app/api/insights/stats/route.ts:105-127 | kept entries are scored from their tags' true tallies |
| InsightsStats.LeftOutScored | src/app/api/insights/stats/route.ts:105-127 | no tag in use and left out scores higher than a kept one |
| InsightsStats.GetStats | src/app/api/insights/stats/route.ts:8-144 | 401 exactly without a session; otherwise the saved and read counters and percentage, the week's chart, the tag ranking and the recommendations (min(12, tags in use) distinct tags), each as above for the user's own articles |
| SearchRoute.HitOf | src/app/api/search/route.ts:126-133 | the hit carries the row's id, URL, title, summary, dates and the given tag names |
| SearchRoute.Lexical | src/app/api/search/route.ts:66-82 | at most 50 of the user's articles whose title, URL or summary contains the query, newest first, none newer left out, all of them when fewer than 50, distinct when ids are |
| SearchRoute.Candidates | src/app/api/search/route.ts:48-57 | exactly the pool articles whose stored embedding parses, in order, each with its similarity to the query vector |
| SearchRoute.Ranked | src/app/api/search/route.ts:48-60 | at most 50 articles with a parseable embedding, by non-increasing similarity, none left out scoring higher, empty exactly when no embedding parses, and distinct when the pool's ids are |
| SearchRoute.RankedFacts | src/app/api/search/route.ts:48-60 | the sorted and cut candidates have those properties |
| SearchRoute.RankedOwn | src/app/api/search/route.ts:31-60 | the semantic ranking holds only the user's own articles |
| SearchRoute.Chosen | src/app/api/search/route.ts:31-123 | the semantic ranking over the 200 newest articles when the query embeds and some embedding parses, otherwise the substring search; at most 50 of the user's own articles either way |
| SearchRoute.SemanticOrLexical | src/app/api/search/route.ts:47-83 | with a query vector, the semantic ranking when any pooled embedding parses, otherwise the substring search |
| SearchRoute.Hits | src/app/api/search/route.ts:125-134 | one hit per row, with its linked tag names |
| SearchRoute.Search | src/app/api/search/route.ts:8-143 | 400 exactly for a missing or empty query, 401 exactly for no session, the file store's search on the trimmed query when it is in use, otherwise the chosen rows as hits |
| FallbackStore.WithDefaults | src/lib/fallback-store.ts:37-41 | a stored article missing its e-mail or name gets `null` for it; every other field is kept as stored |
| FallbackStore.ReadStore | src/lib/fallback-store.ts:30-48 | a missing file or a file without an article array reads as empty, an unreadable file is an error, otherwise every stored article with defaults filled in |
| FallbackStore.ShouldUseFallbackStore | src/lib/fallback-store.ts:68-76 | never in production; elsewhere exactly when `DATABASE_URL` is unset or blank |
| FallbackStore.OwnedBy | src/lib/fallback-store.ts:81 | exactly the user's articles |
| FallbackStore.ListArticles | src/lib/fallback-store.ts:78-84 | as many of the user's articles as `take` allows, each at most as often as it is stored, newest first, none left out newer than one kept |
| FallbackStore.SearchArticles | src/lib/fallback-store.ts:132-146 | at most `take` of the user's 1000 newest articles whose lower-cased title, URL, summary or joined tags contain the lower-cased query, each at most as often as it is stored, newest first, no newer match left out, all of them when fewer than `take` |
| FallbackStore.SearchIgnoresQueryCase | src/lib/fallback-store.ts:133 | lower-casing the query first changes nothing |
| FallbackStore.TagMatches | src/lib/fallback-store.ts:140-142 | an article carrying the query as a tag matches |
| FallbackStore.FindIndex | src/lib/fallback-store.ts:110-111 | the first index of the user's article with that id, and none exactly when there is none |
| FallbackStore.ApplyPatch | src/lib/fallback-store.ts:113-117 | id, owner and creation time survive a patch and the update time is now |
| FallbackStore.EmptyPatch | src/lib/fallback-store.ts:113-117 | an empty patch changes only the update time |
| FallbackStore.Without | src/lib/fallback-store.ts:126 | keeps exactly the articles that are not the user's one with that id |
| FallbackStore.Store.constructor | src/lib/fallback-store.ts:45 | a fresh store is empty |
| FallbackStore.Store.Create | src/lib/fallback-store.ts:86-102 | the new article, with a fresh id and both times now, is put in front of the others |
| FallbackStore.Store.Update | src/lib/fallback-store.ts:104-121 | none and no change exactly when the user has no such article; otherwise the first matching entry, as `findIndex` finds it, is replaced by its patched form, which is returned |
| FallbackStore.Store.Delete | src/lib/fallback-store.ts:123-130 | removes exactly the user's article with that id, reports whether one was there, and keeps every other user's articles |
| FetchTitle.Run | src/lib/fetch-title.ts:27 | the length of the longest prefix whose characters all pass the test |
| FetchTitle.CodeUnit | src/lib/fetch-title.ts:28 | the character of the code `n mod 65536` for the exact n, as `String.fromCharCode` gives it for n below 2^53, outside the surrogate range |
| FetchTitle.DecimalAt | src/lib/fetch-title.ts:27 | a `&#digits;` match at the front has a non-empty run of decimal digits |
| FetchTitle.HexAt | src/lib/fetch-title.ts:30 | a `&#xhex;` match at the front has a non-empty run of hex digits |
| FetchTitle.NamedAt | src/lib/fetch-title.ts:33 | a `&[#\w]+;` match at the front has a non-empty name |
| FetchTitle.DecimalStep | src/lib/fetch-title.ts:27-29 | a decimal entity at the front becomes its code unit and the pass continues after it |
| FetchTitle.HexStep | src/lib/fetch-title.ts:30-32 | a hex entity at the front becomes its code unit and the pass continues after it |
| FetchTitle.NamedStep | src/lib/fetch-title.ts:33-35 | an entity-shaped match at the front becomes its table replacement, or stays as it is, and the pass continues after it |
| FetchTitle.DecodeDecimal | src/lib/fetch-title.ts:27-29 | the decimal pass never lengthens the text and never empties a non-empty one |
| FetchTitle.DecodeHex | src/lib/fetch-title.ts:30-32 | the hexadecimal pass never lengthens the text and never empties a non-empty one |
| FetchTitle.Replacement | src/lib/fetch-title.ts:5-35 | a known entity stands for one character; an unknown one is left as written |
| FetchTitle.DecodeNamed | src/lib/fetch-title.ts:33-35 | the named pass never lengthens the text and never empties a non-empty one |
| FetchTitle.DecodeEntities | src/lib/fetch-title.ts:4-36 | decoding never lengthens the text or empties it, and text without `&` is left as it is |
| FetchTitle.NoAmpUnchanged | src/lib/fetch-title.ts:26-35 | text without `&` passes all three replacements unchanged |
| FetchTitle.DecimalEntity | src/lib/fetch-title.ts:26-29 | `&#n;` decodes to the code unit of n, which is what the source gives for n below 2^53 |
| FetchTitle.HexEntity | src/lib/fetch-title.ts:30-32 | `&#xh;` decodes to the code unit of the hex value of h, which is what the source gives for values below 2^53 |
| FetchTitle.NamedEntity | src/lib/fetch-title.ts:5-35 | `&name;` decodes to its table entry, and an unknown name is left as written |
| FetchTitle.NamedFront | src/lib/fetch-title.ts:33-35 | a named entity followed by text without `&` decodes to its replacement followed by that text; for example `&amp;lt;` becomes `&lt;`, a single pass |
| FetchTitle.AmpFeedsNamed | src/lib/fetch-title.ts:26-35 | the passes run in sequence, so `&#38;name;` becomes `&name;` and is then decoded again by the named pass; for example `&#38;lt;` becomes `<` |
| FetchTitle.CodeUnitAmp | src/lib/fetch-title.ts:28 | code 38 is `&` |
| FetchTitle.DecimalFront | src/lib/fetch-title.ts:27-29 | a decimal entity followed by text without `&` becomes its code unit followed by that text |
| FetchTitle.RunOfDigits | src/lib/fetch-title.ts:27 | the digit run of digits followed by a non-digit is exactly the digits |
| FetchTitle.RunOfHexDigits | src/lib/fetch-title.ts:30 | the same for hex digits |
| FetchTitle.RunOfEntityChars | src/lib/fetch-title.ts:33 | the same for `[#\w]` characters |
| FetchTitle.SingleCharUnchanged | src/lib/fetch-title.ts:26-35 | a single character is never an entity |
| FetchTitle.LeadingAmpOnly | src/lib/fetch-title.ts:26-35 | text whose only `&` is in front and that does not match a pass's pattern is left unchanged by that pass |
| FetchTitle.StripWww | src/lib/fetch-title.ts:170 | drops one leading `www.` and nothing else |
| FetchTitle.OgTitle | src/lib/fetch-title.ts:131-136 | empty when the page has no og:title or a blank one; otherwise the trimmed text decoded, never longer, and unchanged when it holds no `&` |
| FetchTitle.TagTitle | src/lib/fetch-title.ts:140-147 | a title from `<title>` is at most 203 characters |
| FetchTitle.Shorten | src/lib/fetch-title.ts:144-146 | a title of at most 200 characters is kept; a longer one becomes its first 200 characters followed by `...` |
| FetchTitle.BodyChars | src/lib/fetch-title.ts:87-100 | the counted body text holds no white space |
| FetchTitle.FallbackTitle | src/lib/fetch-title.ts:166-174 | the host without `www.` when the URL parses, otherwise the URL |
| FetchTitle.FetchTitleAndSummary | src/lib/fetch-title.ts:106-192 | a failed request gives the fallback title, no summary and length 0; otherwise the og:title when non-empty, else the `<title>` title when non-empty, else the fallback; og:description before the description meta tag, trimmed and decoded; the length counts the non-white-space body characters |
| Tagging.UniqueNames | src/lib/tagging.ts:9 | the distinct non-empty trimmed names, each from some input name, and every non-blank input present |
| Tagging.ToAdd | src/lib/tagging.ts:21 | exactly the unique names the article is not yet linked to |
| Tagging.RacedIds | src/lib/tagging.ts:41-50 | the ids a concurrent request links first are among the upserted ids |
| Tagging.NewLinksOfIds | src/lib/tagging.ts:38-40 | the links for the names are the pairs of the article with the upserted ids |
| Tagging.RacedWithin | src/lib/tagging.ts:41-50 | links made by the concurrent request are among the links this call inserts |
| Tagging.MergeTagsToArticle | src/lib/tagging.ts:3-55 | with nothing new to add: added 0, total the current link count, nothing changes; otherwise each new name gets a tag row, existing rows keep their ids, a missing article is a foreign-key error that inserts no link, and success links every new name to the article, adds no other link and returns added = number of new names, total = old count + added; afterwards every given name is linked |
| Tagging.LinkNames | src/lib/tagging.ts:24-51 | upserts the names and links them all to the article, or fails on a missing article with no link added |
| Tagging.UpsertAll | src/lib/tagging.ts:24-32 | one id per name, each the id of that name's tag row; existing rows keep their ids and only the given names are added |
| Tagging.InsertLinks | src/lib/tagging.ts:37-51 | the bulk insert, falling back to one insert at a time that skips duplicates, adds exactly the article's pairs with the ids, or fails on a missing article with no change |
| Tagging.LinkEach | src/lib/tagging.ts:42-50 | inserting one link at a time and skipping duplicate-key errors adds exactly the pairs, and a missing article fails on the first insert with no change |
| Tagging.ToAddNoDups | src/lib/tagging.ts:21 | the names to add repeat nothing |
| Tagging.MergedNamesLinked | src/lib/tagging.ts:9-51 | once the new names are linked, every unique name is linked |
| Tagging.SecondMergeAddsNothing | src/lib/tagging.ts:9-22 | merging the same names again finds nothing to add (idempotence) |
| Tagging.NewLinksCount | src/lib/tagging.ts:38-40 | distinct names with distinct tag ids give as many new links as names |
| Tagging.AddedIsGrowth | src/lib/tagging.ts:53-54 | the link count grows by exactly the number added |
| TagsAutoRoute.UntaggedOf | src/app/api/tags/auto/route.ts:16-23 | exactly the user's articles without a tag |
| TagsAutoRoute.AutoTargets | src/app/api/tags/auto/route.ts:16-23 | the 200 newest of them (or all, when fewer), newest first, each stored row at most once |
| TagsAutoRoute.AutoTag | src/app/api/tags/auto/route.ts:8-50 | 401 exactly without a session, with no change; otherwise links only grow, only the targets gain links, existing tag rows keep their ids, every target ends up linked to every tag extracted from it, a target from which nothing is extracted stays untagged, `processed` is the number of targets, `addedTags` the number of new links and `remaining` the untagged articles left |
| TagsAutoRoute.TagAll | src/app/api/tags/auto/route.ts:25-32 | the loop stops at the first failed merge; only targets gain links, tag rows keep their ids, and when every merge succeeds each target carries its extracted tags, each new link belongs to a target with that tag extracted, and the sum of `added` is the number of new links |
| TagsAutoRoute.TagStep | src/app/api/tags/auto/route.ts:27-31 | one turn of the loop extends the progress made so far by one target, or fails having added links only to targets |
| TagsAutoRoute.TagOne | src/app/api/tags/auto/route.ts:28-29 | one article's merge: on success the article carries every extracted tag, and only it gains links |
| TagsAutoRoute.MergeStep | src/app/api/tags/auto/route.ts:27-31 | a successful merge for the next target keeps every earlier target's tags and adds its own |
| TagsAutoRoute.AutoTagDone | src/app/api/tags/auto/route.ts:27-36 | after the loop, every target has every extracted tag's name among its linked names, and a target with nothing extracted has no link |
| TagsAutoRoute.NewLinksTargeted | src/app/api/tags/auto/route.ts:27-31 | after a failed merge the new links still belong to targets |
| TagsCleanupRoute.CleanupNoisyIff | src/app/api/tags/cleanup/route.ts:31-35 | a tag is removed exactly when it has no normal form, or its normal form is all digits or a generic Japanese or katakana word |
| TagsCleanupRoute.CleanupAgreesWithIsNoisy | src/app/api/tags/cleanup/route.ts:31-35 | for names without `/` or `:` this is the plain noise test |
| TagsCleanupRoute.UserTagIds | src/app/api/tags/cleanup/route.ts:16-21 | exactly the tags linked to some article of the user |
| TagsCleanupRoute.NoisyIds | src/app/api/tags/cleanup/route.ts:26-35 | exactly those of them whose name is noisy |
| TagsCleanupRoute.Cleanup | src/app/api/tags/cleanup/route.ts:7-64 | 401 exactly without a session, with no change; otherwise exactly the user's links to noisy tags are removed, a noisy tag row goes when no link is left to it, other rows stay, and the response gives the removed links and the user's links left |
| TagsCleanupRoute.CleanupFor | src/app/api/tags/cleanup/route.ts:16-56 | the same for a signed-in user |
| TagsCleanupRoute.RemoveNoisy | src/app/api/tags/cleanup/route.ts:37-50 | the loop over the noisy tags removes exactly those links and unused rows and counts the links removed |
| TagsCleanupRoute.RemovalKeepsConsistent | src/app/api/tags/cleanup/route.ts:37-50 | removing those links and rows leaves the database consistent |
| TagsCleanupRoute.RemoveStep | src/app/api/tags/cleanup/route.ts:38-49 | one iteration extends the removal to one more tag |
| TagsCleanupRoute.RemoveTagForUser | src/app/api/tags/cleanup/route.ts:40-49 | deletes the user's links to the tag, counts them, and deletes the tag row exactly when no link to it remains |
| TagsCleanupRoute.LinksStep | src/app/api/tags/cleanup/route.ts:40-42 | removing the user's links tag by tag equals removing them all at once |
| TagsCleanupRoute.TagsStep | src/app/api/tags/cleanup/route.ts:46-49 | the row deletions compose the same way |
| Database.LinksOf | src/lib/tagging.ts:11 | exactly the links of the article |
| Database.LinkedNames | src/app/api/articles/route.ts:209-225 | exactly the names of the tags linked to the article |
| Database.UserLinks | src/app/api/tags/cleanup/route.ts:52-54 | exactly the links whose article belongs to the user |
| Database.UserLinksTo | src/app/api/tags/cleanup/route.ts:40-42 | exactly the user's links to the given tags |
| Database.TagLinks | src/app/api/tags/cleanup/route.ts:46 | exactly the links to the tag |
| Database.UserIndex | scripts/import-fallback-to-db.mjs:49-50 | the position of the user with that e-mail, and none exactly when there is none |
| Database.Upserted | scripts/import-fallback-to-db.mjs:49-59 | an existing user with the e-mail keeps its id and gets the new name when one is given; otherwise a new user with the fresh id is appended; other users are untouched |
| Database.UpsertKeepsConsistent | scripts/import-fallback-to-db.mjs:49-59 | the user upsert keeps the database consistent |
| Database.UpsertKeepsUsersUnique | scripts/import-fallback-to-db.mjs:49-59 | e-mails and ids stay unique and below the next id |
| Database.ShrinkKeepsConsistent | src/app/api/tags/cleanup/route.ts:38-50 | dropping links and unused tag rows keeps the database consistent |
| Database.UserPosition | scripts/import-fallback-to-db.mjs:49-59 | the position of the user with that e-mail |
| Database.PairsSnoc | src/lib/tagging.ts:43-50 | one more id adds one more pair |
| Database.Db.constructor | scripts/import-fallback-to-db.mjs:24 | a fresh database is empty and consistent |
| Database.Db.UpsertTag | src/lib/tagging.ts:26-30 | returns the id of the tag with that name, creating it with a fresh id when missing and changing nothing else |
| Database.Db.CreateLinks | src/lib/tagging.ts:38-40 | inserts all the pairs, or fails as a whole with no change when the article or a tag is missing (foreign-key error) or a pair already exists or repeats |
| Database.Db.CreateLink | src/lib/tagging.ts:45-48 | inserts one pair; foreign-key error exactly when the article or tag is missing, unique error exactly when the pair already exists; no change on error |
| Database.Db.LinkConcurrently | src/lib/tagging.ts:34-36 | a concurrent request links the article to the tags that exist, when the article does |
| Database.Db.DeleteUserLinksOfTag | src/app/api/tags/cleanup/route.ts:40-42 | removes exactly the user's links to the tag and counts them |
| Database.Db.DeleteTag | src/app/api/tags/cleanup/route.ts:46-49 | deletes the tag row, and fails with no change while a link still refers to it |
| Database.Db.UpsertUser | scripts/import-fallback-to-db.mjs:49-59 | the users become the upserted list, the returned user is the one with that e-mail, and a fresh id is used only for a new user |
| Database.Db.CreateArticle | src/app/api/articles/route.ts:190-199 | appends the row with the next fresh id and returns it |
| ImportScript.Records | scripts/import-fallback-to-db.mjs:27 | the `articles` array when there is one, otherwise nothing |
| ImportScript.Name | scripts/import-fallback-to-db.mjs:36 | none exactly when the name is absent or empty, otherwise the trimmed name |
| ImportScript.TagNames | scripts/import-fallback-to-db.mjs:37 | the non-empty trimmed tags, every non-blank tag included |
| ImportScript.BodyLength | scripts/import-fallback-to-db.mjs:76 | a body length exactly when the stored one is a finite number |
| ImportScript.NewRow | scripts/import-fallback-to-db.mjs:70-81 | the new row belongs to the user, keeps URL, title and body length, and is dated by the stored creation time or now |
| ImportScript.LinkTags | scripts/import-fallback-to-db.mjs:83-97 | every tag name gets a row and exactly the article's links to them are added |
| ImportScript.LinkTag | scripts/import-fallback-to-db.mjs:84-96 | upserts the tag and links it to the article, an existing link being ignored |
| ImportScript.StoreRecord | scripts/import-fallback-to-db.mjs:70-97 | the record's row is appended and its tags linked; URLs stay unique per user when the URL was new |
| ImportScript.FreshId | scripts/import-fallback-to-db.mjs:70 | the next id names no existing article |
| ImportScript.ImportRecord | scripts/import-fallback-to-db.mjs:32-100 | a record with blank URL, title or e-mail is skipped with no change; otherwise the user is upserted and the record imported exactly when that user does not have the URL yet, with only its row appended |
| ImportScript.ImportOwned | scripts/import-fallback-to-db.mjs:49-99 | for an importable record: upsert the user, then import exactly when the URL is new for that user |
| ImportScript.StoreIfNew | scripts/import-fallback-to-db.mjs:61-99 | imported exactly when the user does not have the URL yet; otherwise nothing changes |
| ImportScript.Import | scripts/import-fallback-to-db.mjs:18-105 | a blank `DATABASE_URL` and an unreadable file are the two errors and change nothing; otherwise imported + skipped is the number of records, imports never exceed the importable records, the articles only grow, keeping URLs unique per user, and every record with a URL, title and e-mail ends up with a user for that e-mail who has that URL |
| ImportScript.ImportAll | scripts/import-fallback-to-db.mjs:29-100 | every record is counted once, as imported or skipped, the articles grow by the imports, and every importable record has landed: its e-mail has a user who has its URL |
| ImportScript.CountRecord | scripts/import-fallback-to-db.mjs:32-100 | the record is imported exactly when it is importable and its user did not have the URL yet; either way it has landed; earlier users keep their ids and e-mails, and the articles grow by one exactly on import |
| ImportScript.UpsertedKeeps | scripts/import-fallback-to-db.mjs:49-53 | the user upsert keeps every earlier user at its place with its id and e-mail |
| ImportScript.OwnsUrlKept | scripts/import-fallback-to-db.mjs:29-100 | a user's URL stays theirs while users are kept and rows are only appended |
| ImportScript.LandedStep | scripts/import-fallback-to-db.mjs:29-100 | one turn of the loop keeps earlier records landed and lands the current one |
| ImportScript.ImportableCount | scripts/import-fallback-to-db.mjs:44-47 | never more than the records |
| ImportScript.ImportableCountSnoc | scripts/import-fallback-to-db.mjs:44-47 | one more record adds one exactly when it is importable |
| ImportScript.GrownStep | scripts/import-fallback-to-db.mjs:32-100 | growth over consecutive records adds up |
| ImportScript.ReimportSkips | scripts/import-fallback-to-db.mjs:61-68 | once a record is imported, its user has its URL, so running the import again skips it |
| ImportScript.FirstMatch | scripts/import-fallback-to-db.mjs:49-50 | no user before the one found has that e-mail |
| ImportScript.UserIndexFirst | scripts/import-fallback-to-db.mjs:49-50 | the first user with the e-mail is the one found |
| ImportScript.AppendKeepsUnique | scripts/import-fallback-to-db.mjs:61-81 | appending a row whose URL is new for its user keeps URLs unique per user |
| Invite.IsInviteRequired | src/lib/invite.ts:10-12 | unset or empty, invites are not required; `1`, `true`, `yes` or `on` in any letter case, they are |
| Invite.TruthyPadded | src/lib/invite.ts:5-8 | `1`, `true`, `yes` or `on`, in any letter case and with white space around, is truthy |
| Invite.UnsetNotTruthy | src/lib/invite.ts:5-8 | an unset or empty variable is not truthy |
| Invite.ParseInviteCodes | src/lib/invite.ts:14-20 | every code is non-empty, already trimmed and free of the separators (comma, backslash, the letter `n`); an unset or empty variable gives none |
| Invite.ParseFacts | src/lib/invite.ts:16-19 | trimmed parts stay trimmed and free of separators |
| Invite.CodesRoundTrip | src/lib/invite.ts:14-20 | joining trimmed, non-empty, separator-free codes with commas and parsing gives the codes back |
| Invite.TrimmedCodes | src/lib/invite.ts:18-19 | trimming and dropping empties leaves such codes alone |
| Invite.JoinNonEmpty | src/lib/invite.ts:15 | a join whose first part is non-empty is non-empty |
| Invite.IsInviteCodeValid | src/lib/invite.ts:22-34 | always accepted when invites are not required; otherwise a blank code is refused, the trimmed single code is accepted, and any other code is accepted exactly when it is in the parsed list, which refuses everything when empty |
| Invite.CookieSecret | src/lib/invite.ts:36-43 | the first set of the cookie secret, `AUTH_SECRET` and `NEXTAUTH_SECRET`, else the development secret; never empty |
| Invite.CreateInviteCookieValue | src/lib/invite.ts:45-53 | the value begins with `v1.`; with a hex signature it splits on its dots into `v1`, the whole seconds and the signature |
| Invite.Seconds | src/lib/invite.ts:46 | whole seconds, rounded down |
| Invite.ToNumber | src/lib/invite.ts:62 | blank text is the finite 0 and decimal digits are their exact finite value (the source's double agrees below 2^53) |
| Invite.IsInviteCookieValueValid | src/lib/invite.ts:55-82 | always valid when invites are not required; otherwise refused when missing, when not three dot-separated parts, when the version is not `v1`, when the time is not a positive finite number; a well-formed cookie is accepted exactly when its signature is the HMAC of the payload and it is not expired (`nowSec - ts > maxAgeSec`); no cookie expires under a NaN or +Infinity maximum age, every cookie under -Infinity |
| Invite.CookieRoundTrip | src/lib/invite.ts:45-82 | a value created at time t validates at any later time when it is not expired under the maximum age, under the same secret |
| Invite.CreatedCookieParses | src/lib/invite.ts:45-65 | a created value is non-empty, splits into `v1`, its seconds and its signature, and its seconds read back as a finite number whose text is the payload signed |
| Invite.NegativeMaxAgeRefusesAll | src/lib/invite.ts:78-80 | a maximum age reading as -Infinity refuses every cookie while invites are required |
| Invite.CookieParts | src/lib/invite.ts:52-60 | a created value splits into `v1`, the seconds and the signature |
| Invite.DigitsNumber | src/lib/invite.ts:62-65 | the seconds read back as the same number and render the same |
| Invite.DigitsTrimmed | src/lib/invite.ts:62 | the rendered seconds carry no white space |
| Invite.DefaultMaxAge | src/lib/invite.ts:78 | the maximum age defaults to 86400 seconds |
| Services.Truthy | src/app/api/articles/route.ts:103-104 | an e-mail or name is kept exactly when it is present and non-empty |
| Text.LowerChar | src/lib/tags.ts:20 | letters stay letters, other characters are unchanged, the result is never an ASCII capital, and ASCII letters stay ASCII letters |
| Text.ToLower | src/lib/tags.ts:20 | lower-cases character by character, keeping the length |
| Text.ToLowerIdempotent | src/lib/fallback-store.ts:133 | lower-casing twice is lower-casing once |
| Text.TrimStart | src/lib/tags.ts:3 | drops exactly the leading white space |
| Text.TrimEnd | src/lib/tags.ts:3 | drops exactly the trailing white space |
| Text.TrimBlank | src/lib/tags.ts:3-4 | trimming gives the empty string exactly when the text is all white space |
| Text.TrimTwice | src/lib/tags.ts:10 | a trimmed text starts and ends with non-space, so trimming again changes nothing |
| Text.TrimPadded | src/lib/invite.ts:6 | white space around a text is removed and the text kept |
| Text.ContainsToLower | src/lib/fallback-store.ts:137-142 | a contained part stays contained after lower-casing both |
| Text.JoinContainsPart | src/lib/fallback-store.ts:140 | a joined list contains each of its parts |
| Text.SplitOn | src/lib/invite.ts:17 | at least one part, none holding a separator |
| Text.SplitJoin | src/lib/invite.ts:17 | splitting a join of separator-free parts gives the parts back |
| Text.NatToString | src/app/articles/ArticlesClient.tsx:186 | decimal digits without a leading zero |
| Text.DecimalRoundTrip | src/lib/fetch-title.ts:28 | reading back a rendered number gives the number |
| Lists.Filter | src/app/articles/ArticlesClient.tsx:110 | the elements that pass, in order: nothing else, none missing |
| Lists.Dedupe | src/lib/tags.ts:161-163 | `Array.from(new Set(...))`: no repeats, the same elements |
| Lists.DedupeAppend | src/lib/tags.ts:177-183 | de-duplicating a concatenation starts with the first part de-duplicated, followed only by elements not in it |
| Lists.SortDesc | src/app/api/insights/stats/route.ts:76-78 | a permutation in non-increasing key order |
| Lists.TopDesc | src/app/api/insights/route.ts:57-59 | sort by key descending and keep the first n: the n largest (or all), in order, none left out larger |
| Lists.FilterKeepsSorted | src/app/api/search/route.ts:32-41 | filtering a sorted list keeps it sorted |
| Lists.FilterTakeLeftOut | src/lib/fallback-store.ts:140-146 | cutting the matches of a sorted list leaves out no match larger than those kept |
| Lists.MergeFacts | src/lib/tags.ts:183 | merge, de-duplicate, filter and cut: at most n distinct passing elements from either list |
| Lists.Enumerate | src/app/api/insights/stats/route.ts:76 | lists a set's elements once each |
| Lists.Take | src/lib/tags.ts:183 | `slice(0, n)`: the first n elements, or all of them when there are fewer |
| Lists.DistinctCard | src/app/api/insights/route.ts:57 | a list without repeats has as many elements as its set |
| Tags.NormalizeOne | src/lib/tags.ts:101-102 | a matched word contributes nothing or exactly one canonical tag |
| Text.CollapseSpaces | src/lib/fetch-title.ts:142 | collapsing runs of white space never lengthens the text |
| Text.RemoveSpaces | src/lib/fetch-title.ts:98 | the result holds no white space and is no longer than the input |

## Left out

- Network I/O: the page fetch with its timeout, and the regular expressions that find the title, the meta tags and the body region in the HTML (`src/lib/fetch-title.ts:41-95`, `111-164`); the page arrives as the text they captured.
- The OpenAI client: `createEmbedding`, `generateWeeklyInsightSummary`, `parseEmbedding` and `cosineSimilarity` are parameters; a similarity score is a `real`.
- Floating point: scores, percentages and the recency decay are exact reals; `Math.exp` is the parameter `decay`, and rounding to hundredths is done on reals.
- Time zones and daylight saving: every day is 86 400 000 ms of local time; ISO date text and its parsing are replaced by millisecond numbers.
- Database semantics: transactions, collation and the database-dependent case sensitivity of `contains` (modelled as case-sensitive substring search), `LIKE` wildcards, `distinct`, and generated ids (a counter stands for them).
- Concurrency: only as the `racing` parameter of tag merging; concurrent enrichment of one article is not modelled.
- File-store persistence: reading the JSON file, the temporary file, the rename and `randomUUID` ids; `FallbackStore.ReadStore` states how file content becomes the article list.
- Session lookup, NextAuth, sign-up validation, the invite route's cookie setting, routing middleware and the health check: the session is a parameter.
- Malformed request bodies (`req.json()` failing) and the handlers' catch-all 500 replies.
- The list page's React state, its fetch calls, `onMarkRead`/`onDelete` and router navigation; only its pure helpers are modelled.
- The import script's console output, closing the database connection and the process exit code.
- `inviteAcceptedAt` on users: nothing in the core reads it.
- Strings are sequences of Unicode scalar values, while JavaScript counts UTF-16 code units; lengths differ for characters outside the Basic Multilingual Plane, and a `&#N;` that names a lone surrogate decodes to U+FFFD.
- `\p{L}` and `\p{N}` are character ranges covering Latin, Greek, Cyrillic, the kana, CJK ideographs, Hangul and the common digit blocks, not the whole Unicode database.
- `toLowerCase` covers ASCII, Latin-1, Greek and Cyrillic letters one character at a time; other scripts are unchanged and length-changing mappings are not modelled.
- `Number` of text other than decimal digits is the parameter `other`, which answers NaN, +Infinity, -Infinity or a finite value, and the rendering of a number that is not whole is the parameter `show`. Decimal digits are read exactly, not as a double; see `Invite.ToNumber` below.
- `timingSafeEqual` after the byte-length check is ordinary equality of the two texts; the separate UTF-8 length comparison is folded into it.
- `bodyLength` is a whole number of characters; a fractional value cannot arise from the counting code and is not modelled.
- FallbackStore.ListArticles: the order of two articles with equal creation time is left open, since its comparator never answers 0 and the resulting order depends on the sort implementation.
- ArticlesClient.SortArticles: articles equal in read state and creation time keep no particular relative order in the contract.
- FetchTitle.CodeUnit: takes `n mod 65536` of the exact value of the digits. `parseInt` gives a double, which is exact only below 2^53 and is Infinity from about 1.8e308, where `String.fromCharCode` gives U+0000. So `&#9007199254740993;` (2^53 + 1) decodes to U+0001 in the model, but to U+0000 in the source, where `parseInt` rounds it to 2^53.
- FetchTitle.DecimalEntity: agrees with the source only for n below 2^53, for the reason given under `FetchTitle.CodeUnit`.
- FetchTitle.HexEntity: agrees with the source only for a hex value below 2^53, for the same reason (`parseInt(hex, 16)` is a double too).
- Invite.ToNumber: reads decimal digits as their exact value. JavaScript's `Number` rounds them to a double above 2^53 and gives Infinity from about 1.8e308, a time the source then rejects as not finite.
- Invite.IsInviteCookieValueValid: signs `v1.` followed by the exact digits of the time. The source signs `${Number(tsRaw)}`, which above 2^53 is the rounded double and from 1e21 is written in exponent notation (`1e+21`). The two agree for every time below 2^53 seconds, which covers every cookie `Invite.CreateInviteCookieValue` makes from a clock below 2^53 seconds.
- FetchTitle.TagTitle: states only the bound of 200 characters plus `...`; what the title is, is stated by `FetchTitle.Shorten` and the entity-decoding lemmas (`FetchTitle.DecimalEntity`, `FetchTitle.HexEntity`, `FetchTitle.NamedEntity`, `FetchTitle.AmpFeedsNamed`).
- Tags.HashtagMatches: states the shape of each match (length and characters), not that the matches are the leftmost-longest ones the regular expression finds.
- Tags.EnglishMatches: states the shape of each match, not the regular expression's leftmost-longest matching.
- Tags.KatakanaMatches: states the shape of each match, not the regular expression's leftmost-longest matching.
- Database.Db.DeleteUserLinksOfTag: does not carry `Valid()` itself; the cleanup re-establishes it after a whole round of deletions.
- Database.Db.DeleteTag: does not carry `Valid()` itself, for the same reason.
- Tags.NormalizeIdempotent: holds of the model only because `Text.LowerChar` leaves U+0130 (`İ`) unchanged. JavaScript lower-cases it to two characters, `i` followed by U+0307, and U+0307 is neither `\p{L}` nor `\p{N}`. So `normalizeTag("İx")` gives `"i̇x"`, and normalising that again gives `"ix"`: in the source, normalisation is not idempotent on this input.
- Tags.CanonicalIsFixedPoint: the same gap. The model counts a tag containing U+0130 as canonical and as a fixed point, whereas the source never outputs U+0130 and splits it into `i` plus U+0307, which a second pass drops.
- Lists.SortDesc: states order and permutation, not stability. JavaScript's `sort` is stable, so among equal keys the source keeps input order; the model leaves that order open. Where it matters (which tag among equal counts makes the top five, the order of equally scored recommendations), the contracts admit every tie order.


=== FILE: articles_client.dfy ===
/**
 * The list page's pure helpers: the order articles are shown in (unread
 * first, newest first), which articles are queued for a title refresh, the
 * tag filter with its unread count, the content-type badge, the "added ...
 * ago" label, the reading-time estimate and the title shown for an article.
 */
module ArticlesClient {
  import opened Wrappers
  import opened Text
  import opened Lists

  /**
   * An article as the page receives it. `createdAt` is the time its ISO
   * string parses to, in ms; `readAt` is kept as the string it arrives as.
   */
  datatype Article = Article(
    id: string,
    url: string,
    title: string,
    summary: Option<string>,
    bodyLength: Option<int>,
    readAt: Option<string>,
    createdAt: int,
    tags: seq<string>)

  /** `!!a.readAt`: a missing or empty read time means unread. */
  predicate IsRead(a: Article) {
    a.readAt.Some? && a.readAt.value != []
  }

  // ---------------------------------------------------------------------
  // Ordering

  /** The intended order: unread before read, and within one state the newer first. */
  predicate Before(a: Article, b: Article) {
    (!IsRead(a) && IsRead(b)) || (IsRead(a) == IsRead(b) && a.createdAt > b.createdAt)
  }

  /** The comparator handed to `sort`: negative puts a first, positive puts b first. */
  function Compare(a: Article, b: Article): (r: int)
    ensures r < 0 <==> Before(a, b)
    ensures r > 0 <==> Before(b, a)
    ensures r == 0 <==> IsRead(a) == IsRead(b) && a.createdAt == b.createdAt
  {
    if !IsRead(a) && IsRead(b) then -1
    else if IsRead(a) && !IsRead(b) then 1
    else b.createdAt - a.createdAt
  }

  /** No article is placed after one the comparator would put behind it. */
  predicate Ordered(s: seq<Article>) {
    forall i, j :: 0 <= i < j < |s| ==> Compare(s[i], s[j]) <= 0
  }

  /** Inserts x after every article it does not strictly precede. */
  function Insert(x: Article, s: seq<Article>): (r: seq<Article>)
    requires Ordered(s)
    ensures Ordered(r)
    ensures multiset(r) == multiset(s) + multiset{x}
  {
    if s == [] then [x]
    else if Compare(x, s[0]) < 0 then [x] + s
    else
      var rest := Insert(x, s[1..]);
      AfterHead(x, s, rest);
      assert s == [s[0]] + s[1..];
      [s[0]] + rest
  }

  lemma AfterHead(x: Article, s: seq<Article>, rest: seq<Article>)
    requires s != [] && Ordered(s) && Compare(x, s[0]) >= 0
    requires multiset(rest) == multiset(s[1..]) + multiset{x}
    ensures forall j :: 0 <= j < |rest| ==> Compare(s[0], rest[j]) <= 0
  {
    forall j | 0 <= j < |rest| ensures Compare(s[0], rest[j]) <= 0 {
      assert rest[j] in multiset(rest);
      if rest[j] != x {
        assert rest[j] in multiset(s[1..]);
        assert rest[j] in s[1..];
      }
    }
  }

  /**
   * `[...articles].sort(compare)`: the same articles, unread ones first and
   * within each group the newest first.
   */
  function SortArticles(s: seq<Article>): (r: seq<Article>)
    ensures multiset(r) == multiset(s)
    ensures |r| == |s|
    ensures forall i, j :: 0 <= i < j < |r| && IsRead(r[i]) ==> IsRead(r[j])
    ensures forall i, j :: 0 <= i < j < |r| && IsRead(r[i]) == IsRead(r[j]) ==>
      r[i].createdAt >= r[j].createdAt
    ensures Ordered(r)
  {
    if s == [] then []
    else
      assert s == s[..|s| - 1] + [s[|s| - 1]];
      Insert(s[|s| - 1], SortArticles(s[..|s| - 1]))
  }

  /** The comparator is consistent, as `sort` needs: swapping its arguments negates it, and it is transitive. */
  lemma ComparatorConsistent(a: Article, b: Article, c: Article)
    ensures Compare(a, b) == -Compare(b, a)
    ensures Compare(a, b) <= 0 && Compare(b, c) <= 0 ==> Compare(a, c) <= 0
  {
  }

  // ---------------------------------------------------------------------
  // Refresh queue

  /** The url with a leading `http://` or `https://` and then one trailing `/` removed. */
  function Bare(url: string): (r: string)
    ensures exists p | p in Schemes :: StartsWith(url, p) && (url == p + r || url == p + r + "/")
    ensures !StartsWith(url, "http://") && !StartsWith(url, "https://") && (url == [] || url[|url| - 1] != '/') ==>
      r == url
  {
    var rest := if StartsWith(url, "http://") then url[7..]
      else if StartsWith(url, "https://") then url[8..]
      else url;
    var p := url[..|url| - |rest|];
    assert url == p + rest;
    if rest != [] && rest[|rest| - 1] == '/' then
      assert rest == rest[..|rest| - 1] + "/";
      rest[..|rest| - 1]
    else rest
  }

  /** The prefixes `Bare` may remove. */
  const Schemes: set<string> := {"", "http://", "https://"}

  /** A host (or path) behind either scheme, with or without a trailing slash, comes back bare. */
  lemma BareOfLink(host: string, slash: bool, secure: bool)
    requires host != [] && host[|host| - 1] != '/'
    ensures Bare((if secure then "https://" else "http://") + host + (if slash then "/" else "")) == host
  {
    var scheme := if secure then "https://" else "http://";
    var tail := if slash then "/" else "";
    var url := scheme + host + tail;
    assert url == scheme + (host + tail);
    assert url[..|scheme|] == scheme;
    if secure {
      assert !StartsWith(url, "http://") by { assert url[4] == 's'; }
    }
    assert url[|scheme|..] == host + tail;
  }

  /** The display title falls back to the url. */
  predicate TitleIsUrl(a: Article) {
    a.title == [] || a.title == a.url || StartsWith(a.title, "http")
  }

  /**
   * The refresh filter: a title that is missing or looks like the url, or no
   * body length. Every article displayed under its url instead of its title
   * is queued; one that is not queued shows its own title, which is not its
   * bare url.
   */
  predicate NeedsRefresh(a: Article): (stale: bool)
    ensures DisplayTitle(a) != a.title ==> stale
    ensures !stale ==> DisplayTitle(a) == a.title && a.title != Bare(a.url)
  {
    TitleIsUrl(a) || a.title == Bare(a.url) || a.bodyLength.None? || a.bodyLength.value == 0
  }

  /** The articles queued for `update-title`, in the order they were fetched. */
  function ToRefresh(fetched: seq<Article>): (r: seq<Article>)
    ensures forall k :: 0 <= k < |r| ==> r[k] in fetched && NeedsRefresh(r[k])
    ensures forall a :: a in fetched && NeedsRefresh(a) ==> a in r
  {
    Filter(fetched, NeedsRefresh)
  }

  /** The heading shown for an article: its title, or the bare url when the title looks like a url. */
  function DisplayTitle(a: Article): (r: string)
    ensures !TitleIsUrl(a) ==> r == a.title && r != [] && !StartsWith(r, "http")
    ensures TitleIsUrl(a) ==> r == Bare(a.url)
  {
    if a.title != [] && a.title != a.url && !StartsWith(a.title, "http") then a.title else Bare(a.url)
  }

  // ---------------------------------------------------------------------
  // Tag filter and unread count

  predicate HasTag(t: string, a: Article) { t in a.tags }

  /**
   * `visibleArticles`: with a (non-empty) `tag` parameter the articles
   * carrying that tag, in list order; otherwise all of them.
   */
  function Visible(articles: seq<Article>, selected: Option<string>): (r: seq<Article>)
    ensures selected.None? || selected.value == [] ==> r == articles
    ensures selected.Some? && selected.value != [] ==>
      (forall k :: 0 <= k < |r| ==> r[k] in articles && selected.value in r[k].tags) &&
      (forall a :: a in articles && selected.value in a.tags ==> a in r)
  {
    if selected.Some? && selected.value != [] then
      Filter(articles, a => HasTag(selected.value, a))
    else articles
  }

  predicate Unread(a: Article) { !IsRead(a) }

  /** `unreadCount`: how many of the visible articles are unread. */
  function UnreadCount(visible: seq<Article>): (r: nat)
    ensures r <= |visible|
    ensures r == |visible| <==> forall k :: 0 <= k < |visible| ==> !IsRead(visible[k])
    ensures r == 0 <==> forall k :: 0 <= k < |visible| ==> IsRead(visible[k])
  {
    FilterShorter(visible, Unread);
    FilterEmpty(visible, Unread);
    |Filter(visible, Unread)|
  }

  /** Narrowing to a tag never raises the unread count. */
  lemma {:induction false} TagNarrowsUnread(articles: seq<Article>, t: string)
    ensures UnreadCount(Visible(articles, Some(t))) <= UnreadCount(articles)
  {
    if t != [] {
      CountFiltered(articles, a => HasTag(t, a));
    }
  }

  lemma {:induction false} CountFiltered(s: seq<Article>, p: Article -> bool)
    ensures |Filter(Filter(s, p), Unread)| <= |Filter(s, Unread)|
  {
    if s != [] {
      var init, z := s[..|s| - 1], s[|s| - 1];
      CountFiltered(init, p);
      var kept := if p(z) then [z] else [];
      assert Filter(s, p) == Filter(init, p) + kept;
      FilterAppend(Filter(init, p), kept, Unread);
      assert Filter(s, Unread) == Filter(init, Unread) + (if Unread(z) then [z] else []);
    }
  }

  /** The visible articles keep the unread-first, newest-first order of the list they come from. */
  lemma {:induction false} VisibleKeepsOrder(articles: seq<Article>, selected: Option<string>)
    requires Ordered(articles)
    ensures Ordered(Visible(articles, selected))
  {
    if selected.Some? && selected.value != [] {
      FilterKeepsOrdered(articles, a => HasTag(selected.value, a));
    }
  }

  lemma FilterKeepsOrdered(s: seq<Article>, p: Article -> bool)
    requires Ordered(s)
    ensures Ordered(Filter(s, p))
  {
    FilterKeepsPairwise(s, p, Precedes);
  }

  /** a may stand before b in the list. */
  predicate Precedes(a: Article, b: Article) { Compare(a, b) <= 0 }

  // ---------------------------------------------------------------------
  // Badges and labels

  datatype ContentType = ContentType(kind: string, icon: string)

  const VideoType := ContentType("動画", "▶")
  const PageType := ContentType("記事", "📄")

  /** A url that mentions `youtube.com` or `youtu.be` anywhere is a video. */
  function GetContentType(url: string): (r: ContentType)
    ensures r == VideoType <==> Contains(url, "youtube.com") || Contains(url, "youtu.be")
    ensures r == VideoType || r == PageType
  {
    if Contains(url, "youtube.com") || Contains(url, "youtu.be") then VideoType else PageType
  }

  /** Watch links and short links are both videos. */
  lemma YouTubeLinksAreVideos(id: string)
    ensures GetContentType("https://www.youtube.com/watch?v=" + id) == VideoType
    ensures GetContentType("https://youtu.be/" + id) == VideoType
  {
    var watch := "https://www.youtube.com/watch?v=" + id;
    assert OccursAt(watch, "youtube.com", 12) by { assert watch[12..23] == "youtube.com"; }
    var short := "https://youtu.be/" + id;
    assert OccursAt(short, "youtu.be", 8) by { assert short[8..16] == "youtu.be"; }
  }

  const HourMs := 3_600_000
  const DayMs := 86_400_000

  /**
   * `formatTimeAgo`: whole hours since the article was added, then whole
   * days; anything under an hour (or in the future) is one label.
   */
  function FormatTimeAgo(createdAt: int, now: int): (r: string)
    ensures now - createdAt < HourMs ==> r == "1時間未満"
    ensures HourMs <= now - createdAt < DayMs ==>
      1 <= (now - createdAt) / HourMs < 24 && r == NatToString((now - createdAt) / HourMs) + "時間前に追加しました"
    ensures DayMs <= now - createdAt < 2 * DayMs ==> r == "1日前に追加しました"
    ensures 2 * DayMs <= now - createdAt ==>
      2 <= (now - createdAt) / DayMs && r == NatToString((now - createdAt) / DayMs) + "日前に追加しました"
  {
    var diffMs := now - createdAt;
    var diffHours := diffMs / HourMs;
    var diffDays := diffHours / 24;
    HoursThenDays(diffMs);
    if diffHours < 1 then "1時間未満"
    else if diffHours < 24 then IntToString(diffHours) + "時間前に追加しました"
    else if diffDays == 1 then "1日前に追加しました"
    else IntToString(diffDays) + "日前に追加しました"
  }

  /** Flooring to hours and then to days is flooring to days. */
  lemma HoursThenDays(ms: int)
    ensures (ms / HourMs) / 24 == ms / DayMs
  {
    var h := ms / HourMs;
    var d := h / 24;
    assert h * HourMs <= ms < h * HourMs + HourMs;
    assert d * 24 <= h < d * 24 + 24;
    assert d * DayMs <= ms < d * DayMs + DayMs;
  }

  // ---------------------------------------------------------------------
  // Reading time

  /** Characters read per minute. */
  const CharsPerMinute := 400

  /**
   * The minutes `estimateReadTime` shows: the body length rounded up to
   * whole minutes when it is positive; otherwise 5 when title and summary
   * are both empty, else four times the summary plus half the title,
   * rounded up; never less than one.
   */
  function ReadMinutes(title: string, bodyLength: Option<int>, summary: Option<string>): (m: nat)
    ensures m >= 1
    ensures bodyLength.Some? && bodyLength.value > 0 ==>
      CharsPerMinute * (m - 1) < bodyLength.value <= CharsPerMinute * m
    ensures !(bodyLength.Some? && bodyLength.value > 0) && title == [] && SummaryLength(summary) == 0 ==> m == 5
    ensures !(bodyLength.Some? && bodyLength.value > 0) && (title != [] || SummaryLength(summary) != 0) ==>
      var estimate := 4.0 * SummaryLength(summary) as real + 0.5 * |title| as real;
      (CharsPerMinute * (m - 1)) as real < estimate <= (CharsPerMinute * m) as real
  {
    if bodyLength.Some? && bodyLength.value > 0 then
      CeilDiv(bodyLength.value, CharsPerMinute)
    else if |title| == 0 && SummaryLength(summary) == 0 then 5
    else
      var m := CeilDiv(8 * SummaryLength(summary) + |title|, 2 * CharsPerMinute);
      assert 4.0 * SummaryLength(summary) as real + 0.5 * |title| as real
        == (8 * SummaryLength(summary) + |title|) as real / 2.0;
      m
  }

  function SummaryLength(summary: Option<string>): nat {
    if summary.Some? then |summary.value| else 0
  }

  /** `Math.ceil(x / d)` for a positive x. */
  function CeilDiv(x: int, d: int): (q: nat)
    requires x > 0 && d > 0
    ensures q >= 1 && d * (q - 1) < x <= d * q
  {
    (x + d - 1) / d
  }

  /** A longer body never reads faster. */
  lemma LongerBodyNotFaster(title: string, summary: Option<string>, b1: int, b2: int)
    requires 0 < b1 <= b2
    ensures ReadMinutes(title, Some(b1), summary) <= ReadMinutes(title, Some(b2), summary)
  {
  }

  /**
   * The label: `${minutes} min read`. It ends in " min read", and what
   * comes before is a number in decimal, without a leading zero, that
   * reads back as the minutes.
   */
  function EstimateReadTime(title: string, bodyLength: Option<int>, summary: Option<string>): (r: string)
    ensures |r| >= 10 && r[|r| - 9..] == " min read"
    ensures AllAsciiDigits(r[..|r| - 9]) && (|r| > 10 ==> r[0] != '0')
    ensures DecimalValue(r[..|r| - 9]) == ReadMinutes(title, bodyLength, summary)
  {
    var minutes := ReadMinutes(title, bodyLength, summary);
    var digits := NatToString(minutes);
    DecimalRoundTrip(minutes);
    var r := digits + " min read";
    assert r[..|r| - 9] == digits;
    r
  }
}

=== FILE: articles_route.dfy ===
/**
 * `/api/articles`: `POST` saves a URL for the signed-in user, either at once
 * with the host name as title (`mode: "fast"`) or after fetching the page,
 * embedding its title and tagging it; `GET` lists the user's 50 newest
 * articles. Each goes to the file store when no database is configured.
 */
module ArticlesRoute {
  import opened Wrappers
  import opened Text
  import opened Lists
  import opened Database
  import opened Services
  import FS = FallbackStore
  import FetchTitle
  import Tags
  import Tagging

  /** How many articles `GET` returns. */
  const ListSize: nat := 50

  /**
   * `hostnameOrUrl`: the URL's host without a leading `www.`, or the URL
   * itself when it does not parse or the host is empty; never empty for a
   * non-empty URL.
   */
  function HostnameOrUrl(rawUrl: string, hostOf: string -> Option<string>): (r: string)
    ensures hostOf(rawUrl).None? ==> r == rawUrl
    ensures hostOf(rawUrl).Some? && FetchTitle.StripWww(hostOf(rawUrl).value) != [] ==>
      r == FetchTitle.StripWww(hostOf(rawUrl).value)
    ensures hostOf(rawUrl).Some? && FetchTitle.StripWww(hostOf(rawUrl).value) == [] ==> r == rawUrl
    ensures rawUrl != [] ==> r != []
  {
    match hostOf(rawUrl)
    case None => rawUrl
    case Some(h) => if FetchTitle.StripWww(h) != [] then FetchTitle.StripWww(h) else rawUrl
  }

  /** An article as the database branch returns it, with the names of its tags. */
  datatype ArticleView = ArticleView(
    id: ArticleId,
    url: string,
    title: string,
    summary: Option<string>,
    bodyLength: Option<int>,
    readAt: Option<int>,
    createdAt: int,
    updatedAt: int,
    tags: set<string>)

  function ViewOf(a: DbArticle, tags: set<string>): (v: ArticleView)
    ensures v.id == a.id && v.url == a.url && v.title == a.title && v.tags == tags
  {
    ArticleView(a.id, a.url, a.title, a.summary, a.bodyLength, a.readAt, a.createdAt, a.updatedAt, tags)
  }

  /** The title, summary and body length the enriched path stores. */
  datatype Fields = Fields(title: string, summary: Option<string>, bodyLength: Option<int>)

  /**
   * The enriched path's fields: the title starts as the URL and is replaced
   * only by a non-empty fetched title; the body length is kept only when
   * positive; a failed fetch (`None`) leaves the defaults.
   */
  function Enriched(url: string, fetched: Option<FetchTitle.Fetched>): (f: Fields)
    ensures url != [] ==> f.title != []
    ensures f.title == url || (fetched.Some? && f.title == fetched.value.title)
    ensures fetched.None? ==> f == Fields(url, None, None)
    ensures fetched.Some? ==> f.summary == fetched.value.summary
    ensures f.bodyLength.Some? <==> fetched.Some? && fetched.value.bodyLength > 0
    ensures f.bodyLength.Some? ==> f.bodyLength.value == fetched.value.bodyLength && f.bodyLength.value > 0
  {
    match fetched
    case None => Fields(url, None, None)
    case Some(page) =>
      Fields(if page.title != [] then page.title else url,
             page.summary,
             if page.bodyLength > 0 then Some(page.bodyLength) else None)
  }

  /**
   * The stored embedding: the encoded vector the service returns for
   * `"{title} {url}"`, or none when it returns null or throws.
   */
  function EmbeddingJson(title: string, url: string, embed: string -> EmbedOutcome, encode: Vector -> string)
    : (e: Option<string>)
    ensures e.Some? <==> embed(title + " " + url).Returned? && embed(title + " " + url).vector.Some?
    ensures e.Some? ==> e.value == encode(embed(title + " " + url).vector.value)
  {
    match embed(title + " " + url)
    case Returned(Some(v)) => Some(encode(v))
    case _ => None
  }

  /** The database row of a new article before its id is drawn. */
  function Row(u: UserId, url: string, f: Fields, embedding: Option<string>, now: int): DbArticle {
    DbArticle(0, u, url, f.title, f.summary, f.bodyLength, embedding, None, now, now)
  }

  /** The file-store fields of a new article. */
  function Data(s: Session, url: string, f: Fields, embedding: Option<string>, tags: seq<string>): FS.NewArticle {
    FS.NewArticle(Truthy(s.email), Truthy(s.name), url, f.title, f.summary, f.bodyLength, embedding, tags, None)
  }

  datatype PostResponse =
    | BadRequest
    | Unauthorized
    | SavedInFile(saved: FS.Article)
    | SavedInDb(article: ArticleView)

  /**
   * The `POST` handler. `url` is the body's `url` when it is a string, `mode`
   * its `mode`; `fetch` stands for `fetchTitleAndSummary` (`None` when it
   * throws), `embed` for `createEmbedding`, `encode` for `JSON.stringify`,
   * `hostOf` for URL parsing; `now` is the clock.
   */
  method Post(db: Db, store: FS.Store, env: Env, session: Option<Session>, url: Option<string>, mode: Option<string>,
              fetch: string -> Option<FetchTitle.Fetched>, embed: string -> EmbedOutcome, encode: Vector -> string,
              hostOf: string -> Option<string>, now: int)
    returns (r: PostResponse)
    requires db.Valid() && store.Valid()
    modifies db, store
    ensures db.Valid() && store.Valid()
    ensures r == BadRequest <==> url.None? || url.value == []
    ensures r == Unauthorized <==> url.Some? && url.value != [] && session.None?
    ensures r.BadRequest? || r.Unauthorized? ==> unchanged(db) && unchanged(store)
    ensures r.SavedInFile? <==> url.Some? && url.value != [] && session.Some? && UseFallback(env)
    ensures r.SavedInFile? ==> unchanged(db) && store.articles == [r.saved] + old(store.articles)
    ensures r.SavedInDb? ==> unchanged(store) && db.users == old(db.users)
    ensures r.SavedInFile? && mode == Some("fast") ==>
      r.saved == FS.Article(old(store.nextId), session.value.id, Truthy(session.value.email), Truthy(session.value.name),
                            url.value, HostnameOrUrl(url.value, hostOf), None, None, None, [], None, now, now)
    ensures r.SavedInDb? && mode == Some("fast") ==>
      var row := Row(session.value.id, url.value, Fields(HostnameOrUrl(url.value, hostOf), None, None), None, now)
                   .(id := old(db.nextId));
      db.articles == old(db.articles) + [row] && r.article == ViewOf(row, {})
      && db.tags == old(db.tags) && db.links == old(db.links)
    ensures r.SavedInFile? && mode != Some("fast") ==>
      var f := Enriched(url.value, fetch(url.value));
      r.saved == FS.Article(old(store.nextId), session.value.id, Truthy(session.value.email), Truthy(session.value.name),
                            url.value, f.title, f.summary, f.bodyLength, EmbeddingJson(f.title, url.value, embed, encode),
                            Tags.ArticleTags(f.title, f.summary), None, now, now)
    ensures r.SavedInDb? && mode != Some("fast") ==>
      var f := Enriched(url.value, fetch(url.value));
      var row := Row(session.value.id, url.value, f, EmbeddingJson(f.title, url.value, embed, encode), now)
                   .(id := old(db.nextId));
      db.articles == old(db.articles) + [row]
      && r.article == ViewOf(row, LinkedNames(db.tags, db.links, row.id))
      && (forall t :: t in Tags.ArticleTags(f.title, f.summary) ==> t in r.article.tags)
      && old(db.links) <= db.links
      && (forall l :: l in db.links && l !in old(db.links) ==> l.0 == row.id)
  {
    if url.None? || url.value == [] {
      return BadRequest;
    }
    var link := url.value;
    var fast := mode == Some("fast");
    if session.None? {
      return Unauthorized;
    }
    var user := session.value;
    var useFile := UseFallback(env);

    if fast {
      var f := Fields(HostnameOrUrl(link, hostOf), None, None);
      if useFile {
        var saved := store.Create(user.id, Data(user, link, f, None, []), now);
        return SavedInFile(saved);
      }
      var created := db.CreateArticle(Row(user.id, link, f, None, now));
      return SavedInDb(ViewOf(created, {}));
    }

    var f := Enriched(link, fetch(link));
    var embedding := EmbeddingJson(f.title, link, embed, encode);

    if useFile {
      var tags := Tags.ExtractArticleTags(f.title, f.summary, link);
      var saved := store.Create(user.id, Data(user, link, f, embedding, tags), now);
      return SavedInFile(saved);
    }

    var view := SaveEnriched(db, Row(user.id, link, f, embedding, now), f);
    return SavedInDb(view);
  }

  /**
   * The non-fast database branch of `POST`: create the row, then merge the
   * tags extracted from its title and summary into it; the view shows the
   * row with the names now linked to it.
   */
  method SaveEnriched(db: Db, row: DbArticle, f: Fields) returns (view: ArticleView)
    requires db.Valid()
    modifies db
    ensures db.Valid() && db.users == old(db.users)
    ensures db.articles == old(db.articles) + [row.(id := old(db.nextId))]
    ensures view == ViewOf(row.(id := old(db.nextId)), LinkedNames(db.tags, db.links, old(db.nextId)))
    ensures forall t :: t in Tags.ArticleTags(f.title, f.summary) ==> t in view.tags
    ensures old(db.links) <= db.links
    ensures forall l :: l in db.links && l !in old(db.links) ==> l.0 == old(db.nextId)
  {
    var created := db.CreateArticle(row);
    var tags := Tags.ExtractArticleTags(f.title, f.summary, row.url);
    assert HasArticle(db.articles, created.id) by {
      assert db.articles[|db.articles| - 1] == created;
    }
    var merged := Tagging.MergeTagsToArticle(db, created.id, tags, {});
    // A failed merge is logged and ignored; the article is returned either way.
    CanonicalNamesKept(tags);
    view := ViewOf(created, LinkedNames(db.tags, db.links, created.id));
  }

  /** Normalised tags are their own trim and not blank, so the merge keeps every one of them. */
  lemma CanonicalNamesKept(tags: seq<string>)
    requires forall k :: 0 <= k < |tags| ==> Tags.IsCanonical(tags[k])
    ensures forall t :: t in tags ==> t in Tagging.UniqueNames(tags)
  {
    forall t | t in tags ensures t in Tagging.UniqueNames(tags) {
      var k :| 0 <= k < |tags| && tags[k] == t;
      Tags.TagCharFacts(t[0]);
      Tags.TagCharFacts(t[|t| - 1]);
      TrimKeeps(t);
    }
  }

  datatype GetResponse =
    | GetUnauthorized
    | ListedFromFile(saved: seq<FS.Article>)
    | ListedFromDb(articles: seq<ArticleView>)

  /** User u's 50 newest rows, as `findMany({ where: { userId }, orderBy: { createdAt: "desc" }, take: 50 })`. */
  function NewestRows(articles: seq<DbArticle>, u: UserId, take: nat): (r: seq<DbArticle>)
    ensures |r| <= take
    ensures SortedDesc(r, CreatedKey)
    ensures forall k :: 0 <= k < |r| ==> r[k] in articles && r[k].userId == u
    ensures forall a :: a in articles && a.userId == u && a !in r ==>
      forall k :: 0 <= k < |r| ==> a.createdAt <= r[k].createdAt
    ensures |r| < take ==> forall a :: a in articles && a.userId == u ==> a in r
    ensures multiset(r) <= multiset(articles)
    ensures UniqueIds(articles) ==> UniqueIds(r)
  {
    var r := FilterTop(articles, (a: DbArticle) => a.userId == u, CreatedKey, take);
    SubMultisetKeepsUnique(r, articles, IdOf);
    r
  }

  /** The rows with the names of their tags. */
  function Views(rows: seq<DbArticle>, tags: map<string, TagId>, links: set<Link>): (r: seq<ArticleView>)
    ensures |r| == |rows|
    ensures forall k :: 0 <= k < |r| ==> r[k] == ViewOf(rows[k], LinkedNames(tags, links, rows[k].id))
  {
    seq(|rows|, k requires 0 <= k < |rows| => ViewOf(rows[k], LinkedNames(tags, links, rows[k].id)))
  }

  /** v shows one of user u's rows with the names of its tags. */
  ghost predicate ShowsOwnRow(v: ArticleView, articles: seq<DbArticle>, u: UserId,
                              tags: map<string, TagId>, links: set<Link>) {
    exists a :: a in articles && a.userId == u && v == ViewOf(a, LinkedNames(tags, links, a.id))
  }

  /**
   * What the listing promises: at most 50 of user u's rows with their tags,
   * newest first; every row of u left out is no newer than every one listed;
   * all of u's rows when fewer than 50 are listed; no row listed twice.
   */
  ghost predicate ListingOk(views: seq<ArticleView>, articles: seq<DbArticle>, u: UserId,
                            tags: map<string, TagId>, links: set<Link>) {
    |views| <= ListSize
    && (forall k :: 0 <= k < |views| ==> ShowsOwnRow(views[k], articles, u, tags, links))
    && (forall i, j :: 0 <= i < j < |views| ==> views[i].createdAt >= views[j].createdAt)
    && (forall a :: a in articles && a.userId == u && a.id !in ShownIds(views) ==>
          forall k :: 0 <= k < |views| ==> a.createdAt <= views[k].createdAt)
    && (|views| < ListSize ==> forall a :: a in articles && a.userId == u ==> a.id in ShownIds(views))
    && (UniqueIds(articles) ==> forall i, j :: 0 <= i < j < |views| ==> views[i].id != views[j].id)
  }

  /** The views of the newest rows meet the listing's promise. */
  lemma ViewsFacts(rows: seq<DbArticle>, views: seq<ArticleView>, articles: seq<DbArticle>, u: UserId,
                   tags: map<string, TagId>, links: set<Link>)
    requires rows == NewestRows(articles, u, ListSize)
    requires views == Views(rows, tags, links)
    ensures ListingOk(views, articles, u, tags, links)
  {
    ViewsShowRows(rows, views, articles, u, tags, links);
    ViewsLeaveOutOlder(rows, views, articles, u, tags, links);
    ViewsDistinct(rows, views, articles, tags, links);
  }

  /** Each view shows its own row, so order and ownership carry over. */
  lemma ViewsShowRows(rows: seq<DbArticle>, views: seq<ArticleView>, articles: seq<DbArticle>, u: UserId,
                      tags: map<string, TagId>, links: set<Link>)
    requires SortedDesc(rows, CreatedKey)
    requires forall k :: 0 <= k < |rows| ==> rows[k] in articles && rows[k].userId == u
    requires views == Views(rows, tags, links)
    ensures forall k :: 0 <= k < |views| ==> ShowsOwnRow(views[k], articles, u, tags, links)
    ensures forall i, j :: 0 <= i < j < |views| ==> views[i].createdAt >= views[j].createdAt
  {
    forall k | 0 <= k < |views| ensures ShowsOwnRow(views[k], articles, u, tags, links) {
      var a := rows[k];
      assert a in articles && a.userId == u && views[k] == ViewOf(a, LinkedNames(tags, links, a.id));
    }
    forall i, j | 0 <= i < j < |views| ensures views[i].createdAt >= views[j].createdAt {
      assert views[i].createdAt == rows[i].createdAt && views[j].createdAt == rows[j].createdAt;
    }
  }

  /** A row of u whose id is not shown is no newer than any shown; when fewer than 50 are shown, all are. */
  lemma ViewsLeaveOutOlder(rows: seq<DbArticle>, views: seq<ArticleView>, articles: seq<DbArticle>, u: UserId,
                           tags: map<string, TagId>, links: set<Link>)
    requires views == Views(rows, tags, links)
    requires forall a :: a in articles && a.userId == u && a !in rows ==>
      forall k :: 0 <= k < |rows| ==> a.createdAt <= rows[k].createdAt
    requires |rows| < ListSize ==> forall a :: a in articles && a.userId == u ==> a in rows
    ensures forall a :: a in articles && a.userId == u && a.id !in ShownIds(views) ==>
      forall k :: 0 <= k < |views| ==> a.createdAt <= views[k].createdAt
    ensures |views| < ListSize ==> forall a :: a in articles && a.userId == u ==> a.id in ShownIds(views)
  {
    forall a | a in articles && a.userId == u && a.id !in ShownIds(views)
      ensures forall k :: 0 <= k < |views| ==> a.createdAt <= views[k].createdAt
    {
      assert a !in rows;
      forall k | 0 <= k < |views| ensures a.createdAt <= views[k].createdAt {
        assert views[k].createdAt == rows[k].createdAt;
      }
    }
    forall a | |views| < ListSize && a in articles && a.userId == u ensures a.id in ShownIds(views) {
      var k :| 0 <= k < |rows| && rows[k] == a;
      assert views[k].id == a.id;
    }
  }

  /** Rows with distinct keys give views with distinct ids. */
  lemma ViewsDistinct(rows: seq<DbArticle>, views: seq<ArticleView>, articles: seq<DbArticle>,
                      tags: map<string, TagId>, links: set<Link>)
    requires views == Views(rows, tags, links)
    requires UniqueIds(articles) ==> UniqueIds(rows)
    ensures UniqueIds(articles) ==> forall i, j :: 0 <= i < j < |views| ==> views[i].id != views[j].id
  {
    if UniqueIds(articles) {
      forall i, j | 0 <= i < j < |views| ensures views[i].id != views[j].id {
        assert IdOf(rows[i]) != IdOf(rows[j]);
      }
    }
  }

  /** The ids of the listed articles. */
  function ShownIds(views: seq<ArticleView>): (r: set<ArticleId>)
    ensures forall k :: 0 <= k < |views| ==> views[k].id in r
    ensures forall id :: id in r ==> exists k :: 0 <= k < |views| && views[k].id == id
  {
    set k | 0 <= k < |views| :: views[k].id
  }

  /**
   * The `GET` handler over the current tables: 401 without a session,
   * otherwise the user's 50 newest articles from the store in use.
   */
  function Get(env: Env, session: Option<Session>, articles: seq<DbArticle>, tags: map<string, TagId>,
               links: set<Link>, stored: seq<FS.Article>): (r: GetResponse)
    ensures r.GetUnauthorized? <==> session.None?
    ensures r.ListedFromFile? <==> session.Some? && UseFallback(env)
    ensures r.ListedFromFile? ==> r.saved == FS.ListArticles(stored, session.value.id, ListSize)
    ensures r.ListedFromDb? ==> ListingOk(r.articles, articles, session.value.id, tags, links)
  {
    if session.None? then GetUnauthorized
    else if UseFallback(env) then ListedFromFile(FS.ListArticles(stored, session.value.id, ListSize))
    else ListedFromDb(Listing(articles, session.value.id, tags, links))
  }

  /** The database branch of `GET`: user u's newest rows, newest first, with their tags. */
  function Listing(articles: seq<DbArticle>, u: UserId, tags: map<string, TagId>, links: set<Link>)
    : (r: seq<ArticleView>)
    ensures ListingOk(r, articles, u, tags, links)
  {
    var rows := NewestRows(articles, u, ListSize);
    var views := Views(rows, tags, links);
    ViewsFacts(rows, views, articles, u, tags, links);
    views
  }
}

=== FILE: calendar.dfy ===
/**
 * Local calendar arithmetic on instants in milliseconds.
 *
 * An instant is the local wall-clock time in milliseconds since
 * 1970-01-01 00:00 (a Thursday); every day is 86 400 000 ms long.
 */
module Calendar {
  const DayMs := 86_400_000
  const WeekMs := 7 * DayMs

  /** The number of the day an instant falls in (rounding towards the past). */
  function DayIndex(t: int): int {
    t / DayMs
  }

  /** `getDay()`: 0 for Sunday, 1 for Monday, ..., 6 for Saturday. */
  function Weekday(t: int): (r: int)
    ensures 0 <= r < 7
  {
    (DayIndex(t) + 4) % 7
  }

  /** `setHours(0, 0, 0, 0)`: midnight of the day t falls in. */
  function StartOfDay(t: int): (r: int)
    ensures r <= t < r + DayMs
    ensures r % DayMs == 0
  {
    DayIndex(t) * DayMs
  }

  /** How many days `startOfWeek` moves back: `(day + 6) % 7`. */
  function DaysSinceMonday(t: int): (r: int)
    ensures 0 <= r < 7
    ensures r == 0 <==> Weekday(t) == 1
  {
    (Weekday(t) + 6) % 7
  }

  /** Midnight at the start of a Monday. */
  predicate IsWeekStart(s: int) {
    s % DayMs == 0 && Weekday(s) == 1
  }

  /** `startOfWeek`: midnight of the Monday on or before t. */
  function StartOfWeek(t: int): (r: int)
    ensures IsWeekStart(r)
    ensures r <= t < r + WeekMs
  {
    var d := DayIndex(t) - DaysSinceMonday(t);
    assert DayIndex(d * DayMs) == d;
    d * DayMs
  }

  /** A week start is the only one less than a week before t: weeks do not overlap. */
  lemma {:induction false} WeekStartUnique(s: int, t: int)
    requires IsWeekStart(s)
    requires s <= t < s + WeekMs
    ensures StartOfWeek(t) == s
  {
    var r := StartOfWeek(t);
    var ds, dr := s / DayMs, r / DayMs;
    assert s == ds * DayMs && r == dr * DayMs;
    assert DayIndex(s) == ds && DayIndex(r) == dr;
    assert (ds + 4) % 7 == 1 && (dr + 4) % 7 == 1;
    assert -7 < ds - dr < 7;
    assert (ds - dr) % 7 == 0;
  }

  /** Instants of the same week have the same week start, and a week start is its own. */
  lemma SameWeek(t: int)
    ensures StartOfWeek(StartOfWeek(t)) == StartOfWeek(t)
  {
    WeekStartUnique(StartOfWeek(t), StartOfWeek(t));
  }
}

=== FILE: database.dfy ===
/**
 * The relational store the application reaches through its ORM: users,
 * articles, the global tag table keyed by unique name, and the article/tag
 * association table whose primary key is the pair (articleId, tagId).
 *
 * Row ids are drawn from one counter (they stand for generated unique keys).
 * Timestamps are milliseconds since the epoch.
 */
module Database {
  import opened Wrappers
  import Lists

  type UserId = nat
  type ArticleId = nat
  type TagId = nat
  /** A row of the association table: (articleId, tagId). */
  type Link = (ArticleId, TagId)

  datatype DbUser = DbUser(id: UserId, email: string, name: Option<string>)

  datatype DbArticle = DbArticle(
    id: ArticleId,
    userId: UserId,
    url: string,
    title: string,
    summary: Option<string>,
    bodyLength: Option<int>,
    embedding: Option<string>,
    readAt: Option<int>,
    createdAt: int,
    updatedAt: int)

  /** The sort key of `orderBy: { createdAt: "desc" }`. */
  function CreatedKey(a: DbArticle): real { a.createdAt as real }

  /** The primary key of an article row. */
  function IdOf(a: DbArticle): ArticleId { a.id }

  /** No two rows share a primary key. */
  ghost predicate UniqueIds(articles: seq<DbArticle>) {
    Lists.UniqueBy(articles, IdOf)
  }

  /** The two constraint violations the ORM reports: P2002 and P2003. */
  datatype DbError = UniqueViolation | ForeignKeyViolation

  predicate HasArticle(articles: seq<DbArticle>, a: ArticleId) {
    exists i | 0 <= i < |articles| :: articles[i].id == a
  }

  predicate OwnedBy(articles: seq<DbArticle>, a: ArticleId, u: UserId) {
    exists i | 0 <= i < |articles| :: articles[i].id == a && articles[i].userId == u
  }

  /** Some tag row carries id t. */
  predicate TagIdExists(tags: map<string, TagId>, t: TagId) {
    exists n | n in tags :: tags[n] == t
  }

  /** `articleTag.findMany({ where: { articleId } })`. */
  function LinksOf(links: set<Link>, a: ArticleId): (r: set<Link>)
    ensures r <= links
    ensures forall l :: l in r <==> l in links && l.0 == a
  {
    set l | l in links && l.0 == a
  }

  /** `articleTag.count({ where: { articleId } })`. */
  function LinkCount(links: set<Link>, a: ArticleId): nat {
    |LinksOf(links, a)|
  }

  /** The names of the tags linked to article a. */
  function LinkedNames(tags: map<string, TagId>, links: set<Link>, a: ArticleId): (r: set<string>)
    ensures forall n :: n in r <==> n in tags && (a, tags[n]) in links
  {
    set n | n in tags && (a, tags[n]) in links
  }

  /** The associations whose article belongs to user u. */
  function UserLinks(articles: seq<DbArticle>, links: set<Link>, u: UserId): (r: set<Link>)
    ensures r <= links
    ensures forall l :: l in r <==> l in links && OwnedBy(articles, l.0, u)
  {
    set l | l in links && OwnedBy(articles, l.0, u)
  }

  /** User u's links to the tags in `ids`. */
  function UserLinksTo(articles: seq<DbArticle>, links: set<Link>, u: UserId, ids: set<TagId>): (r: set<Link>)
    ensures r <= links
    ensures forall l :: l in r <==> l in links && OwnedBy(articles, l.0, u) && l.1 in ids
  {
    set l | l in links && OwnedBy(articles, l.0, u) && l.1 in ids
  }

  /** The associations of tag t. */
  function TagLinks(links: set<Link>, t: TagId): (r: set<Link>)
    ensures r <= links
    ensures forall l :: l in r <==> l in links && l.1 == t
  {
    set l | l in links && l.1 == t
  }

  /** The article has at least one tag (`tags: { some: {} }`). */
  predicate IsTagged(links: set<Link>, a: ArticleId) {
    exists l | l in links :: l.0 == a
  }

  /** The position of the user whose email is `email`, if any. */
  function UserIndex(users: seq<DbUser>, email: string): (r: Option<nat>)
    ensures r.Some? ==> r.value < |users| && users[r.value].email == email
    ensures r.None? <==> forall i :: 0 <= i < |users| ==> users[i].email != email
  {
    if users == [] then None
    else if users[0].email == email then Some(0)
    else match UserIndex(users[1..], email)
      case None => None
      case Some(i) => Some(i + 1)
  }

  /**
   * The users after `user.upsert({ where: { email }, create: { email, name },
   * update: { name: name ?? undefined } })`: an existing user keeps its id
   * and takes the new name only when one is given; otherwise a user with the
   * id `newId` is added.
   */
  function Upserted(users: seq<DbUser>, email: string, name: Option<string>, newId: UserId): (r: seq<DbUser>)
    requires forall i, j | 0 <= i < j < |users| :: users[i].email != users[j].email
    ensures |r| >= |users| && UserIndex(r, email).Some?
    ensures forall i :: 0 <= i < |users| && users[i].email != email ==> r[i] == users[i]
    ensures forall i :: 0 <= i < |users| && users[i].email == email ==>
      r == users[i := DbUser(users[i].id, email, if name.Some? then name else users[i].name)]
    ensures (forall i :: 0 <= i < |users| ==> users[i].email != email) ==> r == users + [DbUser(newId, email, name)]
  {
    match UserIndex(users, email)
    case Some(i) =>
      var r := users[i := users[i].(name := if name.Some? then name else users[i].name)];
      assert r[i].email == email;
      r
    case None =>
      var r := users + [DbUser(newId, email, name)];
      assert r[|users|].email == email;
      r
  }

  /**
   * Ids are below the counter and unique, tag names and user emails are
   * unique keys, and every association points at an existing article and tag.
   */
  ghost predicate Consistent(users: seq<DbUser>, articles: seq<DbArticle>, tags: map<string, TagId>,
                             links: set<Link>, nextId: nat)
  {
    (forall i | 0 <= i < |users| :: users[i].id < nextId)
    && (forall i, j | 0 <= i < j < |users| :: users[i].email != users[j].email && users[i].id != users[j].id)
    && (forall i | 0 <= i < |articles| :: articles[i].id < nextId)
    && (forall i, j | 0 <= i < j < |articles| :: articles[i].id != articles[j].id)
    && (forall n | n in tags :: tags[n] < nextId)
    && (forall n, m | n in tags && m in tags && n != m :: tags[n] != tags[m])
    && (forall l | l in links :: HasArticle(articles, l.0) && TagIdExists(tags, l.1))
  }

  /** The upsert keeps emails and ids unique, and the counter above every id. */
  lemma UpsertKeepsConsistent(users: seq<DbUser>, articles: seq<DbArticle>, tags: map<string, TagId>,
                              links: set<Link>, nextId: nat, email: string, name: Option<string>)
    requires Consistent(users, articles, tags, links, nextId)
    ensures Consistent(Upserted(users, email, name, nextId), articles, tags, links,
                       if UserIndex(users, email).Some? then nextId else nextId + 1)
  {
    UpsertKeepsUsersUnique(users, email, name, nextId);
  }

  /** The user rows after the upsert keep unique emails and ids below the counter. */
  lemma UpsertKeepsUsersUnique(users: seq<DbUser>, email: string, name: Option<string>, nextId: nat)
    requires forall i | 0 <= i < |users| :: users[i].id < nextId
    requires forall i, j | 0 <= i < j < |users| :: users[i].email != users[j].email && users[i].id != users[j].id
    ensures var r := Upserted(users, email, name, nextId);
      var next := if UserIndex(users, email).Some? then nextId else nextId + 1;
      (forall i | 0 <= i < |r| :: r[i].id < next)
      && (forall i, j | 0 <= i < j < |r| :: r[i].email != r[j].email && r[i].id != r[j].id)
  {
    var r := Upserted(users, email, name, nextId);
    if UserIndex(users, email).None? {
      assert r == users + [DbUser(nextId, email, name)];
    } else {
      var k := UserIndex(users, email).value;
      assert r == users[k := DbUser(users[k].id, email, if name.Some? then name else users[k].name)];
      assert forall i :: 0 <= i < |r| ==> r[i].id == users[i].id && r[i].email == users[i].email;
    }
  }

  /**
   * Dropping associations and tag rows keeps the store consistent as long as
   * every association left still finds its tag.
   */
  lemma ShrinkKeepsConsistent(users: seq<DbUser>, articles: seq<DbArticle>, tags: map<string, TagId>,
                              links: set<Link>, nextId: nat, tags1: map<string, TagId>, links1: set<Link>)
    requires Consistent(users, articles, tags, links, nextId)
    requires links1 <= links
    requires forall n :: n in tags1 ==> n in tags && tags1[n] == tags[n]
    requires forall l :: l in links1 ==> TagIdExists(tags1, l.1)
    ensures Consistent(users, articles, tags1, links1, nextId)
  {
  }

  /** Where `email` sits among users that have it. */
  function UserPosition(users: seq<DbUser>, email: string): (i: nat)
    requires UserIndex(users, email).Some?
    ensures i < |users| && users[i].email == email
  {
    UserIndex(users, email).value
  }

  /** The association rows (a, ids[k]). */
  function Pairs(a: ArticleId, ids: seq<TagId>): set<Link> {
    set k | 0 <= k < |ids| :: (a, ids[k])
  }

  lemma PairsSnoc(a: ArticleId, ids: seq<TagId>, t: TagId)
    ensures Pairs(a, ids + [t]) == Pairs(a, ids) + {(a, t)}
  {
    var s := ids + [t];
    assert (a, t) == (a, s[|ids|]);
    forall l | l in Pairs(a, ids) ensures l in Pairs(a, s) {
      var k :| 0 <= k < |ids| && l == (a, ids[k]);
      assert s[k] == ids[k];
    }
  }

  class Db {
    var users: seq<DbUser>
    var articles: seq<DbArticle>
    var tags: map<string, TagId>
    var links: set<Link>
    var nextId: nat

    /** The invariant of the store, stated on its current contents. */
    ghost predicate Valid()
      reads this
    {
      Consistent(users, articles, tags, links, nextId)
    }

    constructor ()
      ensures Valid()
      ensures users == [] && articles == [] && tags == map[] && links == {}
    {
      users, articles, tags, links, nextId := [], [], map[], {}, 0;
    }

    /** `tag.upsert({ where: { name }, create: { name }, update: {} })`. */
    method UpsertTag(name: string) returns (id: TagId)
      requires Valid()
      modifies this
      ensures Valid()
      ensures name in tags && id == tags[name]
      ensures old(name in tags) ==> tags == old(tags) && nextId == old(nextId)
      ensures old(name !in tags) ==> tags == old(tags)[name := id] && id == old(nextId) && nextId == id + 1
      ensures users == old(users) && articles == old(articles) && links == old(links)
    {
      if name in tags {
        id := tags[name];
      } else {
        id := nextId;
        nextId := nextId + 1;
        tags := tags[name := id];
        forall l | l in links ensures TagIdExists(tags, l.1) {
          var n :| n in old(tags) && old(tags)[n] == l.1;
          assert n != name && tags[n] == l.1;
        }
      }
    }

    /**
     * `articleTag.createMany({ data })` for the rows (a, ts[k]): all rows or
     * none; a missing article or tag, or a row that already exists (or appears
     * twice), fails the whole call.
     */
    method CreateLinks(a: ArticleId, ts: seq<TagId>) returns (r: Result<(), DbError>)
      requires Valid()
      modifies this
      ensures Valid()
      ensures r.Err? <==>
        !HasArticle(articles, a)
        || (exists k | 0 <= k < |ts| :: !TagIdExists(tags, ts[k]) || (a, ts[k]) in old(links))
        || (exists j, k | 0 <= j < k < |ts| :: ts[j] == ts[k])
      ensures r.Err? && (!HasArticle(articles, a) || exists k | 0 <= k < |ts| :: !TagIdExists(tags, ts[k]))
        ==> r.error == ForeignKeyViolation
      ensures r.Err? ==> links == old(links)
      ensures r.Ok? ==> links == old(links) + set k | 0 <= k < |ts| :: (a, ts[k])
      ensures users == old(users) && articles == old(articles) && tags == old(tags) && nextId == old(nextId)
    {
      if !HasArticle(articles, a) || exists k | 0 <= k < |ts| :: !TagIdExists(tags, ts[k]) {
        return Err(ForeignKeyViolation);
      }
      if (exists k | 0 <= k < |ts| :: (a, ts[k]) in links) || (exists j, k | 0 <= j < k < |ts| :: ts[j] == ts[k]) {
        return Err(UniqueViolation);
      }
      links := links + set k | 0 <= k < |ts| :: (a, ts[k]);
      return Ok(());
    }

    /** `articleTag.create({ data: { articleId: a, tagId: t } })`. */
    method CreateLink(a: ArticleId, t: TagId) returns (r: Result<(), DbError>)
      requires Valid()
      modifies this
      ensures Valid()
      ensures r.Err? ==> links == old(links)
      ensures r == Err(ForeignKeyViolation) <==> !HasArticle(articles, a) || !TagIdExists(tags, t)
      ensures r == Err(UniqueViolation) <==> HasArticle(articles, a) && TagIdExists(tags, t) && (a, t) in old(links)
      ensures r.Ok? ==> links == old(links) + {(a, t)}
      ensures users == old(users) && articles == old(articles) && tags == old(tags) && nextId == old(nextId)
    {
      if !HasArticle(articles, a) || !TagIdExists(tags, t) {
        return Err(ForeignKeyViolation);
      }
      if (a, t) in links {
        return Err(UniqueViolation);
      }
      links := links + {(a, t)};
      return Ok(());
    }

    /**
     * Another request linking the tags ts to article a (when the article
     * exists), interleaved with a caller's read and write.
     */
    method LinkConcurrently(a: ArticleId, ts: set<TagId>)
      requires Valid()
      modifies this
      ensures Valid()
      ensures HasArticle(articles, a) ==> links == old(links) + set t | t in ts && TagIdExists(tags, t) :: (a, t)
      ensures !HasArticle(articles, a) ==> links == old(links)
      ensures users == old(users) && articles == old(articles) && tags == old(tags) && nextId == old(nextId)
    {
      if HasArticle(articles, a) {
        links := links + set t | t in ts && TagIdExists(tags, t) :: (a, t);
      }
    }

    /** `articleTag.deleteMany({ where: { tagId: t, article: { userId: u } } })`. */
    method DeleteUserLinksOfTag(t: TagId, u: UserId) returns (count: nat)
      modifies this
      ensures links == old(links) - UserLinksTo(articles, old(links), u, {t})
      ensures count == |old(links)| - |links|
      ensures users == old(users) && articles == old(articles) && tags == old(tags) && nextId == old(nextId)
    {
      var before := links;
      var gone := UserLinksTo(articles, links, u, {t});
      var kept := links - gone;
      assert links == kept + gone && kept !! gone;
      links := kept;
      count := |before| - |links|;
    }

    /**
     * `tag.delete({ where: { id: t } })`: removes the row named by t; while an
     * association still refers to it the delete is refused.
     */
    method DeleteTag(t: TagId) returns (r: Result<(), DbError>)
      modifies this
      ensures r.Err? <==> TagLinks(links, t) != {}
      ensures r.Ok? ==> tags == map n | n in old(tags) && old(tags)[n] != t :: old(tags)[n]
      ensures r.Err? ==> tags == old(tags)
      ensures users == old(users) && articles == old(articles) && links == old(links) && nextId == old(nextId)
    {
      if TagLinks(links, t) != {} {
        return Err(ForeignKeyViolation);
      }
      tags := map n | n in tags && tags[n] != t :: tags[n];
      return Ok(());
    }

    /** `user.upsert` keyed by email, as `Upserted` describes it. */
    method UpsertUser(email: string, name: Option<string>) returns (user: DbUser)
      requires Valid()
      modifies this
      ensures Valid()
      ensures users == Upserted(old(users), email, name, old(nextId))
      ensures UserIndex(users, email) == Some(UserPosition(users, email)) && user == users[UserPosition(users, email)]
      ensures old(UserIndex(users, email)).Some? ==> nextId == old(nextId)
      ensures old(UserIndex(users, email)).None? ==> user.id == old(nextId) && nextId == old(nextId) + 1
      ensures articles == old(articles) && tags == old(tags) && links == old(links)
    {
      var found := UserIndex(users, email);
      UpsertKeepsConsistent(users, articles, tags, links, nextId, email, name);
      if found.Some? {
        var i := found.value;
        user := users[i].(name := if name.Some? then name else users[i].name);
        users := users[i := user];
      } else {
        user := DbUser(nextId, email, name);
        users := users + [user];
        nextId := nextId + 1;
      }
    }

    /** `article.create({ data })`: a new row with a fresh id. */
    method CreateArticle(article: DbArticle) returns (created: DbArticle)
      requires Valid()
      modifies this
      ensures Valid()
      ensures created == article.(id := old(nextId))
      ensures articles == old(articles) + [created]
      ensures users == old(users) && tags == old(tags) && links == old(links)
    {
      created := article.(id := nextId);
      articles := articles + [created];
      nextId := nextId + 1;
      forall l | l in links ensures HasArticle(articles, l.0) {
        var i :| 0 <= i < |old(articles)| && old(articles)[i].id == l.0;
        assert articles[i] == old(articles)[i];
      }
    }
  }
}

=== FILE: fallback_store.dfy ===
/**
 * The file-backed article store used in development when no database is
 * configured: one list of articles, newest first, each carrying its owner's
 * id. Every operation is scoped to one user. The JSON file itself (reading,
 * the temporary file and the rename) is not modelled: the list is a field of
 * `Store`, and `ReadStore` states how a file's content becomes that list.
 */
module FallbackStore {
  import opened Wrappers
  import opened Text
  import opened Lists
  import Database

  type UserId = Database.UserId

  /** A stored article; `createdAt`, `updatedAt` and `readAt` are milliseconds. */
  datatype Article = Article(
    id: nat,
    userId: UserId,
    userEmail: Option<string>,
    userName: Option<string>,
    url: string,
    title: string,
    summary: Option<string>,
    bodyLength: Option<int>,
    embedding: Option<string>,
    tags: seq<string>,
    readAt: Option<int>,
    createdAt: int,
    updatedAt: int)

  /** The fields a caller supplies when creating an article. */
  datatype NewArticle = NewArticle(
    userEmail: Option<string>,
    userName: Option<string>,
    url: string,
    title: string,
    summary: Option<string>,
    bodyLength: Option<int>,
    embedding: Option<string>,
    tags: seq<string>,
    readAt: Option<int>)

  /** A partial update: a field left `None` keeps its current value. */
  datatype Patch = Patch(
    userEmail: Option<Option<string>>,
    userName: Option<Option<string>>,
    url: Option<string>,
    title: Option<string>,
    summary: Option<Option<string>>,
    bodyLength: Option<Option<int>>,
    embedding: Option<Option<string>>,
    tags: Option<seq<string>>,
    readAt: Option<Option<int>>)

  /** A record as found in the file, where the two user fields may be absent. */
  datatype StoredArticle = StoredArticle(fields: Article, hasEmail: bool, hasName: bool)

  /** What reading the file gave: no file, another failure, or parsed JSON. */
  datatype StoreFile =
    | Missing
    | Unreadable
    | Parsed(articles: Option<seq<StoredArticle>>)

  /** `{ userEmail: null, userName: null, ...a }`. */
  function WithDefaults(a: StoredArticle): (r: Article)
    ensures r.userEmail == (if a.hasEmail then a.fields.userEmail else None)
    ensures r.userName == (if a.hasName then a.fields.userName else None)
    ensures r.(userEmail := a.fields.userEmail, userName := a.fields.userName) == a.fields
  {
    a.fields.(userEmail := if a.hasEmail then a.fields.userEmail else None,
              userName := if a.hasName then a.fields.userName else None)
  }

  /**
   * `readStore`: a missing file is an empty store, a file whose `articles`
   * is not an array is an empty store, any other failure is raised.
   */
  function ReadStore(file: StoreFile): (r: Result<seq<Article>, ()>)
    ensures r.Err? <==> file.Unreadable?
    ensures file.Missing? ==> r == Ok([])
    ensures file.Parsed? && file.articles.None? ==> r == Ok([])
    ensures file.Parsed? && file.articles.Some? ==>
      r.Ok? && |r.value| == |file.articles.value|
      && forall k :: 0 <= k < |r.value| ==> r.value[k] == WithDefaults(file.articles.value[k])
  {
    match file
    case Missing => Ok([])
    case Unreadable => Err(())
    case Parsed(None) => Ok([])
    case Parsed(Some(raw)) => Ok(seq(|raw|, k requires 0 <= k < |raw| => WithDefaults(raw[k])))
  }

  /** `Boolean(DATABASE_URL && String(DATABASE_URL).trim())`. */
  predicate IsDbConfigured(databaseUrl: Option<string>) {
    databaseUrl.Some? && Trim(databaseUrl.value) != []
  }

  /**
   * `shouldUseFallbackStore`: in production the file store is never used;
   * elsewhere it is used exactly when `DATABASE_URL` is missing or holds
   * only white space.
   */
  predicate ShouldUseFallbackStore(nodeEnv: Option<string>, databaseUrl: Option<string>): (use: bool)
    ensures nodeEnv == Some("production") ==> !use
    ensures nodeEnv != Some("production") ==>
      (use <==> databaseUrl.None? || forall i :: 0 <= i < |databaseUrl.value| ==> IsSpace(databaseUrl.value[i]))
  {
    var use := nodeEnv != Some("production") && !IsDbConfigured(databaseUrl);
    assert databaseUrl.Some? ==>
      (Trim(databaseUrl.value) == [] <==> forall i :: 0 <= i < |databaseUrl.value| ==> IsSpace(databaseUrl.value[i])) by {
      if databaseUrl.Some? {
        TrimBlank(databaseUrl.value);
      }
    }
    use
  }

  /** The sort key of `(a, b) => (b.createdAt > a.createdAt ? 1 : -1)`. */
  function CreatedKey(a: Article): real { a.createdAt as real }

  /** The articles of user u, in store order. */
  function OwnedBy(articles: seq<Article>, u: UserId): (r: seq<Article>)
    ensures forall k :: 0 <= k < |r| ==> r[k] in articles && r[k].userId == u
    ensures forall a :: a in articles && a.userId == u ==> a in r
    ensures multiset(r) <= multiset(articles)
  {
    Filter(articles, (a: Article) => a.userId == u)
  }

  /**
   * `listArticlesForUser`: user u's articles, newest first, at most `take`;
   * every article of u left out is no newer than every one listed.
   */
  function ListArticles(articles: seq<Article>, u: UserId, take: nat): (r: seq<Article>)
    ensures |r| == Min(take, |OwnedBy(articles, u)|)
    ensures SortedDesc(r, CreatedKey)
    ensures forall k :: 0 <= k < |r| ==> r[k] in articles && r[k].userId == u
    ensures forall a :: a in articles && a.userId == u && a !in r ==>
      forall k :: 0 <= k < |r| ==> a.createdAt <= r[k].createdAt
    ensures multiset(r) <= multiset(articles)
  {
    TopDesc(OwnedBy(articles, u), CreatedKey, take)
  }

  /** How many of the user's newest articles a search looks at. */
  const SearchPool: nat := 1000

  /** The search test on an article against a lower-cased query. */
  predicate Matches(a: Article, q: string) {
    Contains(ToLower(a.title), q) || Contains(ToLower(a.url), q)
    || Contains(ToLower(a.summary.GetOr([])), q) || Contains(ToLower(Join(a.tags, " ")), q)
  }

  /**
   * `searchArticlesForUser`: among the user's 1000 newest articles, those
   * whose title, url, summary or space-joined tags contain the query, ignoring
   * case; newest first, at most `take`, and all of them when fewer than `take`.
   */
  function SearchArticles(articles: seq<Article>, u: UserId, query: string, take: nat): (r: seq<Article>)
    ensures |r| <= take
    ensures SortedDesc(r, CreatedKey)
    ensures forall k :: 0 <= k < |r| ==> r[k] in ListArticles(articles, u, SearchPool) && Matches(r[k], ToLower(query))
    ensures |r| < take ==> forall a :: a in ListArticles(articles, u, SearchPool) && Matches(a, ToLower(query)) ==> a in r
    ensures forall a :: a in ListArticles(articles, u, SearchPool) && Matches(a, ToLower(query)) && a !in r ==>
      forall k :: 0 <= k < |r| ==> a.createdAt <= r[k].createdAt
    ensures multiset(r) <= multiset(ListArticles(articles, u, SearchPool))
  {
    var q := ToLower(query);
    var pool := ListArticles(articles, u, SearchPool);
    FilterTakeSorted(pool, (a: Article) => Matches(a, q), take, CreatedKey);
    FilterTakeLeftOut(pool, (a: Article) => Matches(a, q), take, CreatedKey);
    FilterTake(pool, (a: Article) => Matches(a, q), take)
  }

  /** The query's case does not matter. */
  lemma SearchIgnoresQueryCase(articles: seq<Article>, u: UserId, query: string, take: nat)
    ensures SearchArticles(articles, u, ToLower(query), take) == SearchArticles(articles, u, query, take)
  {
    ToLowerIdempotent(query);
  }

  /** An article carrying the query as one of its tags matches it, whatever the case. */
  lemma TagMatches(a: Article, query: string)
    requires query in a.tags
    ensures Matches(a, ToLower(query))
  {
    var k :| 0 <= k < |a.tags| && a.tags[k] == query;
    JoinContainsPart(a.tags, " ", k);
    ContainsToLower(Join(a.tags, " "), query);
  }

  /** The article is user u's article with id `id`. */
  predicate IsOwn(a: Article, u: UserId, id: nat) {
    a.userId == u && a.id == id
  }

  /** `findIndex((a) => a.userId === userId && a.id === id)`. */
  function FindIndex(articles: seq<Article>, u: UserId, id: nat): (r: Option<nat>)
    ensures r.None? <==> forall i :: 0 <= i < |articles| ==> !IsOwn(articles[i], u, id)
    ensures r.Some? ==> r.value < |articles| && IsOwn(articles[r.value], u, id)
    ensures r.Some? ==> forall i :: 0 <= i < r.value ==> !IsOwn(articles[i], u, id)
  {
    if articles == [] then None
    else if IsOwn(articles[0], u, id) then Some(0)
    else match FindIndex(articles[1..], u, id)
      case None => None
      case Some(i) => Some(i + 1)
  }

  /** `{ ...current, ...patch, updatedAt: now }`. */
  function ApplyPatch(current: Article, patch: Patch, now: int): (r: Article)
    ensures r.id == current.id && r.userId == current.userId && r.createdAt == current.createdAt
    ensures r.updatedAt == now
  {
    current.(
      userEmail := patch.userEmail.GetOr(current.userEmail),
      userName := patch.userName.GetOr(current.userName),
      url := patch.url.GetOr(current.url),
      title := patch.title.GetOr(current.title),
      summary := patch.summary.GetOr(current.summary),
      bodyLength := patch.bodyLength.GetOr(current.bodyLength),
      embedding := patch.embedding.GetOr(current.embedding),
      tags := patch.tags.GetOr(current.tags),
      readAt := patch.readAt.GetOr(current.readAt),
      updatedAt := now)
  }

  /** A patch that names no field only refreshes `updatedAt`. */
  lemma EmptyPatch(current: Article, now: int)
    ensures ApplyPatch(current, Patch(None, None, None, None, None, None, None, None, None), now)
      == current.(updatedAt := now)
  {
  }

  /** The store without user u's article `id`. */
  function Without(articles: seq<Article>, u: UserId, id: nat): (r: seq<Article>)
    ensures forall k :: 0 <= k < |r| ==> r[k] in articles && !IsOwn(r[k], u, id)
    ensures forall a :: a in articles && !IsOwn(a, u, id) ==> a in r
  {
    Filter(articles, (a: Article) => !IsOwn(a, u, id))
  }

  class Store {
    var articles: seq<Article>
    var nextId: nat

    /** Every stored id was drawn from the counter. */
    ghost predicate Valid()
      reads this
    {
      forall i :: 0 <= i < |articles| ==> articles[i].id < nextId
    }

    /** The store of a missing file. */
    constructor ()
      ensures Valid() && articles == []
    {
      articles, nextId := [], 0;
    }

    /**
     * `createArticleForUser`: puts a new article with a fresh id, owner u and
     * both timestamps `now` in front of the others.
     */
    method Create(u: UserId, data: NewArticle, now: int) returns (article: Article)
      requires Valid()
      modifies this
      ensures Valid()
      ensures article == Article(old(nextId), u, data.userEmail, data.userName, data.url, data.title,
                                 data.summary, data.bodyLength, data.embedding, data.tags, data.readAt, now, now)
      ensures articles == [article] + old(articles)
      ensures forall i :: 0 <= i < |old(articles)| ==> old(articles)[i].id != article.id
    {
      article := Article(nextId, u, data.userEmail, data.userName, data.url, data.title,
                         data.summary, data.bodyLength, data.embedding, data.tags, data.readAt, now, now);
      nextId := nextId + 1;
      articles := [article] + articles;
    }

    /**
     * `updateArticleForUser`: patches the first article that is user u's
     * article `id`, in place; `None` and no change when there is none.
     */
    method Update(u: UserId, id: nat, patch: Patch, now: int) returns (r: Option<Article>)
      requires Valid()
      modifies this
      ensures Valid()
      ensures nextId == old(nextId)
      ensures r.None? <==> forall i :: 0 <= i < |old(articles)| ==> !IsOwn(old(articles)[i], u, id)
      ensures r.None? ==> articles == old(articles)
      ensures r.Some? ==>
        FindIndex(old(articles), u, id).Some?
        && var i := FindIndex(old(articles), u, id).value;
          r.value == ApplyPatch(old(articles)[i], patch, now) && articles == old(articles)[i := r.value]
      ensures r.Some? ==> r.value.id == id && r.value.userId == u && r.value.updatedAt == now
    {
      var idx := FindIndex(articles, u, id);
      if idx.None? {
        return None;
      }
      var i := idx.value;
      var next := ApplyPatch(articles[i], patch, now);
      articles := articles[i := next];
      return Some(next);
    }

    /**
     * `deleteArticleForUser`: drops user u's article `id` and reports whether
     * anything was dropped; every other article stays, in order.
     */
    method Delete(u: UserId, id: nat) returns (deleted: bool)
      requires Valid()
      modifies this
      ensures Valid()
      ensures nextId == old(nextId)
      ensures articles == Without(old(articles), u, id)
      ensures deleted <==> exists i :: 0 <= i < |old(articles)| && IsOwn(old(articles)[i], u, id)
      ensures forall a :: a in old(articles) && a.userId != u ==> a in articles
    {
      var before := |articles|;
      FilterShorter(articles, (a: Article) => !IsOwn(a, u, id));
      articles := Without(articles, u, id);
      deleted := |articles| != before;
    }
  }
}

=== FILE: fetch_title.dfy ===
/**
 * The text handling around fetching a page: the HTML entity decoder, the
 * rules that turn the page's title and description into the stored title
 * and summary, and the count of non-white-space body characters. The
 * request, and the regular expressions that locate the title, the meta tags
 * and the body region in the HTML, are collaborators: the page arrives as
 * the text those expressions captured.
 */
module FetchTitle {
  import opened Wrappers
  import opened Text

  /** The named entities the decoder knows, with their replacements. */
  const Entities: map<string, string> := map[
    "&amp;" := "&", "&lt;" := "<", "&gt;" := ">", "&quot;" := "\"", "&#39;" := "'",
    "&apos;" := "'", "&nbsp;" := " ", "&copy;" := "\U{00A9}", "&reg;" := "\U{00AE}",
    "&trade;" := "\U{2122}", "&mdash;" := "\U{2014}", "&ndash;" := "\U{2013}",
    "&hellip;" := "\U{2026}", "&ldquo;" := "\"", "&rdquo;" := "\"", "&lsquo;" := "'",
    "&rsquo;" := "'"]

  /** The regular-expression class `\w`. */
  predicate IsWordChar(c: char) { IsAsciiLetter(c) || IsAsciiDigit(c) || c == '_' }

  /** The class `[#\w]`. */
  predicate IsEntityChar(c: char) { c == '#' || IsWordChar(c) }

  /** The length of the longest prefix of s whose characters all satisfy p. */
  function Run(s: string, p: char -> bool): (n: nat)
    ensures n <= |s|
    ensures forall i :: 0 <= i < n ==> p(s[i])
    ensures n < |s| ==> !p(s[n])
  {
    if s != [] && p(s[0]) then 1 + Run(s[1..], p) else 0
  }

  /**
   * `String.fromCharCode(n)`: the UTF-16 code unit n mod 2^16. A lone
   * surrogate cannot stand alone in a string of scalar values and becomes
   * the replacement character U+FFFD. n is exact here; `parseInt` hands
   * over a double, which agrees with n only below 2^53.
   */
  function CodeUnit(n: nat): (c: char)
    ensures n % 0x1_0000 < 0xD800 || 0xE000 <= n % 0x1_0000 ==> c as int == n % 0x1_0000
  {
    var u := n % 0x1_0000;
    if 0xD800 <= u < 0xE000 then '\U{FFFD}' else u as char
  }

  /** `&#` digits `;` at the start of s: the number of digits. */
  function DecimalAt(s: string): (r: Option<nat>)
    ensures r.Some? ==> 0 < r.value && 3 + r.value <= |s| && AllAsciiDigits(s[2..2 + r.value])
  {
    if |s| >= 2 && s[0] == '&' && s[1] == '#' then
      var n := Run(s[2..], IsAsciiDigit);
      if n > 0 && 2 + n < |s| && s[2 + n] == ';' then Some(n) else None
    else None
  }

  /** `&#x` hexadecimal digits `;` at the start of s: the number of digits. */
  function HexAt(s: string): (r: Option<nat>)
    ensures r.Some? ==> 0 < r.value && 4 + r.value <= |s| && AllHexDigits(s[3..3 + r.value])
  {
    if |s| >= 3 && s[0] == '&' && s[1] == '#' && s[2] == 'x' then
      var n := Run(s[3..], IsHexDigit);
      if n > 0 && 3 + n < |s| && s[3 + n] == ';' then Some(n) else None
    else None
  }

  /** `&` then characters of `[#\w]` then `;` at the start of s: the length of the middle. */
  function NamedAt(s: string): (r: Option<nat>)
    ensures r.Some? ==> 0 < r.value && 2 + r.value <= |s|
  {
    if |s| >= 1 && s[0] == '&' then
      var n := Run(s[1..], IsEntityChar);
      if n > 0 && 1 + n < |s| && s[1 + n] == ';' then Some(n) else None
    else None
  }

  /**
   * `replace(/&#(\d+);/g, ...)`: a left-to-right scan whose replacements are
   * not scanned again. It never lengthens the text and never empties it.
   */
  function DecodeDecimal(s: string): (r: string)
    ensures |r| <= |s| && (s != [] ==> r != [])
    decreases |s|
  {
    if s == [] then []
    else match DecimalAt(s)
      case Some(n) => [CodeUnit(DecimalValue(s[2..2 + n]))] + DecodeDecimal(s[3 + n..])
      case None => [s[0]] + DecodeDecimal(s[1..])
  }

  /** `replace(/&#x([0-9A-Fa-f]+);/g, ...)`: never longer, never empty when s is not. */
  function DecodeHex(s: string): (r: string)
    ensures |r| <= |s| && (s != [] ==> r != [])
    decreases |s|
  {
    if s == [] then []
    else match HexAt(s)
      case Some(n) => [CodeUnit(HexValue(s[3..3 + n]))] + DecodeHex(s[4 + n..])
      case None => [s[0]] + DecodeHex(s[1..])
  }

  /** `entities[e] || e`: every known entity stands for one character. */
  function Replacement(e: string): (r: string)
    ensures e in Entities ==> |r| == 1
    ensures e !in Entities ==> r == e
  {
    if e in Entities then Entities[e] else e
  }

  /** `replace(/&[#\w]+;/g, (e) => entities[e] || e)`: never longer, never empty when s is not. */
  function DecodeNamed(s: string): (r: string)
    ensures |r| <= |s| && (s != [] ==> r != [])
    decreases |s|
  {
    if s == [] then []
    else match NamedAt(s)
      case Some(n) =>
        Replacement(s[..2 + n]) + DecodeNamed(s[2 + n..])
      case None => [s[0]] + DecodeNamed(s[1..])
  }

  /**
   * `decodeHtmlEntities`: the decimal, hexadecimal and named passes, once
   * each, in that order. Decoding never lengthens the text, and text
   * without `&` is left as it is.
   */
  function DecodeEntities(s: string): (r: string)
    ensures |r| <= |s| && (s != [] ==> r != [])
    ensures '&' !in s ==> r == s
  {
    var r := DecodeNamed(DecodeHex(DecodeDecimal(s)));
    assert '&' !in s ==> r == s by {
      if '&' !in s {
        NoAmpUnchanged(s);
      }
    }
    r
  }

  /** One step of the decimal pass at a match. */
  lemma DecimalStep(s: string, n: nat)
    requires DecimalAt(s) == Some(n)
    ensures DecodeDecimal(s) == [CodeUnit(DecimalValue(s[2..2 + n]))] + DecodeDecimal(s[3 + n..])
  {
  }

  /** One step of the hexadecimal pass at a match. */
  lemma HexStep(s: string, n: nat)
    requires HexAt(s) == Some(n)
    ensures DecodeHex(s) == [CodeUnit(HexValue(s[3..3 + n]))] + DecodeHex(s[4 + n..])
  {
  }

  /** One step of the named pass at a match. */
  lemma NamedStep(s: string, n: nat)
    requires NamedAt(s) == Some(n)
    ensures DecodeNamed(s) == Replacement(s[..2 + n]) + DecodeNamed(s[2 + n..])
  {
  }

  /** Text without `&` passes through each pass unchanged. */
  lemma {:induction false} NoAmpUnchanged(s: string)
    requires '&' !in s
    ensures DecodeDecimal(s) == s && DecodeHex(s) == s && DecodeNamed(s) == s
  {
    if s != [] {
      assert '&' !in s[1..];
      NoAmpUnchanged(s[1..]);
      assert s == [s[0]] + s[1..];
    }
  }

  /** `&#N;` written in decimal decodes to the code unit N mod 2^16 (for N exact, as `parseInt` is below 2^53). */
  lemma DecimalEntity(n: nat)
    ensures DecodeEntities("&#" + NatToString(n) + ";") == [CodeUnit(n)]
  {
    var d := NatToString(n);
    var s := "&#" + d + ";";
    assert s[2..] == d + ";";
    RunOfDigits(d, ";");
    assert s[2..2 + |d|] == d;
    DecimalRoundTrip(n);
    assert s[3 + |d|..] == [];
    assert DecodeDecimal(s) == [CodeUnit(n)];
    SingleCharUnchanged(CodeUnit(n));
  }

  /** The digit run of a string of digits followed by a non-digit is the whole string. */
  lemma {:induction false} RunOfDigits(d: string, rest: string)
    requires AllAsciiDigits(d)
    requires rest == [] || !IsAsciiDigit(rest[0])
    ensures Run(d + rest, IsAsciiDigit) == |d|
  {
    if d != [] {
      assert (d + rest)[1..] == d[1..] + rest;
      RunOfDigits(d[1..], rest);
    }
  }

  /** The hexadecimal run of a string of hexadecimal digits followed by a non-digit is the whole string. */
  lemma {:induction false} RunOfHexDigits(d: string, rest: string)
    requires AllHexDigits(d)
    requires rest == [] || !IsHexDigit(rest[0])
    ensures Run(d + rest, IsHexDigit) == |d|
  {
    if d != [] {
      assert (d + rest)[1..] == d[1..] + rest;
      RunOfHexDigits(d[1..], rest);
    }
  }

  /** The entity-character run of such a string followed by another character is the whole string. */
  lemma {:induction false} RunOfEntityChars(d: string, rest: string)
    requires forall i :: 0 <= i < |d| ==> IsEntityChar(d[i])
    requires rest == [] || !IsEntityChar(rest[0])
    ensures Run(d + rest, IsEntityChar) == |d|
  {
    if d != [] {
      assert (d + rest)[1..] == d[1..] + rest;
      RunOfEntityChars(d[1..], rest);
    }
  }

  /** A single character is left alone by every pass. */
  lemma SingleCharUnchanged(c: char)
    ensures DecodeDecimal([c]) == [c] && DecodeHex([c]) == [c] && DecodeNamed([c]) == [c]
  {
    assert [c][1..] == [];
  }

  /** `&#xH;` decodes to the code unit H mod 2^16 (for H exact, as `parseInt` is below 2^53). */
  lemma HexEntity(h: string)
    requires h != [] && AllHexDigits(h)
    ensures DecodeEntities("&#x" + h + ";") == [CodeUnit(HexValue(h))]
  {
    var s := "&#x" + h + ";";
    HexEntityShape(h);
    LeadingAmpOnly(s);
    HexWholeMatch(s, |h|);
    SingleCharUnchanged(CodeUnit(HexValue(h)));
  }

  /** Where the passes look in `&#xH;`: no decimal match, a hexadecimal match over H, no other `&`. */
  lemma HexEntityShape(h: string)
    requires h != [] && AllHexDigits(h)
    ensures var s := "&#x" + h + ";";
      s != [] && '&' !in s[1..] && DecimalAt(s).None? && HexAt(s) == Some(|h|)
      && |s| == 4 + |h| && s[3..3 + |h|] == h
  {
    var s := "&#x" + h + ";";
    assert s[2] == 'x';
    assert '&' !in s[1..];
    assert s[3..] == h + ";";
    RunOfHexDigits(h, ";");
    assert s[3..3 + |h|] == h;
  }

  /** Text that is a single hexadecimal match as a whole becomes one character. */
  lemma HexWholeMatch(s: string, n: nat)
    requires HexAt(s) == Some(n) && |s| == 4 + n
    ensures DecodeHex(s) == [CodeUnit(HexValue(s[3..3 + n]))]
  {
    HexStep(s, n);
    CutAtEnd(s, 4 + n);
  }

  /**
   * `&name;` for a name of letters decodes through the table, and is left
   * as it is when the table does not know it.
   */
  lemma NamedEntity(name: string)
    requires name != [] && forall i :: 0 <= i < |name| ==> IsAsciiLetter(name[i])
    ensures DecodeEntities("&" + name + ";") == Replacement("&" + name + ";")
  {
    var e := "&" + name + ";";
    NamedEntityShape(name);
    LeadingAmpOnly(e);
    WholeNamedMatch(e, |name|);
  }

  /** Where the passes look in `&name;`: no numeric match, a named match over the name, no other `&`. */
  lemma NamedEntityShape(name: string)
    requires name != [] && forall i :: 0 <= i < |name| ==> IsAsciiLetter(name[i])
    ensures var e := "&" + name + ";";
      e != [] && '&' !in e[1..] && DecimalAt(e).None? && HexAt(e).None? && NamedAt(e) == Some(|name|)
      && |e| == 2 + |name|
  {
    var e := "&" + name + ";";
    assert e[1] == name[0];
    assert '&' !in e[1..];
    assert e[1..] == name + ";";
    RunOfEntityChars(name, ";");
  }

  /** Text that is a single named match as a whole goes through the table. */
  lemma WholeNamedMatch(e: string, n: nat)
    requires NamedAt(e) == Some(n) && |e| == 2 + n
    ensures DecodeNamed(e) == Replacement(e)
  {
    NamedStep(e, n);
    CutAtEnd(e, 2 + n);
  }

  /** Cutting at the length keeps everything before and nothing after. */
  lemma CutAtEnd(s: string, k: int)
    requires k == |s|
    ensures s[..k] == s && s[k..] == []
  {
  }

  /** Text whose only `&` is its first character, where no pass matches, passes through unchanged. */
  lemma LeadingAmpOnly(s: string)
    requires s != [] && '&' !in s[1..]
    ensures DecimalAt(s).None? ==> DecodeDecimal(s) == s
    ensures HexAt(s).None? ==> DecodeHex(s) == s
    ensures NamedAt(s).None? ==> DecodeNamed(s) == s
  {
    NoAmpUnchanged(s[1..]);
    assert s == [s[0]] + s[1..];
  }

  /**
   * Each pass runs once and does not scan its own output again: a named
   * entity at the front is replaced, and the text after it is kept as it is
   * even when the replacement and that text together spell another entity.
   */
  lemma NamedFront(name: string, rest: string)
    requires name != [] && forall i :: 0 <= i < |name| ==> IsAsciiLetter(name[i])
    requires '&' !in rest
    ensures DecodeEntities("&" + name + ";" + rest) == Replacement("&" + name + ";") + rest
  {
    var s := "&" + name + ";" + rest;
    NamedFrontShape(name, rest);
    LeadingAmpOnly(s);
    NamedStep(s, |name|);
    NoAmpUnchanged(rest);
  }

  /** Where the passes look in `&name;rest`: no numeric match, a named match over the name, no other `&`. */
  lemma NamedFrontShape(name: string, rest: string)
    requires name != [] && forall i :: 0 <= i < |name| ==> IsAsciiLetter(name[i])
    requires '&' !in rest
    ensures var s := "&" + name + ";" + rest;
      s != [] && '&' !in s[1..] && DecimalAt(s).None? && HexAt(s).None? && NamedAt(s) == Some(|name|)
      && s[..2 + |name|] == "&" + name + ";" && s[2 + |name|..] == rest
  {
    var s := "&" + name + ";" + rest;
    assert s[1] == name[0];
    assert s[1..] == name + (";" + rest);
    assert '&' !in s[1..];
    RunOfEntityChars(name, ";" + rest);
    assert s[..2 + |name|] == "&" + name + ";";
  }

  /**
   * The decimal pass runs before the named one, so `&#38;` (an `&`) followed
   * by a name and `;` is decoded a second time, as that named entity.
   */
  lemma AmpFeedsNamed(name: string)
    requires name != [] && forall i :: 0 <= i < |name| ==> IsAsciiLetter(name[i])
    ensures DecodeEntities("&#38;" + name + ";") == Replacement("&" + name + ";")
  {
    var s := "&#38;" + name + ";";
    var e := "&" + name + ";";
    assert s == "&#" + "38" + ";" + (name + ";");
    assert '&' !in name + ";";
    DecimalFront("38", name + ";");
    assert DecimalValue("38") == 38;
    CodeUnitAmp();
    assert DecodeDecimal(s) == e;
    NamedEntityShape(name);
    LeadingAmpOnly(e);
    WholeNamedMatch(e, |name|);
  }

  /** Code unit 38 is `&`. */
  lemma CodeUnitAmp()
    ensures CodeUnit(38) == '&'
  {
    assert 38 % 0x1_0000 == 38;
  }

  /** A decimal entity at the front becomes its code unit; text after it without `&` stays. */
  lemma DecimalFront(d: string, rest: string)
    requires d != [] && AllAsciiDigits(d) && '&' !in rest
    ensures DecodeDecimal("&#" + d + ";" + rest) == [CodeUnit(DecimalValue(d))] + rest
  {
    var s := "&#" + d + ";" + rest;
    assert s[2..] == d + (";" + rest);
    RunOfDigits(d, ";" + rest);
    assert s[2..2 + |d|] == d;
    DecimalStep(s, |d|);
    assert s[3 + |d|..] == rest;
    NoAmpUnchanged(rest);
  }

  /** The longest title taken from `<title>` before it is cut. */
  const MaxTitle: nat := 200

  /** `title.replace(/^www\./, "")`. */
  function StripWww(host: string): (r: string)
    ensures StartsWith(host, "www.") ==> r == host[4..]
    ensures !StartsWith(host, "www.") ==> r == host
  {
    if StartsWith(host, "www.") then host[4..] else host
  }

  /**
   * A title from `<title>`: trimmed, runs of white space collapsed, decoded,
   * and when longer than 200 characters cut to 200 followed by `...`.
   */
  function TagTitle(raw: string): (r: string)
    ensures |r| <= MaxTitle + 3
  {
    Shorten(DecodeEntities(CollapseSpaces(Trim(raw))))
  }

  /**
   * `t.length > 200 ? t.substring(0, 200) + "..." : t`: a short title is kept,
   * a long one keeps its first 200 characters and ends in `...`.
   */
  function Shorten(t: string): (r: string)
    ensures |r| <= MaxTitle + 3
    ensures |t| <= MaxTitle ==> r == t
    ensures |t| > MaxTitle ==> |r| == MaxTitle + 3 && r[..MaxTitle] == t[..MaxTitle] && r[MaxTitle..] == "..."
  {
    if |t| > MaxTitle then t[..MaxTitle] + "..." else t
  }

  /** The parts of a fetched page the regular expressions capture. */
  datatype Page = Page(
    ogTitle: Option<string>,
    titleTag: Option<string>,
    ogDescription: Option<string>,
    metaDescription: Option<string>,
    bodyText: string)

  /** The og:title, trimmed and decoded; empty when there is none or it is blank. */
  function OgTitle(page: Page): (r: string)
    ensures page.ogTitle.None? ==> r == []
    ensures page.ogTitle.Some? ==> |r| <= |Trim(page.ogTitle.value)|
    ensures page.ogTitle.Some? ==> (r == [] <==> Trim(page.ogTitle.value) == [])
    ensures page.ogTitle.Some? && '&' !in Trim(page.ogTitle.value) ==> r == Trim(page.ogTitle.value)
  {
    if page.ogTitle.Some? then DecodeEntities(Trim(page.ogTitle.value)) else []
  }

  /** The outcome of the request: a page, or a failure (network error, timeout, non-2xx status). */
  datatype Response = Failed | Loaded(page: Page)

  datatype Fetched = Fetched(title: string, summary: Option<string>, bodyLength: nat)

  /**
   * `extractBodyText` after the region is chosen and the tags are replaced by
   * spaces: collapse, trim, decode, then drop every white-space character.
   */
  function BodyChars(text: string): (r: string)
    ensures forall i :: 0 <= i < |r| ==> !IsSpace(r[i])
  {
    RemoveSpaces(DecodeEntities(Trim(CollapseSpaces(text))))
  }

  /** The title when there is none: the host without `www.`, or the url if it does not parse. */
  function FallbackTitle(url: string, hostOf: string -> Option<string>): (r: string)
    ensures hostOf(url).None? ==> r == url
    ensures hostOf(url).Some? ==> r == StripWww(hostOf(url).value)
  {
    match hostOf(url)
    case None => url
    case Some(h) => StripWww(h)
  }

  /**
   * `fetchTitleAndSummary`, which never fails: `response` is what the request
   * gave and `hostOf` parses a URL (`None` when `new URL` throws).
   */
  method FetchTitleAndSummary(url: string, response: Response, hostOf: string -> Option<string>)
    returns (r: Fetched)
    ensures response.Failed? ==> r == Fetched(FallbackTitle(url, hostOf), None, 0)
    ensures response.Loaded? ==> r.bodyLength == |BodyChars(response.page.bodyText)|
    ensures response.Loaded? && OgTitle(response.page) != [] ==> r.title == OgTitle(response.page)
    ensures response.Loaded? && OgTitle(response.page) == [] && response.page.titleTag.Some? ==>
      var t := TagTitle(response.page.titleTag.value);
      t != [] ==> r.title == t
    ensures (response.Loaded? && OgTitle(response.page) == []
             && (response.page.titleTag.None? || TagTitle(response.page.titleTag.value) == [])) ==>
      r.title == FallbackTitle(url, hostOf)
    ensures r.title == [] ==> FallbackTitle(url, hostOf) == []
    ensures response.Loaded? && response.page.ogDescription.Some? ==>
      r.summary == Some(DecodeEntities(Trim(response.page.ogDescription.value)))
    ensures response.Loaded? && response.page.ogDescription.None? ==>
      r.summary == if response.page.metaDescription.Some?
                   then Some(DecodeEntities(Trim(response.page.metaDescription.value))) else None
  {
    if response.Failed? {
      return Fetched(FallbackTitle(url, hostOf), None, 0);
    }
    var page := response.page;
    var title := OgTitle(page);
    if title == [] && page.titleTag.Some? {
      title := TagTitle(page.titleTag.value);
    }
    var summary: Option<string> := None;
    if page.ogDescription.Some? {
      summary := Some(DecodeEntities(Trim(page.ogDescription.value)));
    } else if page.metaDescription.Some? {
      summary := Some(DecodeEntities(Trim(page.metaDescription.value)));
    }
    if title == [] {
      title := FallbackTitle(url, hostOf);
    }
    var body := BodyChars(page.bodyText);
    return Fetched(title, summary, |body|);
  }
}

=== FILE: import_script.dfy ===
/**
 * The one-shot migration from the development file store into the
 * database: every record of the file either becomes an article of the user
 * its email names (created on first sight, with its tags linked) or is
 * skipped, because a required field is blank or that user already has the
 * url. Reading the file is a parameter: `Unreadable` stands for a missing or
 * unparsable file, which aborts the run.
 */
module ImportScript {
  import opened Wrappers
  import opened Text
  import opened Lists
  import opened Database

  /** What `Number(bodyLength)` gives for a stored value: a finite number or not. */
  datatype NumberValue = Finite(value: int) | NotFinite

  /**
   * One element of the file's `articles` array, each field as `String(...)`
   * renders it (`None` when absent or null). `readAt` and `createdAt` are
   * the times their strings parse to.
   */
  datatype Record = Record(
    url: Option<string>,
    title: Option<string>,
    userEmail: Option<string>,
    userName: Option<string>,
    tags: Option<seq<string>>,
    summary: Option<string>,
    bodyLength: Option<NumberValue>,
    embedding: Option<string>,
    readAt: Option<int>,
    createdAt: Option<int>)

  /** The file as read: unreadable, or parsed with `articles` an array or not. */
  datatype StoreFile = Unreadable | Parsed(articles: Option<seq<Record>>)

  datatype ImportError = MissingDatabaseUrl | StoreUnreadable

  datatype Counts = Counts(imported: nat, skipped: nat)

  /** `Array.isArray(store?.articles) ? store.articles : []`. */
  function Records(file: StoreFile): (r: seq<Record>)
    ensures file.Parsed? && file.articles.Some? ==> r == file.articles.value
    ensures file.Unreadable? || file.articles.None? ==> r == []
  {
    if file.Parsed? && file.articles.Some? then file.articles.value else []
  }

  function Url(r: Record): string { Trim(r.url.GetOr([])) }
  function Title(r: Record): string { Trim(r.title.GetOr([])) }
  function Email(r: Record): string { ToLower(Trim(r.userEmail.GetOr([]))) }

  /** `a?.userName ? String(a.userName).trim() : null`: a blank but non-empty name stays as `""`. */
  function Name(r: Record): (n: Option<string>)
    ensures n.None? <==> r.userName.None? || r.userName.value == []
    ensures n.Some? ==> n.value == Trim(r.userName.value)
  {
    if r.userName.Some? && r.userName.value != [] then Some(Trim(r.userName.value)) else None
  }

  /** The record's tag names, trimmed, the empty ones dropped. */
  function TagNames(r: Record): (names: seq<string>)
    ensures forall k :: 0 <= k < |names| ==> names[k] != [] && Trim(names[k]) == names[k]
    ensures r.tags.Some? ==> forall t :: t in r.tags.value && Trim(t) != [] ==> Trim(t) in names
    ensures r.tags.None? ==> names == []
  {
    if r.tags.Some? then
      var trimmed := TrimAll(r.tags.value);
      forall k | 0 <= k < |trimmed| ensures Trim(trimmed[k]) == trimmed[k] {
        TrimTwice(r.tags.value[k]);
      }
      forall t | t in r.tags.value && Trim(t) != [] ensures Trim(t) in trimmed {
        var k :| 0 <= k < |r.tags.value| && r.tags.value[k] == t;
        assert trimmed[k] == Trim(t);
      }
      Filter(trimmed, NonEmpty)
    else []
  }

  /** The stored body length: the number when it is finite, otherwise null. */
  function BodyLength(r: Record): (b: Option<int>)
    ensures b.Some? <==> r.bodyLength.Some? && r.bodyLength.value.Finite?
    ensures b.Some? ==> b.value == r.bodyLength.value.value
  {
    match r.bodyLength
    case Some(Finite(n)) => Some(n)
    case _ => None
  }

  /** A record with a url, a title and an owner's email. */
  predicate Importable(r: Record) {
    Url(r) != [] && Title(r) != [] && Email(r) != []
  }

  /** `article.findFirst({ where: { userId: u, url } })` finds a row. */
  predicate HasUrl(articles: seq<DbArticle>, u: UserId, url: string) {
    exists i | 0 <= i < |articles| :: articles[i].userId == u && articles[i].url == url
  }

  /** The row created for r, owned by u, apart from its id; a missing creation time is now. */
  function NewRow(r: Record, u: UserId, now: int): (a: DbArticle)
    ensures a.userId == u && a.url == Url(r) && a.title == Title(r) && a.bodyLength == BodyLength(r)
    ensures a.createdAt == (if r.createdAt.Some? then r.createdAt.value else now)
  {
    DbArticle(0, u, Url(r), Title(r), r.summary, BodyLength(r), r.embedding, r.readAt, r.createdAt.GetOr(now), now)
  }

  /** No user has two articles with the same url. */
  predicate UniqueUrls(articles: seq<DbArticle>) {
    forall i, j | 0 <= i < j < |articles| :: articles[i].userId == articles[j].userId ==> articles[i].url != articles[j].url
  }

  /** The owner of the record's email, once upserted. */
  function Owner(users: seq<DbUser>, email: string): (u: UserId)
    requires UserIndex(users, email).Some?
  {
    users[UserPosition(users, email)].id
  }

  /**
   * The tag loop: upserts each name and links it to article a, ignoring
   * the error for a link that already exists.
   */
  method LinkTags(db: Db, a: ArticleId, names: seq<string>)
    requires db.Valid() && HasArticle(db.articles, a)
    modifies db
    ensures db.Valid()
    ensures forall k :: 0 <= k < |names| ==> names[k] in db.tags
    ensures forall n :: n in old(db.tags) ==> n in db.tags && db.tags[n] == old(db.tags)[n]
    ensures db.links == old(db.links) + set k | 0 <= k < |names| :: (a, db.tags[names[k]])
    ensures db.users == old(db.users) && db.articles == old(db.articles)
  {
    ghost var ids: seq<TagId> := [];
    for i := 0 to |names|
      invariant db.Valid() && HasArticle(db.articles, a)
      invariant db.users == old(db.users) && db.articles == old(db.articles)
      invariant |ids| == i
      invariant forall k :: 0 <= k < i ==> names[k] in db.tags && ids[k] == db.tags[names[k]]
      invariant forall n :: n in old(db.tags) ==> n in db.tags && db.tags[n] == old(db.tags)[n]
      invariant db.links == old(db.links) + Pairs(a, ids)
    {
      var t := LinkTag(db, a, names[i]);
      PairsSnoc(a, ids, t);
      ids := ids + [t];
    }
    assert (set k | 0 <= k < |names| :: (a, db.tags[names[k]])) == Pairs(a, ids);
  }

  /** One turn of the tag loop: get or create the tag, then link it unless already linked. */
  method LinkTag(db: Db, a: ArticleId, name: string) returns (t: TagId)
    requires db.Valid() && HasArticle(db.articles, a)
    modifies db
    ensures db.Valid()
    ensures name in db.tags && t == db.tags[name]
    ensures forall n :: n in old(db.tags) ==> n in db.tags && db.tags[n] == old(db.tags)[n]
    ensures db.links == old(db.links) + {(a, t)}
    ensures db.users == old(db.users) && db.articles == old(db.articles)
  {
    t := db.UpsertTag(name);
    assert TagIdExists(db.tags, t) && HasArticle(db.articles, a);
    ghost var links0 := db.links;
    var linked := db.CreateLink(a, t);
    if linked.Err? {
      assert linked.error == UniqueViolation;
      assert (a, t) in links0;
    }
  }

  /**
   * The store after r was created as a new article owned by u, with a fresh
   * id, and its tags linked to it.
   */
  ghost predicate Stored(r: Record, u: UserId, now: int, before: seq<DbArticle>, after: seq<DbArticle>,
                         links0: set<Link>, links: set<Link>, tags: map<string, TagId>)
  {
    |after| == |before| + 1 && after[..|before|] == before
    && var row := after[|before|];
    row == NewRow(r, u, now).(id := row.id)
    && !HasArticle(before, row.id)
    && (forall k :: 0 <= k < |TagNames(r)| ==> TagNames(r)[k] in tags)
    && links == links0 + set k | 0 <= k < |TagNames(r)| :: (row.id, tags[TagNames(r)[k]])
  }

  /** `article.create` for r, then the tag loop. */
  method StoreRecord(db: Db, r: Record, u: UserId, now: int)
    requires db.Valid()
    modifies db
    ensures db.Valid()
    ensures Stored(r, u, now, old(db.articles), db.articles, old(db.links), db.links, db.tags)
    ensures |db.articles| == |old(db.articles)| + 1 && db.articles[..|old(db.articles)|] == old(db.articles)
    ensures !HasUrl(old(db.articles), u, Url(r)) && UniqueUrls(old(db.articles)) ==> UniqueUrls(db.articles)
    ensures forall n :: n in old(db.tags) ==> n in db.tags && db.tags[n] == old(db.tags)[n]
    ensures db.users == old(db.users)
  {
    FreshId(db);
    ghost var before := db.articles;
    var created := db.CreateArticle(NewRow(r, u, now));
    assert db.articles[|before|] == created && db.articles[..|before|] == before;
    assert HasArticle(db.articles, created.id);
    AppendKeepsUnique(before, db.articles);
    LinkTags(db, created.id, TagNames(r));
  }

  /** The counter's id belongs to no existing article. */
  lemma FreshId(db: Db)
    requires db.Valid()
    ensures !HasArticle(db.articles, db.nextId)
  {
  }

  /**
   * One pass of the loop body: a record missing its url, title or email is
   * skipped; otherwise its owner is upserted, and it is skipped when the
   * owner already has its url, else stored with its tags linked.
   */
  method ImportRecord(db: Db, r: Record, now: int) returns (imported: bool)
    requires db.Valid()
    modifies db
    ensures db.Valid()
    ensures !Importable(r) ==> !imported && db.users == old(db.users) && db.nextId == old(db.nextId)
    ensures Importable(r) ==> db.users == Upserted(old(db.users), Email(r), Name(r), old(db.nextId))
    ensures imported <==> Importable(r) && !HasUrl(old(db.articles), Owner(db.users, Email(r)), Url(r))
    ensures !imported ==> db.articles == old(db.articles) && db.links == old(db.links) && db.tags == old(db.tags)
    ensures imported ==>
      Stored(r, Owner(db.users, Email(r)), now, old(db.articles), db.articles, old(db.links), db.links, db.tags)
    ensures |db.articles| == |old(db.articles)| + (if imported then 1 else 0)
    ensures db.articles[..|old(db.articles)|] == old(db.articles)
    ensures UniqueUrls(old(db.articles)) ==> UniqueUrls(db.articles)
  {
    if !Importable(r) {
      return false;
    }
    imported := ImportOwned(db, r, now);
  }

  /** The loop body past the blank-field check: upsert the owner, then skip a known url or store. */
  method ImportOwned(db: Db, r: Record, now: int) returns (imported: bool)
    requires db.Valid()
    modifies db
    ensures db.Valid()
    ensures db.users == Upserted(old(db.users), Email(r), Name(r), old(db.nextId))
    ensures UserIndex(db.users, Email(r)).Some?
    ensures imported <==> !HasUrl(old(db.articles), Owner(db.users, Email(r)), Url(r))
    ensures !imported ==> db.articles == old(db.articles) && db.links == old(db.links) && db.tags == old(db.tags)
    ensures imported ==>
      Stored(r, Owner(db.users, Email(r)), now, old(db.articles), db.articles, old(db.links), db.links, db.tags)
    ensures |db.articles| == |old(db.articles)| + (if imported then 1 else 0)
    ensures db.articles[..|old(db.articles)|] == old(db.articles)
    ensures UniqueUrls(old(db.articles)) ==> UniqueUrls(db.articles)
  {
    var user := db.UpsertUser(Email(r), Name(r));
    assert Owner(db.users, Email(r)) == user.id;
    imported := StoreIfNew(db, r, user.id, now);
  }

  /** `article.findFirst` for the owner's url, then the store unless found. */
  method StoreIfNew(db: Db, r: Record, u: UserId, now: int) returns (imported: bool)
    requires db.Valid()
    modifies db
    ensures db.Valid()
    ensures db.users == old(db.users)
    ensures imported <==> !HasUrl(old(db.articles), u, Url(r))
    ensures !imported ==> db.articles == old(db.articles) && db.links == old(db.links) && db.tags == old(db.tags)
    ensures imported ==> Stored(r, u, now, old(db.articles), db.articles, old(db.links), db.links, db.tags)
    ensures |db.articles| == |old(db.articles)| + (if imported then 1 else 0)
    ensures db.articles[..|old(db.articles)|] == old(db.articles)
    ensures UniqueUrls(old(db.articles)) ==> UniqueUrls(db.articles)
  {
    if HasUrl(db.articles, u, Url(r)) {
      return false;
    }
    StoreRecord(db, r, u, now);
    return true;
  }

  /**
   * `main`: a missing or blank `DATABASE_URL` aborts before anything else,
   * an unreadable file aborts next; otherwise each record is imported or
   * skipped, exactly one of the two, every record without a url, title
   * or email is among the skipped, and afterwards every record that has all
   * three belongs to a user who has its url.
   */
  method Import(databaseUrl: Option<string>, file: StoreFile, db: Db, now: int) returns (r: Result<Counts, ImportError>)
    requires db.Valid()
    modifies db
    ensures db.Valid()
    ensures Trim(databaseUrl.GetOr([])) == [] <==> r == Err(MissingDatabaseUrl)
    ensures r == Err(StoreUnreadable) <==> Trim(databaseUrl.GetOr([])) != [] && file.Unreadable?
    ensures r.Err? ==> db.articles == old(db.articles) && db.users == old(db.users) && db.links == old(db.links)
    ensures r.Ok? ==> r.value.imported + r.value.skipped == |Records(file)|
    ensures r.Ok? ==> r.value.imported <= ImportableCount(Records(file))
    ensures r.Ok? ==> Grown(old(db.articles), db.articles, r.value.imported)
    ensures r.Ok? ==> forall k | 0 <= k < |Records(file)| :: Landed(db.users, db.articles, Records(file)[k])
  {
    if databaseUrl.None? || Trim(databaseUrl.value) == [] {
      return Err(MissingDatabaseUrl);
    }
    if file.Unreadable? {
      return Err(StoreUnreadable);
    }
    var imported, skipped := ImportAll(db, Records(file), now);
    return Ok(Counts(imported, skipped));
  }

  /**
   * The loop over the records: each one is counted once, as imported or as
   * skipped, and each importable one has landed by the end.
   */
  method ImportAll(db: Db, records: seq<Record>, now: int) returns (imported: nat, skipped: nat)
    requires db.Valid()
    modifies db
    ensures db.Valid()
    ensures imported + skipped == |records|
    ensures imported <= ImportableCount(records)
    ensures Grown(old(db.articles), db.articles, imported)
    ensures forall k | 0 <= k < |records| :: Landed(db.users, db.articles, records[k])
  {
    imported, skipped := 0, 0;
    ghost var start := db.articles;
    for i := 0 to |records|
      invariant db.Valid()
      invariant imported + skipped == i
      invariant imported <= ImportableCount(records[..i])
      invariant Grown(start, db.articles, imported)
      invariant forall k | 0 <= k < i :: Landed(db.users, db.articles, records[k])
    {
      ghost var before, users0 := db.articles, db.users;
      var ok := CountRecord(db, records[i], now);
      LandedStep(records, i, users0, before, db.users, db.articles);
      GrownStep(start, before, db.articles, imported, if ok then 1 else 0);
      ImportableCountSnoc(records, i);
      if ok {
        imported := imported + 1;
      } else {
        skipped := skipped + 1;
      }
    }
    assert records[..|records|] == records;
  }

  /**
   * `ImportRecord` as the counters see it: a row is appended exactly when
   * the record is importable and its owner lacks the url, and either way
   * the record has landed; earlier users keep their ids and emails.
   */
  method CountRecord(db: Db, r: Record, now: int) returns (imported: bool)
    requires db.Valid()
    modifies db
    ensures db.Valid()
    ensures Landed(db.users, db.articles, r)
    ensures imported <==> Importable(r) && !HasUrl(old(db.articles), Owner(db.users, Email(r)), Url(r))
    ensures UsersKept(old(db.users), db.users)
    ensures |db.articles| == |old(db.articles)| + (if imported then 1 else 0)
    ensures db.articles[..|old(db.articles)|] == old(db.articles)
    ensures UniqueUrls(old(db.articles)) ==> UniqueUrls(db.articles)
  {
    ghost var users0, nextId0, articles0 := db.users, db.nextId, db.articles;
    imported := ImportRecord(db, r, now);
    if Importable(r) {
      UpsertedKeeps(users0, Email(r), Name(r), nextId0);
      if imported {
        assert db.articles[|articles0|].userId == Owner(db.users, Email(r));
        assert db.articles[|articles0|].url == Url(r);
      }
    }
  }

  /** An importable record's owner exists and has a row with the record's url. */
  ghost predicate Landed(users: seq<DbUser>, articles: seq<DbArticle>, r: Record) {
    Importable(r) ==> OwnsUrl(users, articles, Email(r), Url(r))
  }

  /** The user with `email` exists and has a row with `url`. */
  ghost predicate OwnsUrl(users: seq<DbUser>, articles: seq<DbArticle>, email: string, url: string) {
    UserIndex(users, email).Some? && HasUrl(articles, Owner(users, email), url)
  }

  /** Every user of `users0` is still at its place in `users1` with its id and email. */
  ghost predicate UsersKept(users0: seq<DbUser>, users1: seq<DbUser>) {
    |users0| <= |users1|
    && forall i | 0 <= i < |users0| :: users1[i].id == users0[i].id && users1[i].email == users0[i].email
  }

  /** The upsert renames at most one user and otherwise appends. */
  lemma UpsertedKeeps(users: seq<DbUser>, email: string, name: Option<string>, newId: UserId)
    requires forall i, j | 0 <= i < j < |users| :: users[i].email != users[j].email
    ensures UsersKept(users, Upserted(users, email, name, newId))
  {
    var r := Upserted(users, email, name, newId);
    match UserIndex(users, email)
    case Some(p) =>
      assert r == users[p := DbUser(users[p].id, email, if name.Some? then name else users[p].name)];
    case None =>
      assert r == users + [DbUser(newId, email, name)];
  }

  /** An owner's url stays while users are kept and rows are only appended. */
  lemma OwnsUrlKept(users0: seq<DbUser>, articles0: seq<DbArticle>,
                    users1: seq<DbUser>, articles1: seq<DbArticle>, email: string, url: string)
    requires UsersKept(users0, users1)
    requires forall i, j | 0 <= i < j < |users1| :: users1[i].email != users1[j].email
    requires |articles0| <= |articles1| && articles1[..|articles0|] == articles0
    requires OwnsUrl(users0, articles0, email, url)
    ensures OwnsUrl(users1, articles1, email, url)
  {
    var p := UserPosition(users0, email);
    assert users1[p].email == email;
    var q := UserPosition(users1, email);
    assert q == p;
    var j :| 0 <= j < |articles0| && articles0[j].userId == users0[p].id && articles0[j].url == url;
    assert articles1[j] == articles0[j];
  }

  /** One turn of the import loop keeps the earlier records landed and lands records[i]. */
  lemma LandedStep(records: seq<Record>, i: nat, users0: seq<DbUser>, articles0: seq<DbArticle>,
                   users1: seq<DbUser>, articles1: seq<DbArticle>)
    requires i < |records|
    requires forall k | 0 <= k < i :: Landed(users0, articles0, records[k])
    requires UsersKept(users0, users1)
    requires forall i, j | 0 <= i < j < |users1| :: users1[i].email != users1[j].email
    requires |articles0| <= |articles1| && articles1[..|articles0|] == articles0
    requires Landed(users1, articles1, records[i])
    ensures forall k | 0 <= k < i + 1 :: Landed(users1, articles1, records[k])
  {
    forall k | 0 <= k < i + 1 ensures Landed(users1, articles1, records[k]) {
      if k < i && Importable(records[k]) {
        OwnsUrlKept(users0, articles0, users1, articles1, Email(records[k]), Url(records[k]));
      }
    }
  }

  /** How many records carry a url, a title and an owner email. */
  function ImportableCount(records: seq<Record>): (r: nat)
    ensures r <= |records|
  {
    if records == [] then 0
    else ImportableCount(records[..|records| - 1]) + (if Importable(records[|records| - 1]) then 1 else 0)
  }

  lemma ImportableCountSnoc(records: seq<Record>, i: nat)
    requires i < |records|
    ensures ImportableCount(records[..i + 1]) == ImportableCount(records[..i]) + (if Importable(records[i]) then 1 else 0)
  {
    assert records[..i + 1][..i] == records[..i];
  }

  /** `after` is `before` with n rows appended, and urls stayed unique per user if they were. */
  ghost predicate Grown(before: seq<DbArticle>, after: seq<DbArticle>, n: nat) {
    |after| == |before| + n && after[..|before|] == before && (UniqueUrls(before) ==> UniqueUrls(after))
  }

  lemma GrownStep(a0: seq<DbArticle>, a1: seq<DbArticle>, a2: seq<DbArticle>, n: nat, d: nat)
    requires Grown(a0, a1, n)
    requires |a2| == |a1| + d && a2[..|a1|] == a1 && (UniqueUrls(a1) ==> UniqueUrls(a2))
    ensures Grown(a0, a2, n + d)
  {
    assert a2[..|a0|] == a1[..|a0|];
  }

  /**
   * Running the import again skips every record it imported: the owner's
   * upsert finds the same user, who now has the url.
   */
  lemma ReimportSkips(r: Record, users: seq<DbUser>, newId: UserId, now: int,
                      before: seq<DbArticle>, after: seq<DbArticle>,
                      links0: set<Link>, links: set<Link>, tags: map<string, TagId>)
    requires forall i, j | 0 <= i < j < |users| :: users[i].email != users[j].email
    requires UserIndex(users, Email(r)).Some?
    requires Stored(r, Owner(users, Email(r)), now, before, after, links0, links, tags)
    ensures HasUrl(after, Owner(Upserted(users, Email(r), Name(r), newId), Email(r)), Url(r))
  {
    var i := UserPosition(users, Email(r));
    var again := Upserted(users, Email(r), Name(r), newId);
    assert again[i].id == users[i].id;
    forall j | 0 <= j < i ensures again[j].email != Email(r) {
      FirstMatch(users, Email(r), j);
    }
    UserIndexFirst(again, Email(r), i);
    assert after[|before|].userId == users[i].id && after[|before|].url == Url(r);
  }

  /** No user before the one `UserIndex` finds has the email. */
  lemma {:induction false} FirstMatch(users: seq<DbUser>, email: string, j: nat)
    requires UserIndex(users, email).Some? && j < UserPosition(users, email)
    ensures users[j].email != email
  {
    if j > 0 {
      FirstMatch(users[1..], email, j - 1);
    }
  }

  /** `UserIndex` finds the first user with the email. */
  lemma {:induction false} UserIndexFirst(users: seq<DbUser>, email: string, i: nat)
    requires i < |users| && users[i].email == email
    requires forall j :: 0 <= j < i ==> users[j].email != email
    ensures UserIndex(users, email) == Some(i)
  {
    if i > 0 {
      UserIndexFirst(users[1..], email, i - 1);
    }
  }

  /** Appending a row whose owner does not have its url keeps urls unique per user. */
  lemma AppendKeepsUnique(before: seq<DbArticle>, after: seq<DbArticle>)
    requires |after| == |before| + 1 && after[..|before|] == before
    ensures !HasUrl(before, after[|before|].userId, after[|before|].url) && UniqueUrls(before) ==> UniqueUrls(after)
  {
    if !HasUrl(before, after[|before|].userId, after[|before|].url) && UniqueUrls(before) {
      forall i, j | 0 <= i < j < |after| && after[i].userId == after[j].userId
        ensures after[i].url != after[j].url
      {
        assert after[i] == before[i];
        if j < |before| {
          assert after[j] == before[j];
        }
      }
    }
  }
}

=== FILE: insights_route.dfy ===
/**
 * `GET /api/insights`: the caller's read articles grouped by the Monday of
 * the week they were read in, one short summary per week, newest week
 * first.
 *
 * A week is keyed by its start instant (the handler keys it by that
 * instant's ISO string, which is one-to-one). The text generator is the
 * parameter `summarize`; the clock is `now`.
 */
module InsightsRoute {
  import opened Wrappers
  import opened Text
  import opened Lists
  import opened Database
  import opened Calendar
  import opened TagStats

  /** What `generateWeeklyInsightSummary` did: it threw, or returned a text or null. */
  datatype SummaryOutcome = Failed | Produced(text: Option<string>)

  datatype Insight = Insight(id: int, weekStart: int, createdAt: int, summary: string)

  datatype InsightsResponse = InsightsUnauthorized | Insights(insights: seq<Insight>)

  function ReadAtKey(a: DbArticle): real {
    if a.readAt.Some? then a.readAt.value as real else a.createdAt as real
  }

  /** The caller's read articles, most recently read first. */
  function ReadRows(articles: seq<DbArticle>, u: UserId): (r: seq<DbArticle>)
    ensures SortedDesc(r, ReadAtKey)
    ensures forall k :: 0 <= k < |r| ==> r[k] in articles && r[k].userId == u && r[k].readAt.Some?
    ensures forall a :: a in articles && a.userId == u && a.readAt.Some? ==> a in r
  {
    var own := Filter(articles, (a: DbArticle) => a.userId == u && a.readAt.Some?);
    var r := SortDesc(own, ReadAtKey);
    ReadRowsMembers(articles, u, own, r);
    r
  }

  lemma ReadRowsMembers(articles: seq<DbArticle>, u: UserId, own: seq<DbArticle>, r: seq<DbArticle>)
    requires own == Filter(articles, (a: DbArticle) => a.userId == u && a.readAt.Some?)
    requires multiset(r) == multiset(own)
    ensures forall k :: 0 <= k < |r| ==> r[k] in articles && r[k].userId == u && r[k].readAt.Some?
    ensures forall a :: a in articles && a.userId == u && a.readAt.Some? ==> a in r
  {
    forall k | 0 <= k < |r| ensures r[k] in articles && r[k].userId == u && r[k].readAt.Some? {
      assert r[k] in multiset(own);
      var i :| 0 <= i < |own| && own[i] == r[k];
    }
    forall a | a in articles && a.userId == u && a.readAt.Some? ensures a in r {
      var i :| 0 <= i < |articles| && articles[i] == a;
      assert a in own;
      assert a in multiset(r);
    }
  }

  /** The week an article belongs to: `startOfWeek(readAt ?? createdAt)`. */
  function WeekOf(a: DbArticle): (w: int)
    ensures IsWeekStart(w)
  {
    StartOfWeek(if a.readAt.Some? then a.readAt.value else a.createdAt)
  }

  /** The articles of rows that belong to week w, in order. */
  function InWeek(rows: seq<DbArticle>, w: int): seq<DbArticle> {
    Filter(rows, (a: DbArticle) => WeekOf(a) == w)
  }

  /** The weeks the articles of s belong to. */
  function Weeks(s: seq<DbArticle>): (r: set<int>)
    ensures forall w :: w in r <==> exists k :: 0 <= k < |s| && WeekOf(s[k]) == w
  {
    set a | a in s :: WeekOf(a)
  }

  lemma WeeksSnoc(s: seq<DbArticle>, a: DbArticle)
    ensures Weeks(s + [a]) == Weeks(s) + {WeekOf(a)}
  {
    assert forall b :: b in s + [a] <==> b in s || b == a;
  }

  /**
   * The grouping invariant: `weeks` lists the weeks of s once each in the
   * order first met, and `groups` maps each to its articles in order.
   */
  ghost predicate Grouped(s: seq<DbArticle>, weeks: seq<int>, groups: map<int, seq<DbArticle>>) {
    NoDups(weeks)
    && Elements(weeks) == groups.Keys == Weeks(s)
    && forall w :: w in groups ==> groups[w] == InWeek(s, w)
  }

  /** One step of the grouping loop keeps the grouping invariant. */
  lemma GroupStep(s: seq<DbArticle>, a: DbArticle, weeks: seq<int>, groups: map<int, seq<DbArticle>>,
                  weeks': seq<int>, groups': map<int, seq<DbArticle>>)
    requires Grouped(s, weeks, groups)
    requires WeekOf(a) in groups ==> weeks' == weeks && groups' == groups[WeekOf(a) := groups[WeekOf(a)] + [a]]
    requires WeekOf(a) !in groups ==> weeks' == weeks + [WeekOf(a)] && groups' == groups[WeekOf(a) := [a]]
    ensures Grouped(s + [a], weeks', groups')
  {
    GroupStepWeeks(s, a, weeks, groups, weeks', groups');
    GroupStepMembers(s, a, groups, groups');
  }

  /** The weeks part of a grouping step. */
  lemma GroupStepWeeks(s: seq<DbArticle>, a: DbArticle, weeks: seq<int>, groups: map<int, seq<DbArticle>>,
                       weeks': seq<int>, groups': map<int, seq<DbArticle>>)
    requires NoDups(weeks) && Elements(weeks) == groups.Keys == Weeks(s)
    requires WeekOf(a) in groups ==> weeks' == weeks && groups' == groups[WeekOf(a) := groups[WeekOf(a)] + [a]]
    requires WeekOf(a) !in groups ==> weeks' == weeks + [WeekOf(a)] && groups' == groups[WeekOf(a) := [a]]
    ensures NoDups(weeks') && Elements(weeks') == groups'.Keys == Weeks(s + [a])
  {
    var w := WeekOf(a);
    WeeksSnoc(s, a);
    ElementsSnoc(weeks, w);
    if w in groups {
      assert groups'.Keys == groups.Keys;
    } else {
      assert groups'.Keys == groups.Keys + {w};
    }
  }

  /** Appending an article adds it to the end of its own week's list only. */
  lemma InWeekSnoc(s: seq<DbArticle>, a: DbArticle, v: int)
    ensures InWeek(s + [a], v) == InWeek(s, v) + (if WeekOf(a) == v then [a] else [])
  {
    FilterAppend(s, [a], (b: DbArticle) => WeekOf(b) == v);
  }

  /** The groups part of a grouping step: only the group of a's week grows, by a. */
  lemma GroupStepMembers(s: seq<DbArticle>, a: DbArticle, groups: map<int, seq<DbArticle>>,
                         groups': map<int, seq<DbArticle>>)
    requires forall w :: w in groups ==> groups[w] == InWeek(s, w)
    requires WeekOf(a) in groups ==> groups' == groups[WeekOf(a) := groups[WeekOf(a)] + [a]]
    requires WeekOf(a) !in groups ==> groups' == groups[WeekOf(a) := [a]]
    requires WeekOf(a) !in groups ==> forall k :: 0 <= k < |s| ==> WeekOf(s[k]) != WeekOf(a)
    ensures forall w :: w in groups' ==> groups'[w] == InWeek(s + [a], w)
  {
    var w := WeekOf(a);
    forall v | v in groups' ensures groups'[v] == InWeek(s + [a], v) {
      InWeekSnoc(s, a, v);
      if v != w {
        assert groups'[v] == groups[v];
      } else if w !in groups {
        FilterNone(s, (b: DbArticle) => WeekOf(b) == w);
      }
    }
  }

  /**
   * The grouping loop: the distinct weeks in the order first met, and for
   * each the articles of that week in their original order.
   */
  method GroupByWeek(rows: seq<DbArticle>) returns (weeks: seq<int>, groups: map<int, seq<DbArticle>>)
    ensures NoDups(weeks)
    ensures Elements(weeks) == groups.Keys == Weeks(rows)
    ensures forall w :: w in groups ==> groups[w] == InWeek(rows, w)
  {
    weeks, groups := [], map[];
    for i := 0 to |rows|
      invariant Grouped(rows[..i], weeks, groups)
    {
      var a := rows[i];
      var w := WeekOf(a);
      assert rows[..i + 1] == rows[..i] + [a];
      ghost var weeks0, groups0 := weeks, groups;
      if w in groups {
        groups := groups[w := groups[w] + [a]];
      } else {
        weeks := weeks + [w];
        groups := groups[w := [a]];
      }
      GroupStep(rows[..i], a, weeks0, groups0, weeks, groups);
    }
    assert rows[..|rows|] == rows;
  }

  /** The number of articles in the groups of the listed weeks. */
  function GroupTotal(weeks: seq<int>, rows: seq<DbArticle>): nat {
    if weeks == [] then 0 else GroupTotal(weeks[..|weeks| - 1], rows) + |InWeek(rows, weeks[|weeks| - 1])|
  }

  /** Adding one article adds one to exactly the group of its week. */
  lemma {:induction false} GroupTotalSnoc(weeks: seq<int>, rows: seq<DbArticle>, a: DbArticle)
    requires NoDups(weeks)
    ensures GroupTotal(weeks, rows + [a]) == GroupTotal(weeks, rows) + (if WeekOf(a) in weeks then 1 else 0)
  {
    if weeks != [] {
      var init, w := weeks[..|weeks| - 1], weeks[|weeks| - 1];
      assert weeks == init + [w];
      GroupTotalSnoc(init, rows, a);
      FilterAppend(rows, [a], (b: DbArticle) => WeekOf(b) == w);
      assert WeekOf(a) in weeks <==> WeekOf(a) in init || WeekOf(a) == w;
      assert w !in init;
    }
  }

  /** Every article falls in exactly one week: the groups' sizes add up to the number of articles. */
  lemma {:induction false} GroupsPartition(weeks: seq<int>, rows: seq<DbArticle>)
    requires NoDups(weeks)
    requires forall k :: 0 <= k < |rows| ==> WeekOf(rows[k]) in weeks
    ensures GroupTotal(weeks, rows) == |rows|
  {
    if rows == [] {
      GroupTotalEmpty(weeks);
    } else {
      var init, a := rows[..|rows| - 1], rows[|rows| - 1];
      assert rows == init + [a];
      GroupsPartition(weeks, init);
      GroupTotalSnoc(weeks, init, a);
    }
  }

  lemma {:induction false} GroupTotalEmpty(weeks: seq<int>)
    ensures GroupTotal(weeks, []) == 0
  {
    if weeks != [] {
      GroupTotalEmpty(weeks[..|weeks| - 1]);
    }
  }

  /**
   * A week's top tags: five distinct names, or all of them when fewer, each
   * carried by some article of the week, by non-increasing count, and no
   * name left out is more frequent than one kept.
   */
  ghost predicate TopTagsOk(top: seq<string>, arts: seq<DbArticle>, tags: map<string, TagId>, links: set<Link>) {
    |top| <= 5
    && |top| == Min(5, |AllNames(arts, tags, links)|)
    && NoDups(top)
    && (forall k :: 0 <= k < |top| ==> top[k] in AllNames(arts, tags, links))
    && (forall i, j :: 0 <= i < j < |top| ==>
          CountTagged(arts, tags, links, top[i]) >= CountTagged(arts, tags, links, top[j]))
    && (forall n :: n in AllNames(arts, tags, links) && n !in top ==>
          forall k :: 0 <= k < |top| ==> CountTagged(arts, tags, links, n) <= CountTagged(arts, tags, links, top[k]))
  }

  /** The counting loop, the sort by count, `slice(0, 5)` and the names. */
  method TopTags(arts: seq<DbArticle>, tags: map<string, TagId>, links: set<Link>) returns (top: seq<string>)
    ensures TopTagsOk(top, arts, tags, links)
  {
    var names, counts := CountTags(arts, tags, links);
    var entries := Entries(names, counts);
    var best := TopDesc(entries, CountKey, 5);
    top := Names(best);
    TopTagsFacts(arts, tags, links, names, counts, entries, best, top);
  }

  /** The names of a ranking, in order. */
  function Names(best: seq<TagCount>): (r: seq<string>)
    ensures |r| == |best|
    ensures forall k :: 0 <= k < |r| ==> r[k] == best[k].name
  {
    seq(|best|, k requires 0 <= k < |best| => best[k].name)
  }

  lemma TopTagsFacts(arts: seq<DbArticle>, tags: map<string, TagId>, links: set<Link>, names: seq<string>,
                     counts: map<string, nat>, entries: seq<TagCount>, best: seq<TagCount>, top: seq<string>)
    requires NoDups(names)
    requires Elements(names) == counts.Keys == AllNames(arts, tags, links)
    requires forall n :: n in counts ==> counts[n] == CountTagged(arts, tags, links, n) > 0
    requires entries == Entries(names, counts)
    requires best == TopDesc(entries, CountKey, 5)
    requires top == Names(best)
    ensures TopTagsOk(top, arts, tags, links)
  {
    BestAreCounts(arts, tags, links, names, counts, entries, best);
    assert |names| == |AllNames(arts, tags, links)| by {
      DistinctCard(names);
    }
    forall i, j | 0 <= i < j < |top|
      ensures CountTagged(arts, tags, links, top[i]) >= CountTagged(arts, tags, links, top[j])
    {
      assert CountKey(best[i]) >= CountKey(best[j]);
    }
    LeftOutNotMore(arts, tags, links, names, counts, entries, best, top);
    TopNamesDistinct(names, counts, entries, best, top);
  }

  /** Entries built from distinct names keep their names distinct in any selection of them. */
  lemma TopNamesDistinct(names: seq<string>, counts: map<string, nat>, entries: seq<TagCount>,
                         best: seq<TagCount>, top: seq<string>)
    requires NoDups(names)
    requires forall k :: 0 <= k < |names| ==> names[k] in counts
    requires entries == Entries(names, counts)
    requires multiset(best) <= multiset(entries)
    requires |top| == |best| && forall k :: 0 <= k < |top| ==> top[k] == best[k].name
    ensures NoDups(top)
  {
    SelectionKeepsKeysUnique(names, entries, best, NameOf);
    forall i, j | 0 <= i < j < |top| ensures top[i] != top[j] {
      assert NameOf(best[i]) != NameOf(best[j]);
    }
  }

  /** Every kept entry is a tag name with its count. */
  lemma BestAreCounts(arts: seq<DbArticle>, tags: map<string, TagId>, links: set<Link>, names: seq<string>,
                      counts: map<string, nat>, entries: seq<TagCount>, best: seq<TagCount>)
    requires forall n :: n in counts ==> counts[n] == CountTagged(arts, tags, links, n) > 0
    requires forall k :: 0 <= k < |names| ==> names[k] in counts
    requires entries == Entries(names, counts)
    requires forall k :: 0 <= k < |best| ==> best[k] in entries
    ensures forall k :: 0 <= k < |best| ==>
      best[k].name in counts && best[k] == TagCount(best[k].name, CountTagged(arts, tags, links, best[k].name))
  {
    forall k | 0 <= k < |best|
      ensures best[k].name in counts && best[k] == TagCount(best[k].name, CountTagged(arts, tags, links, best[k].name))
    {
      assert best[k] in entries;
      var i :| 0 <= i < |entries| && entries[i] == best[k];
    }
  }

  /** A name left out of the top tags is no more frequent than any kept one. */
  lemma LeftOutNotMore(arts: seq<DbArticle>, tags: map<string, TagId>, links: set<Link>, names: seq<string>,
                       counts: map<string, nat>, entries: seq<TagCount>, best: seq<TagCount>, top: seq<string>)
    requires Elements(names) == AllNames(arts, tags, links)
    requires forall n :: n in counts ==> counts[n] == CountTagged(arts, tags, links, n)
    requires forall k :: 0 <= k < |names| ==> names[k] in counts
    requires entries == Entries(names, counts)
    requires forall k :: 0 <= k < |best| ==>
      best[k] == TagCount(best[k].name, CountTagged(arts, tags, links, best[k].name))
    requires forall x :: x in entries && x !in best ==> forall k :: 0 <= k < |best| ==> CountKey(x) <= CountKey(best[k])
    requires |top| == |best| && forall k :: 0 <= k < |top| ==> top[k] == best[k].name
    ensures forall n :: n in AllNames(arts, tags, links) && n !in top ==>
      forall k :: 0 <= k < |top| ==> CountTagged(arts, tags, links, n) <= CountTagged(arts, tags, links, top[k])
  {
    forall n | n in AllNames(arts, tags, links) && n !in top
      ensures forall k :: 0 <= k < |top| ==> CountTagged(arts, tags, links, n) <= CountTagged(arts, tags, links, top[k])
    {
      var i :| 0 <= i < |names| && names[i] == n;
      var x := entries[i];
      assert x !in best;
      forall k | 0 <= k < |top| ensures CountTagged(arts, tags, links, n) <= CountTagged(arts, tags, links, top[k]) {
        assert CountKey(x) <= CountKey(best[k]);
      }
    }
  }

  /** The two bullet lines joined by a newline. */
  function Bullets(total: nat, top: seq<string>): string {
    var count := NatToString(total) + "件";
    CountHead + count + "\n" + TopicLine(top)
  }

  /** The bullets name the week's count and each of its top tags, or say that there are none. */
  lemma BulletsName(total: nat, top: seq<string>)
    ensures Contains(Bullets(total, top), NatToString(total) + "件")
    ensures forall k :: 0 <= k < |top| ==> Contains(Bullets(total, top), top[k])
    ensures |top| == 0 ==> Contains(Bullets(total, top), NoTopics)
  {
    var count := NatToString(total) + "件";
    PartsContained(CountHead, count, "\n", TopicLine(top));
    TopicLineNames(top);
    ContainsSelf(NoTopics);
  }

  /** The head of the first line. */
  const CountHead := "・この週に読了した記事数: "

  /** The head of the topics line. */
  const TopicsHead := "・よく登場したトピック: "

  /** The line shown when the week's articles have no tags. */
  const NoTopics := "・タグ付けされた記事はまだありません。"

  /** The second line: the topics, or the no-tags line. */
  function TopicLine(top: seq<string>): string {
    if |top| > 0 then TopicsHead + Join(top, ", ") else NoTopics
  }

  /** The no-tags line appears exactly without top tags, and each top tag occurs in the topics line. */
  lemma TopicLineNames(top: seq<string>)
    ensures |top| == 0 ==> TopicLine(top) == NoTopics
    ensures forall k :: 0 <= k < |top| ==> Contains(TopicLine(top), top[k])
  {
    forall k | 0 <= k < |top| ensures Contains(TopicLine(top), top[k]) {
      JoinContainsPart(top, ", ", k);
      assert TopicLine(top) == TopicsHead + Join(top, ", ") + [];
      ContainsWithin(TopicsHead, Join(top, ", "), [], top[k]);
    }
  }

  /** The generated text replaces the bullets only when it is a non-empty string. */
  function FinalSummary(bullets: string, outcome: SummaryOutcome): (r: string)
    ensures outcome.Produced? && outcome.text.Some? && outcome.text.value != [] ==> r == outcome.text.value
    ensures !(outcome.Produced? && outcome.text.Some? && outcome.text.value != []) ==> r == bullets
  {
    match outcome
    case Produced(Some(t)) => if t != [] then t else bullets
    case _ => bullets
  }

  /** The entry of week w with the given top tags. */
  function InsightOf(w: int, arts: seq<DbArticle>, top: seq<string>, now: int, summarize: string -> SummaryOutcome): Insight {
    var bullets := Bullets(|arts|, top);
    Insight(w, w, now, FinalSummary(bullets, summarize(bullets)))
  }

  /**
   * Week w's entry is keyed by the week and stamped now, and summarised by
   * the generated text when there is one, otherwise by the bullets, which
   * name the week's count and each top tag.
   */
  lemma InsightOfFacts(w: int, arts: seq<DbArticle>, top: seq<string>, now: int, summarize: string -> SummaryOutcome)
    ensures var ins := InsightOf(w, arts, top, now, summarize);
      ins.id == w && ins.weekStart == w && ins.createdAt == now
    ensures var out := summarize(Bullets(|arts|, top));
      out.Produced? && out.text.Some? && out.text.value != [] ==>
        InsightOf(w, arts, top, now, summarize).summary == out.text.value
    ensures var out := summarize(Bullets(|arts|, top));
      !(out.Produced? && out.text.Some? && out.text.value != []) ==>
        InsightOf(w, arts, top, now, summarize).summary == Bullets(|arts|, top)
  {
  }

  /** Entry ins is week w's, for one admissible choice of top tags among ties. */
  ghost predicate InsightOk(ins: Insight, w: int, rows: seq<DbArticle>, tags: map<string, TagId>, links: set<Link>,
                            now: int, summarize: string -> SummaryOutcome) {
    exists top :: TopTagsOk(top, InWeek(rows, w), tags, links) && ins == InsightOf(w, InWeek(rows, w), top, now, summarize)
  }

  lemma InsightOkIntro(ins: Insight, w: int, rows: seq<DbArticle>, tags: map<string, TagId>, links: set<Link>,
                       now: int, summarize: string -> SummaryOutcome, top: seq<string>)
    requires TopTagsOk(top, InWeek(rows, w), tags, links)
    requires ins == InsightOf(w, InWeek(rows, w), top, now, summarize)
    ensures InsightOk(ins, w, rows, tags, links, now, summarize)
  {
  }

  function WeekKey(ins: Insight): real { ins.weekStart as real }

  /** The first k weeks have an admissible choice of top tags for their group. */
  ghost predicate TopsOk(tops: seq<seq<string>>, weeks: seq<int>, k: nat,
                         groups: map<int, seq<DbArticle>>, tags: map<string, TagId>, links: set<Link>) {
    k <= |weeks| && |tops| == k
    && (forall j :: 0 <= j < k ==> weeks[j] in groups)
    && (forall j :: 0 <= j < k ==> TopTagsOk(tops[j], groups[weeks[j]], tags, links))
  }

  /** The first k weeks have their entries, built from their groups and chosen top tags. */
  ghost predicate PayloadOk(payload: seq<Insight>, tops: seq<seq<string>>, weeks: seq<int>, k: nat,
                            groups: map<int, seq<DbArticle>>, now: int, summarize: string -> SummaryOutcome) {
    k <= |weeks| && |payload| == |tops| == k
    && (forall j :: 0 <= j < k ==> weeks[j] in groups)
    && (forall j :: 0 <= j < k ==> payload[j] == InsightOf(weeks[j], groups[weeks[j]], tops[j], now, summarize))
  }

  lemma TopsSnoc(tops: seq<seq<string>>, weeks: seq<int>, k: nat,
                 groups: map<int, seq<DbArticle>>, tags: map<string, TagId>, links: set<Link>, top: seq<string>)
    requires TopsOk(tops, weeks, k, groups, tags, links)
    requires k < |weeks| && weeks[k] in groups
    requires TopTagsOk(top, groups[weeks[k]], tags, links)
    ensures TopsOk(tops + [top], weeks, k + 1, groups, tags, links)
  {
    var t := tops + [top];
    forall j | 0 <= j < k + 1 ensures TopTagsOk(t[j], groups[weeks[j]], tags, links) {
      if j < k {
        assert t[j] == tops[j];
      }
    }
  }

  lemma PayloadSnoc(payload: seq<Insight>, tops: seq<seq<string>>, weeks: seq<int>, k: nat,
                    groups: map<int, seq<DbArticle>>, now: int, summarize: string -> SummaryOutcome,
                    ins: Insight, top: seq<string>)
    requires PayloadOk(payload, tops, weeks, k, groups, now, summarize)
    requires k < |weeks| && weeks[k] in groups
    requires ins == InsightOf(weeks[k], groups[weeks[k]], top, now, summarize)
    ensures PayloadOk(payload + [ins], tops + [top], weeks, k + 1, groups, now, summarize)
  {
    var p, t := payload + [ins], tops + [top];
    forall j | 0 <= j < k + 1 ensures p[j] == InsightOf(weeks[j], groups[weeks[j]], t[j], now, summarize) {
      if j < k {
        assert p[j] == payload[j] && t[j] == tops[j];
      }
    }
  }

  /** The loop over the weeks, in the order first met; `tops` are the top tags chosen for each. */
  method WeekInsights(weeks: seq<int>, groups: map<int, seq<DbArticle>>,
                      tags: map<string, TagId>, links: set<Link>, now: int, summarize: string -> SummaryOutcome)
    returns (payload: seq<Insight>, tops: seq<seq<string>>)
    requires forall k :: 0 <= k < |weeks| ==> weeks[k] in groups
    ensures TopsOk(tops, weeks, |weeks|, groups, tags, links)
    ensures PayloadOk(payload, tops, weeks, |weeks|, groups, now, summarize)
  {
    payload, tops := [], [];
    for k := 0 to |weeks|
      invariant TopsOk(tops, weeks, k, groups, tags, links)
      invariant PayloadOk(payload, tops, weeks, k, groups, now, summarize)
    {
      var w := weeks[k];
      var arts := groups[w];
      var top := TopTags(arts, tags, links);
      var ins := InsightOf(w, arts, top, now, summarize);
      TopsSnoc(tops, weeks, k, groups, tags, links, top);
      PayloadSnoc(payload, tops, weeks, k, groups, now, summarize, ins, top);
      payload := payload + [ins];
      tops := tops + [top];
    }
  }

  /** The week starts of a list of entries. */
  function WeekStarts(ins: seq<Insight>): set<int> {
    set i | i in ins :: i.weekStart
  }

  /** Each entry of the unsorted payload is its week's, and carries its week's start. */
  lemma PayloadFacts(rows: seq<DbArticle>, weeks: seq<int>, groups: map<int, seq<DbArticle>>,
                     payload: seq<Insight>, tops: seq<seq<string>>,
                     tags: map<string, TagId>, links: set<Link>, now: int, summarize: string -> SummaryOutcome)
    requires Grouped(rows, weeks, groups)
    requires TopsOk(tops, weeks, |weeks|, groups, tags, links)
    requires PayloadOk(payload, tops, weeks, |weeks|, groups, now, summarize)
    ensures forall k :: 0 <= k < |payload| ==> payload[k].weekStart == weeks[k]
    ensures forall k :: 0 <= k < |payload| ==> InsightOk(payload[k], weeks[k], rows, tags, links, now, summarize)
  {
    forall k | 0 <= k < |payload|
      ensures payload[k].weekStart == weeks[k]
      ensures InsightOk(payload[k], weeks[k], rows, tags, links, now, summarize)
    {
      assert weeks[k] in groups;
      InsightOkIntro(payload[k], weeks[k], rows, tags, links, now, summarize, tops[k]);
    }
  }

  /** The handler. */
  method GetInsights(session: Option<UserId>, articles: seq<DbArticle>, tags: map<string, TagId>, links: set<Link>,
                     now: int, summarize: string -> SummaryOutcome)
    returns (r: InsightsResponse)
    ensures r.InsightsUnauthorized? <==> session.None?
    ensures r.Insights? ==> var rows := ReadRows(articles, session.value); rows == [] ==> r.insights == []
    ensures r.Insights? ==>
      forall i, j :: 0 <= i < j < |r.insights| ==> r.insights[i].weekStart > r.insights[j].weekStart
    ensures r.Insights? ==> WeekStarts(r.insights) == Weeks(ReadRows(articles, session.value))
    ensures r.Insights? ==>
      forall k :: 0 <= k < |r.insights| ==>
        InsightOk(r.insights[k], r.insights[k].weekStart, ReadRows(articles, session.value), tags, links, now, summarize)
  {
    if session.None? {
      return InsightsUnauthorized;
    }
    var rows := ReadRows(articles, session.value);
    if |rows| == 0 {
      assert Weeks(rows) == {};
      return Insights([]);
    }
    var weeks, groups := GroupByWeek(rows);
    var payload, tops := WeekInsights(weeks, groups, tags, links, now, summarize);
    PayloadFacts(rows, weeks, groups, payload, tops, tags, links, now, summarize);
    var sorted := SortDesc(payload, WeekKey);
    SortedDistinct(weeks, payload, sorted);
    SortedWeeks(rows, weeks, payload, sorted);
    SortedOk(rows, weeks, payload, sorted, tags, links, now, summarize);
    r := Insights(sorted);
  }

  /** Distinct weeks sorted by start come out strictly decreasing. */
  lemma SortedDistinct(weeks: seq<int>, payload: seq<Insight>, sorted: seq<Insight>)
    requires NoDups(weeks)
    requires |payload| == |weeks|
    requires forall k :: 0 <= k < |payload| ==> payload[k].weekStart == weeks[k]
    requires SortedDesc(sorted, WeekKey) && multiset(sorted) == multiset(payload)
    ensures forall i, j :: 0 <= i < j < |sorted| ==> sorted[i].weekStart > sorted[j].weekStart
  {
    assert NoDups(payload) by {
      forall i, j | 0 <= i < j < |payload| ensures payload[i] != payload[j] {
        assert weeks[i] != weeks[j];
      }
    }
    PermutationKeepsNoDups(payload, sorted);
    forall i, j | 0 <= i < j < |sorted| ensures sorted[i].weekStart > sorted[j].weekStart {
      assert WeekKey(sorted[i]) >= WeekKey(sorted[j]);
      assert sorted[i] in multiset(payload) && sorted[j] in multiset(payload);
      var p :| 0 <= p < |payload| && payload[p] == sorted[i];
      var q :| 0 <= q < |payload| && payload[q] == sorted[j];
    }
  }

  /** Sorting keeps the set of weeks, which is the set of weeks of the read articles. */
  lemma SortedWeeks(rows: seq<DbArticle>, weeks: seq<int>, payload: seq<Insight>, sorted: seq<Insight>)
    requires Elements(weeks) == Weeks(rows)
    requires |payload| == |weeks|
    requires forall k :: 0 <= k < |payload| ==> payload[k].weekStart == weeks[k]
    requires multiset(sorted) == multiset(payload)
    ensures WeekStarts(sorted) == Weeks(rows)
  {
    forall w | w in WeekStarts(sorted) ensures w in Weeks(rows) {
      var i :| i in sorted && i.weekStart == w;
      assert i in multiset(payload);
    }
    forall w | w in Weeks(rows) ensures w in WeekStarts(sorted) {
      var p :| 0 <= p < |weeks| && weeks[p] == w;
      assert payload[p] in multiset(sorted);
    }
  }

  /** Sorting keeps each entry's correctness. */
  lemma SortedOk(rows: seq<DbArticle>, weeks: seq<int>, payload: seq<Insight>, sorted: seq<Insight>,
                 tags: map<string, TagId>, links: set<Link>, now: int, summarize: string -> SummaryOutcome)
    requires |payload| == |weeks|
    requires forall k :: 0 <= k < |payload| ==> payload[k].weekStart == weeks[k]
    requires forall k :: 0 <= k < |payload| ==> InsightOk(payload[k], weeks[k], rows, tags, links, now, summarize)
    requires multiset(sorted) == multiset(payload)
    ensures forall k :: 0 <= k < |sorted| ==> InsightOk(sorted[k], sorted[k].weekStart, rows, tags, links, now, summarize)
  {
    forall k | 0 <= k < |sorted| ensures InsightOk(sorted[k], sorted[k].weekStart, rows, tags, links, now, summarize) {
      assert sorted[k] in multiset(payload);
      var p :| 0 <= p < |payload| && payload[p] == sorted[k];
    }
  }
}

=== FILE: insights_stats.dfy ===
/**
 * `GET /api/insights/stats`: reading statistics over the caller's articles:
 * counters, a Monday-to-Sunday activity chart for a chosen week, tag counts
 * and up to twelve recommended tags.
 *
 * The clock is the parameter `now`, `weekOffset` is the value `parseInt`
 * gave (None for NaN), and `decay` stands for `d => Math.exp(-d / 14)`.
 * Arithmetic on scores is exact (real numbers), not IEEE doubles.
 */
module InsightsStats {
  import opened Wrappers
  import opened Text
  import opened Lists
  import opened Database
  import opened Calendar
  import opened TagStats

  /** The caller's articles (`findMany({ where: { userId } })`). */
  function Own(articles: seq<DbArticle>, u: UserId): (r: seq<DbArticle>)
    ensures forall k :: 0 <= k < |r| ==> r[k] in articles && r[k].userId == u
    ensures forall k :: 0 <= k < |articles| && articles[k].userId == u ==> articles[k] in r
  {
    Filter(articles, (a: DbArticle) => a.userId == u)
  }

  predicate IsRead(a: DbArticle) { a.readAt.Some? }

  /** The number of read articles among s. */
  function ReadCount(s: seq<DbArticle>): (r: nat)
    ensures r <= |s|
    ensures r == |s| <==> forall k :: 0 <= k < |s| ==> IsRead(s[k])
  {
    FilterShorter(s, IsRead);
    |Filter(s, IsRead)|
  }

  /** `Math.round`: the nearest integer, halves rounded up. */
  function Round(x: real): (r: int)
    ensures (r as real) - 0.5 <= x < (r as real) + 0.5
  {
    (x + 0.5).Floor
  }

  /** `saved > 0 ? Math.round((read / saved) * 100) : 0`. */
  function ReadPercentage(read: nat, saved: nat): (r: int)
    requires read <= saved
    ensures saved == 0 ==> r == 0
    ensures 0 <= r <= 100
    ensures saved > 0 ==> (r as real) - 0.5 <= (read as real) / (saved as real) * 100.0 < (r as real) + 0.5
  {
    if saved > 0 then
      var x := (read as real) / (saved as real) * 100.0;
      assert x <= 100.0 by {
        assert (read as real) / (saved as real) <= 1.0;
      }
      Round(x)
    else 0
  }

  /** The labels of the seven days, Monday first. */
  const DayLabels: seq<string> := ["月", "火", "水", "木", "金", "土", "日"]

  /**
   * The Monday of the requested week: this week's Monday moved back
   * `7 * weekOffset` days. A NaN offset gives an invalid date (None).
   */
  function TargetWeekStart(now: int, weekOffset: Option<int>): (r: Option<int>)
    ensures r.Some? <==> weekOffset.Some?
    ensures r.Some? ==> IsWeekStart(r.value)
    ensures r.Some? ==> r.value == StartOfWeek(now) - weekOffset.value * WeekMs
  {
    if weekOffset.None? then None
    else
      var s := StartOfWeek(now) - weekOffset.value * WeekMs;
      assert s == (DayIndex(StartOfWeek(now)) - 7 * weekOffset.value) * DayMs;
      assert DayIndex(s) == DayIndex(StartOfWeek(now)) - 7 * weekOffset.value;
      Some(s)
  }

  /** The instant a bucket compares: the creation time, or the read time if any. */
  function Instant(a: DbArticle, read: bool): Option<int> {
    if read then a.readAt else Some(a.createdAt)
  }

  /** How many articles of s were created (or read) in [lo, hi). */
  function CountIn(s: seq<DbArticle>, lo: int, hi: int, read: bool): (r: nat)
    ensures r <= |s|
  {
    if s == [] then 0
    else
      var t := Instant(s[|s| - 1], read);
      CountIn(s[..|s| - 1], lo, hi, read) + (if t.Some? && lo <= t.value < hi then 1 else 0)
  }

  /** Adjacent ranges add up. */
  lemma {:induction false} CountInSplit(s: seq<DbArticle>, lo: int, mid: int, hi: int, read: bool)
    requires lo <= mid <= hi
    ensures CountIn(s, lo, mid, read) + CountIn(s, mid, hi, read) == CountIn(s, lo, hi, read)
  {
    if s != [] {
      CountInSplit(s[..|s| - 1], lo, mid, hi, read);
    }
  }

  /** One bar of the chart. */
  datatype DayActivity = DayActivity(day: string, saved: nat, read: nat)

  /**
   * The bucket of day i: articles whose time lies between that day's
   * 00:00:00.000 and 23:59:59.999; an invalid week start matches nothing.
   * Added to the count up to day i, it gives the count up to day i + 1.
   */
  function Bucket(s: seq<DbArticle>, weekStart: Option<int>, i: nat, read: bool): (n: nat)
    ensures n <= |s|
    ensures weekStart.None? ==> n == 0
    ensures weekStart.Some? ==>
      CountIn(s, weekStart.value, weekStart.value + i * DayMs, read) + n
      == CountIn(s, weekStart.value, weekStart.value + (i + 1) * DayMs, read)
  {
    if weekStart.None? then 0
    else
      var w := weekStart.value;
      assert w <= w + i * DayMs <= w + (i + 1) * DayMs;
      CountInSplit(s, w, w + i * DayMs, w + (i + 1) * DayMs, read);
      CountIn(s, w + i * DayMs, w + (i + 1) * DayMs, read)
  }

  /** The bar of day i. */
  function Bar(s: seq<DbArticle>, weekStart: Option<int>, i: nat): (r: DayActivity)
    requires i < 7
    ensures r.day == DayLabels[i]
    ensures r.saved == Bucket(s, weekStart, i, false) && r.read == Bucket(s, weekStart, i, true)
  {
    DayActivity(DayLabels[i], Bucket(s, weekStart, i, false), Bucket(s, weekStart, i, true))
  }

  /** The sum of the saved counts of some bars. */
  function SavedSum(days: seq<DayActivity>): nat {
    if days == [] then 0 else SavedSum(days[..|days| - 1]) + days[|days| - 1].saved
  }

  /** The chart loop: seven bars, Monday to Sunday, from the week start on. */
  method WeeklyActivity(s: seq<DbArticle>, weekStart: Option<int>) returns (days: seq<DayActivity>)
    ensures |days| == 7
    ensures forall i :: 0 <= i < 7 ==> days[i] == Bar(s, weekStart, i)
    ensures weekStart.Some? ==> SavedSum(days) == CountIn(s, weekStart.value, weekStart.value + WeekMs, false)
    ensures ChartOk(days, s, weekStart)
  {
    days := [];
    if weekStart.Some? {
      CountInSplit(s, weekStart.value, weekStart.value, weekStart.value, false);
    }
    for i := 0 to 7
      invariant |days| == i
      invariant forall k :: 0 <= k < i ==> days[k] == Bar(s, weekStart, k)
      invariant weekStart.Some? ==> SavedSum(days) == CountIn(s, weekStart.value, weekStart.value + i * DayMs, false)
      invariant weekStart.None? ==> SavedSum(days) == 0
    {
      var bar := Bar(s, weekStart, i);
      SavedSumSnoc(days, bar);
      assert weekStart.Some? ==>
        SavedSum(days) + bar.saved == CountIn(s, weekStart.value, weekStart.value + (i + 1) * DayMs, false);
      days := days + [bar];
    }
  }

  lemma SavedSumSnoc(days: seq<DayActivity>, bar: DayActivity)
    ensures SavedSum(days + [bar]) == SavedSum(days) + bar.saved
  {
    assert (days + [bar])[..|days|] == days;
  }

  /** What the recommendation loop adds up for one tag. */
  datatype Tally = Tally(total: nat, read: nat, recency: real)

  /** `Math.max(0, (nowMs - baseDate) / day)` days since the article was read (or saved). */
  function DaysAgo(a: DbArticle, now: int): (r: real)
    ensures r >= 0.0
  {
    var base := if a.readAt.Some? then a.readAt.value else a.createdAt;
    var d := (now - base) as real / DayMs as real;
    if d > 0.0 then d else 0.0
  }

  /** The number of read articles of s carrying the tag named n. */
  function ReadTagged(s: seq<DbArticle>, tags: map<string, TagId>, links: set<Link>, n: string): (r: nat)
    ensures r <= CountTagged(s, tags, links, n)
  {
    if s == [] then 0
    else
      var a := s[|s| - 1];
      ReadTagged(s[..|s| - 1], tags, links, n) + (if n in LinkedNames(tags, links, a.id) && IsRead(a) then 1 else 0)
  }

  /** The summed recency weights of the articles of s carrying the tag named n. */
  function RecencySum(s: seq<DbArticle>, tags: map<string, TagId>, links: set<Link>, n: string,
                      now: int, decay: real -> real): real
  {
    if s == [] then 0.0
    else
      var a := s[|s| - 1];
      RecencySum(s[..|s| - 1], tags, links, n, now, decay)
        + (if n in LinkedNames(tags, links, a.id) then decay(DaysAgo(a, now)) else 0.0)
  }

  /** The tally the loop reaches for n over s. */
  function TallyOf(s: seq<DbArticle>, tags: map<string, TagId>, links: set<Link>, n: string,
                   now: int, decay: real -> real): Tally {
    Tally(CountTagged(s, tags, links, n), ReadTagged(s, tags, links, n), RecencySum(s, tags, links, n, now, decay))
  }

  /** The recommendation loop: per tag, its article count, read count and summed recency. */
  method TallyTags(s: seq<DbArticle>, tags: map<string, TagId>, links: set<Link>, now: int, decay: real -> real)
    returns (names: seq<string>, tallies: map<string, Tally>)
    ensures NoDups(names)
    ensures Elements(names) == tallies.Keys == AllNames(s, tags, links)
    ensures forall n :: n in tallies ==> tallies[n] == TallyOf(s, tags, links, n, now, decay)
  {
    names, tallies := [], map[];
    for i := 0 to |s|
      invariant NoDups(names)
      invariant Elements(names) == tallies.Keys == AllNames(s[..i], tags, links)
      invariant forall n :: n in tallies ==> tallies[n] == TallyOf(s[..i], tags, links, n, now, decay)
    {
      TallySnoc(s, i, tags, links, now, decay);
      var here := LinkedNames(tags, links, s[i].id);
      if here == {} {
        continue;
      }
      forall n | n in here && n !in tallies ensures TallyOf(s[..i], tags, links, n, now, decay) == Tally(0, 0, 0.0) {
        ZeroTally(s[..i], tags, links, n, now, decay);
      }
      names, tallies := TallyArticle(here, IsRead(s[i]), decay(DaysAgo(s[i], now)), names, tallies);
    }
    assert s[..|s|] == s;
  }

  /** The tally of n after one more article. */
  function Step(t: Tally, a: DbArticle, tags: map<string, TagId>, links: set<Link>, n: string,
                now: int, decay: real -> real): Tally {
    if n in LinkedNames(tags, links, a.id) then Bump(t, IsRead(a), decay(DaysAgo(a, now))) else t
  }

  lemma TallySnoc(s: seq<DbArticle>, i: nat, tags: map<string, TagId>, links: set<Link>, now: int, decay: real -> real)
    requires i < |s|
    ensures forall n ::
      TallyOf(s[..i + 1], tags, links, n, now, decay)
        == Step(TallyOf(s[..i], tags, links, n, now, decay), s[i], tags, links, n, now, decay)
    ensures AllNames(s[..i + 1], tags, links) == AllNames(s[..i], tags, links) + LinkedNames(tags, links, s[i].id)
  {
    assert s[..i + 1][..i] == s[..i];
  }

  /** A tag's tally so far, zero for a tag not met yet (`tagScore.get(name) ?? { 0, 0, 0 }`). */
  function Prior(tallies: map<string, Tally>, n: string): Tally {
    if n in tallies then tallies[n] else Tally(0, 0, 0.0)
  }

  /** One article counted into a tally. */
  function Bump(t: Tally, read: bool, rec: real): Tally {
    Tally(t.total + 1, t.read + (if read then 1 else 0), t.recency + rec)
  }

  /** The inner loop: the names of one article's tags counted into the tallies. */
  method TallyArticle(here: set<string>, read: bool, rec: real, names0: seq<string>, tallies0: map<string, Tally>)
    returns (names: seq<string>, tallies: map<string, Tally>)
    requires NoDups(names0) && Elements(names0) == tallies0.Keys
    ensures NoDups(names)
    ensures Elements(names) == tallies.Keys == tallies0.Keys + here
    ensures forall n :: n in tallies ==>
      tallies[n] == if n in here then Bump(Prior(tallies0, n), read, rec) else tallies0[n]
  {
    names, tallies := names0, tallies0;
    var cur := Enumerate(here);
    for j := 0 to |cur|
      invariant NoDups(names)
      invariant Elements(names) == tallies.Keys == tallies0.Keys + Elements(cur[..j])
      invariant forall n :: n in tallies ==>
        tallies[n] == if n in cur[..j] then Bump(Prior(tallies0, n), read, rec) else tallies0[n]
    {
      var name := cur[j];
      assert name !in cur[..j];
      assert cur[..j + 1] == cur[..j] + [name];
      if name !in tallies {
        names := names + [name];
      }
      tallies := tallies[name := Bump(Prior(tallies, name), read, rec)];
    }
    assert cur[..|cur|] == cur;
  }

  /** A tag no article carries has an all-zero tally. */
  lemma {:induction false} ZeroTally(s: seq<DbArticle>, tags: map<string, TagId>, links: set<Link>, n: string,
                                     now: int, decay: real -> real)
    requires n !in AllNames(s, tags, links)
    ensures TallyOf(s, tags, links, n, now, decay) == Tally(0, 0, 0.0)
  {
    CountPositive(s, tags, links, n);
    if s != [] {
      ZeroTally(s[..|s| - 1], tags, links, n, now, decay);
    }
  }

  /** One recommended tag. */
  datatype Recommendation = Recommendation(name: string, score: real, count: nat, readCount: nat, reason: string)

  /** `Math.round(x * 100) / 100`. */
  function Round2(x: real): (r: real)
    ensures r - 0.005 <= x < r + 0.005
  {
    Round(x * 100.0) as real / 100.0
  }

  /**
   * The reasons attached to a tag, in the order the handler pushes them:
   * "many read articles" when at least 2 and at least half of the tag's
   * articles are read; "seen recently" when the recency sum reaches 1.5;
   * "frequent" alone when neither holds and the tag has 2 articles or more.
   */
  function Reasons(t: Tally): (r: seq<string>)
    ensures "読了記事で多い" in r <==> t.read >= 2 && 2 * t.read >= t.total
    ensures "最近よく見ている" in r <==> t.recency >= 1.5
    ensures "頻出" in r <==> r == ["頻出"]
    ensures r == ["頻出"] <==> !(t.read >= 2 && 2 * t.read >= t.total) && t.recency < 1.5 && t.total >= 2
  {
    var ceilHalf := (t.total + 1) / 2;
    var often := if t.read >= (if 2 >= ceilHalf then 2 else ceilHalf) then ["読了記事で多い"] else [];
    var recent := if t.recency >= 1.5 then ["最近よく見ている"] else [];
    var r := often + recent;
    if r == [] && t.total >= 2 then ["頻出"] else r
  }

  /** The entry of one tag: score `total + 2 read + 3 recency`, rounded to hundredths. */
  function Recommend(name: string, t: Tally): (r: Recommendation)
    ensures r.name == name && r.count == t.total && r.readCount == t.read
    ensures r.score - 0.005 <= (t.total as real) + 2.0 * (t.read as real) + 3.0 * t.recency < r.score + 0.005
  {
    Recommendation(name, Round2((t.total as real) + 2.0 * (t.read as real) + 3.0 * t.recency),
                   t.total, t.read, Join(Reasons(t), " / "))
  }

  function ScoreKey(r: Recommendation): real { r.score }

  /** Every tag's entry, in map order. */
  function Candidates(names: seq<string>, tallies: map<string, Tally>): (r: seq<Recommendation>)
    requires forall k :: 0 <= k < |names| ==> names[k] in tallies
    ensures |r| == |names|
    ensures forall k :: 0 <= k < |r| ==> r[k] == Recommend(names[k], tallies[names[k]])
  {
    seq(|names|, k requires 0 <= k < |names| => Recommend(names[k], tallies[names[k]]))
  }

  lemma LeftOutScoreLower(names: seq<string>, tallies: map<string, Tally>, all: seq<Recommendation>,
                          r: seq<Recommendation>)
    requires forall k :: 0 <= k < |names| ==> names[k] in tallies
    requires all == Candidates(names, tallies)
    requires forall x :: x in all && x !in r ==> forall k :: 0 <= k < |r| ==> ScoreKey(x) <= ScoreKey(r[k])
    ensures forall n :: n in names && (forall k :: 0 <= k < |r| ==> r[k].name != n) ==>
      forall k :: 0 <= k < |r| ==> Recommend(n, tallies[n]).score <= r[k].score
  {
    forall n | n in names && (forall k :: 0 <= k < |r| ==> r[k].name != n)
      ensures forall k :: 0 <= k < |r| ==> Recommend(n, tallies[n]).score <= r[k].score
    {
      var i :| 0 <= i < |names| && names[i] == n;
      var x := all[i];
      assert x in all && x.name == n;
      assert x !in r;
      forall k | 0 <= k < |r| ensures x.score <= r[k].score {
        assert ScoreKey(x) <= ScoreKey(r[k]);
      }
    }
  }

  /** The twelve best-scoring tags, or all of them when fewer, best first. */
  function Recommended(names: seq<string>, tallies: map<string, Tally>): (r: seq<Recommendation>)
    requires forall k :: 0 <= k < |names| ==> names[k] in tallies
    ensures |r| == Min(12, |names|)
    ensures SortedDesc(r, ScoreKey)
  {
    TopDesc(Candidates(names, tallies), ScoreKey, 12)
  }

  /** Each recommendation is a tag's entry, scored from its tally. */
  lemma RecommendedKept(names: seq<string>, tallies: map<string, Tally>)
    requires forall k :: 0 <= k < |names| ==> names[k] in tallies
    requires forall n :: n in tallies ==> tallies[n].read <= tallies[n].total
    ensures var r := Recommended(names, tallies);
      forall k :: 0 <= k < |r| ==>
        r[k].name in tallies && r[k] == Recommend(r[k].name, tallies[r[k].name]) && r[k].readCount <= r[k].count
  {
    var all := Candidates(names, tallies);
    KeptAreCandidates(names, tallies, all, TopDesc(all, ScoreKey, 12));
  }

  /** No tag left out of the recommendations scores higher than one kept. */
  lemma RecommendedLeftOut(names: seq<string>, tallies: map<string, Tally>)
    requires forall k :: 0 <= k < |names| ==> names[k] in tallies
    ensures var r := Recommended(names, tallies);
      forall n :: n in names && (forall k :: 0 <= k < |r| ==> r[k].name != n) ==>
        forall k :: 0 <= k < |r| ==> Recommend(n, tallies[n]).score <= r[k].score
  {
    var all := Candidates(names, tallies);
    LeftOutScoreLower(names, tallies, all, TopDesc(all, ScoreKey, 12));
  }

  /** Distinct tag names give recommendations with distinct names. */
  lemma RecommendedDistinct(names: seq<string>, tallies: map<string, Tally>)
    requires forall k :: 0 <= k < |names| ==> names[k] in tallies
    ensures NoDups(names) ==> UniqueBy(Recommended(names, tallies), RecName)
  {
    var all := Candidates(names, tallies);
    SelectionKeepsKeysUnique(names, all, TopDesc(all, ScoreKey, 12), RecName);
  }

  function RecName(r: Recommendation): string { r.name }

  lemma KeptAreCandidates(names: seq<string>, tallies: map<string, Tally>, all: seq<Recommendation>,
                          r: seq<Recommendation>)
    requires forall k :: 0 <= k < |names| ==> names[k] in tallies
    requires forall n :: n in tallies ==> tallies[n].read <= tallies[n].total
    requires all == Candidates(names, tallies)
    requires forall k :: 0 <= k < |r| ==> r[k] in all
    ensures forall k :: 0 <= k < |r| ==>
      r[k].name in tallies && r[k] == Recommend(r[k].name, tallies[r[k].name]) && r[k].readCount <= r[k].count
  {
    forall k | 0 <= k < |r|
      ensures r[k].name in tallies && r[k] == Recommend(r[k].name, tallies[r[k].name])
      ensures r[k].readCount <= r[k].count
    {
      assert r[k] in all;
      var i :| 0 <= i < |all| && all[i] == r[k];
      assert r[k] == Recommend(names[i], tallies[names[i]]);
    }
  }

  datatype StatsResponse =
    | StatsUnauthorized
    | Stats(saved: nat, read: nat, readPercentage: int, weeklyActivity: seq<DayActivity>,
            tags: seq<TagCount>, recommendedTags: seq<Recommendation>)

  /** `saved`, `read` and `readPercentage` over the caller's articles. */
  predicate CountersOk(saved: nat, read: nat, percentage: int, own: seq<DbArticle>) {
    saved == |own| && read == ReadCount(own) <= saved && percentage == ReadPercentage(read, saved)
  }

  /** Seven bars, Monday to Sunday, each counting that day's saves and reads. */
  predicate ChartOk(days: seq<DayActivity>, own: seq<DbArticle>, weekStart: Option<int>) {
    |days| == 7
    && (forall i :: 0 <= i < 7 ==> days[i].day == DayLabels[i])
    && (forall i :: 0 <= i < 7 ==>
          days[i].saved == Bucket(own, weekStart, i, false) && days[i].read == Bucket(own, weekStart, i, true))
    && SavedSum(days) <= |own|
  }

  /** One entry per distinct tag name, with its article count, most frequent first. */
  ghost predicate TagsOk(ranking: seq<TagCount>, own: seq<DbArticle>, tags: map<string, TagId>, links: set<Link>) {
    SortedDesc(ranking, CountKey)
    && (forall k :: 0 <= k < |ranking| ==> ranking[k].count == CountTagged(own, tags, links, ranking[k].name) > 0)
    && (forall n :: n in AllNames(own, tags, links) <==> exists k :: 0 <= k < |ranking| && ranking[k].name == n)
    && (forall i, j :: 0 <= i < j < |ranking| ==> ranking[i].name != ranking[j].name)
  }

  /**
   * Twelve distinct tags, or all of them when fewer, best score first, each
   * scored from its tally; no tag left out scores higher.
   */
  ghost predicate RecommendedOk(rec: seq<Recommendation>, own: seq<DbArticle>, tags: map<string, TagId>,
                                links: set<Link>, now: int, decay: real -> real) {
    RecommendedShapeOk(rec, AllNames(own, tags, links))
    && SortedDesc(rec, ScoreKey)
    && RecommendedScoredOk(rec, own, tags, links, now, decay)
    && RecommendedLeftOutOk(rec, own, tags, links, now, decay)
  }

  /** Twelve of the names, or all of them when fewer, each recommended once. */
  ghost predicate RecommendedShapeOk(rec: seq<Recommendation>, names: set<string>) {
    |rec| == Min(12, |names|)
    && (forall i, j :: 0 <= i < j < |rec| ==> rec[i].name != rec[j].name)
  }

  /** Each recommendation is a tag of the caller's, scored from its tally. */
  ghost predicate RecommendedScoredOk(rec: seq<Recommendation>, own: seq<DbArticle>, tags: map<string, TagId>,
                                      links: set<Link>, now: int, decay: real -> real) {
    forall k :: 0 <= k < |rec| ==>
      rec[k].name in AllNames(own, tags, links)
      && rec[k] == Recommend(rec[k].name, TallyOf(own, tags, links, rec[k].name, now, decay))
      && rec[k].readCount <= rec[k].count
  }

  /** No tag left out scores higher than one kept. */
  ghost predicate RecommendedLeftOutOk(rec: seq<Recommendation>, own: seq<DbArticle>, tags: map<string, TagId>,
                                       links: set<Link>, now: int, decay: real -> real) {
    forall n :: n in AllNames(own, tags, links) && (forall k :: 0 <= k < |rec| ==> rec[k].name != n) ==>
      forall k :: 0 <= k < |rec| ==> Recommend(n, TallyOf(own, tags, links, n, now, decay)).score <= rec[k].score
  }

  /** The handler. */
  method GetStats(session: Option<UserId>, articles: seq<DbArticle>, tags: map<string, TagId>, links: set<Link>,
                  weekOffset: Option<int>, now: int, decay: real -> real)
    returns (r: StatsResponse)
    ensures r.StatsUnauthorized? <==> session.None?
    ensures r.Stats? ==>
      var own := Own(articles, session.value);
      && CountersOk(r.saved, r.read, r.readPercentage, own)
      && ChartOk(r.weeklyActivity, own, TargetWeekStart(now, weekOffset))
      && TagsOk(r.tags, own, tags, links)
      && RecommendedOk(r.recommendedTags, own, tags, links, now, decay)
  {
    if session.None? {
      return StatsUnauthorized;
    }
    var own := Own(articles, session.value);
    var saved := |own|;
    var read := ReadCount(own);
    var percentage := ReadPercentage(read, saved);
    var days := WeeklyActivity(own, TargetWeekStart(now, weekOffset));
    var ranking := TagRanking(own, tags, links);
    var recommended := RecommendedTags(own, tags, links, now, decay);
    r := Stats(saved, read, percentage, days, ranking, recommended);
  }

  /** The tag-count loop followed by the sort. */
  method TagRanking(own: seq<DbArticle>, tags: map<string, TagId>, links: set<Link>) returns (ranking: seq<TagCount>)
    ensures TagsOk(ranking, own, tags, links)
  {
    var names, counts := CountTags(own, tags, links);
    ranking := RankTags(names, counts);
  }

  /** The recommendation loop followed by scoring, sorting and the cut at twelve. */
  method RecommendedTags(own: seq<DbArticle>, tags: map<string, TagId>, links: set<Link>, now: int, decay: real -> real)
    returns (rec: seq<Recommendation>)
    ensures RecommendedOk(rec, own, tags, links, now, decay)
  {
    var names, tallies := TallyTags(own, tags, links, now, decay);
    ReadWithinTotal(own, tags, links, now, decay, tallies);
    rec := Recommended(names, tallies);
    RecommendedKept(names, tallies);
    RecommendedLeftOut(names, tallies);
    RecommendedDistinct(names, tallies);
    KeptScored(own, tags, links, now, decay, names, tallies, rec);
    LeftOutScored(own, tags, links, now, decay, names, tallies, rec);
    RecommendedCount(names, AllNames(own, tags, links), rec);
  }

  lemma ReadWithinTotal(own: seq<DbArticle>, tags: map<string, TagId>, links: set<Link>, now: int, decay: real -> real,
                        tallies: map<string, Tally>)
    requires forall n :: n in tallies ==> tallies[n] == TallyOf(own, tags, links, n, now, decay)
    ensures forall n :: n in tallies ==> tallies[n].read <= tallies[n].total
  {
  }

  /** Twelve of the distinct names, or all of them, one recommendation each. */
  lemma RecommendedCount(names: seq<string>, all: set<string>, rec: seq<Recommendation>)
    requires NoDups(names) && Elements(names) == all
    requires |rec| == Min(12, |names|) && UniqueBy(rec, RecName)
    ensures RecommendedShapeOk(rec, all)
  {
    DistinctCard(names);
    forall i, j | 0 <= i < j < |rec| ensures rec[i].name != rec[j].name {
      assert RecName(rec[i]) != RecName(rec[j]);
    }
  }

  lemma KeptScored(own: seq<DbArticle>, tags: map<string, TagId>, links: set<Link>, now: int, decay: real -> real,
                   names: seq<string>, tallies: map<string, Tally>, rec: seq<Recommendation>)
    requires tallies.Keys == AllNames(own, tags, links)
    requires forall n :: n in tallies ==> tallies[n] == TallyOf(own, tags, links, n, now, decay)
    requires forall k :: 0 <= k < |rec| ==>
      rec[k].name in tallies && rec[k] == Recommend(rec[k].name, tallies[rec[k].name]) && rec[k].readCount <= rec[k].count
    ensures RecommendedScoredOk(rec, own, tags, links, now, decay)
  {
  }

  lemma LeftOutScored(own: seq<DbArticle>, tags: map<string, TagId>, links: set<Link>, now: int, decay: real -> real,
                      names: seq<string>, tallies: map<string, Tally>, rec: seq<Recommendation>)
    requires Elements(names) == tallies.Keys == AllNames(own, tags, links)
    requires forall n :: n in tallies ==> tallies[n] == TallyOf(own, tags, links, n, now, decay)
    requires forall n :: n in names && (forall k :: 0 <= k < |rec| ==> rec[k].name != n) ==>
      forall k :: 0 <= k < |rec| ==> Recommend(n, tallies[n]).score <= rec[k].score
    ensures RecommendedLeftOutOk(rec, own, tags, links, now, decay)
  {
    forall n | n in AllNames(own, tags, links) && (forall k :: 0 <= k < |rec| ==> rec[k].name != n)
      ensures forall k :: 0 <= k < |rec| ==> Recommend(n, TallyOf(own, tags, links, n, now, decay)).score <= rec[k].score
    {
      assert n in names;
    }
  }

  /** `Array.from(tagCount.entries()).sort((a, b) => b[1] - a[1])`. */
  function RankTags(names: seq<string>, counts: map<string, nat>): (r: seq<TagCount>)
    requires NoDups(names) && Elements(names) == counts.Keys
    ensures SortedDesc(r, CountKey)
    ensures forall k :: 0 <= k < |r| ==> r[k].name in counts && r[k].count == counts[r[k].name]
    ensures forall n :: n in counts <==> exists k :: 0 <= k < |r| && r[k].name == n
    ensures forall i, j :: 0 <= i < j < |r| ==> r[i].name != r[j].name
  {
    var entries := Entries(names, counts);
    var r := SortDesc(entries, CountKey);
    forall k | 0 <= k < |r| ensures r[k] in entries {
      assert r[k] in multiset(entries);
    }
    forall n | n in counts ensures exists k :: 0 <= k < |r| && r[k].name == n {
      var i :| 0 <= i < |names| && names[i] == n;
      assert entries[i] in multiset(r);
    }
    forall i, j | 0 <= i < j < |r| ensures r[i].name != r[j].name {
      EntriesDistinct(names, counts, r, i, j);
    }
    r
  }

  /** Two positions of a permutation of the entries hold different names. */
  lemma EntriesDistinct(names: seq<string>, counts: map<string, nat>, r: seq<TagCount>, i: int, j: int)
    requires NoDups(names) && Elements(names) == counts.Keys
    requires multiset(r) == multiset(Entries(names, counts))
    requires 0 <= i < j < |r|
    ensures r[i].name != r[j].name
  {
    var entries := Entries(names, counts);
    assert NoDups(entries) by {
      forall p, q | 0 <= p < q < |entries| ensures entries[p] != entries[q] {
        assert names[p] != names[q];
      }
    }
    PermutationKeepsNoDups(entries, r);
    assert r[i] in multiset(entries) && r[j] in multiset(entries);
  }
}

=== FILE: invite.dfy ===
/**
 * The invite gate (src/lib/invite.ts): whether sign-up needs an invite,
 * whether an invite code is accepted, and the signed cookie that remembers
 * an accepted code.
 *
 * The process environment is the value `InviteEnv`; the clock is a number
 * of milliseconds passed in; HMAC-SHA256 with a hex digest (RFC 2104) is the
 * parameter `hmac(key, message)`. `Number` is modelled on decimal-digit
 * text, and its answer on any other syntax (NaN, an infinity or another
 * finite value) is the parameter `other`; the rendering of a number that is
 * not a whole number is the parameter `show`.
 */
module Invite {
  import opened Wrappers
  import opened Text
  import opened Lists

  /** The environment variables the gate reads; `None` is an unset variable. */
  datatype InviteEnv = InviteEnv(
    inviteRequired: Option<string>,
    inviteCode: Option<string>,
    inviteCodes: Option<string>,
    cookieSecret: Option<string>,
    authSecret: Option<string>,
    nextAuthSecret: Option<string>,
    cookieMaxAge: Option<string>)

  /** An unset variable, or one set to the empty string: what `||` and `!` treat as false. */
  predicate Unset(v: Option<string>) {
    v.None? || v.value == []
  }

  /** The values `truthyEnv` accepts once lower-cased and trimmed. */
  predicate TruthyWord(s: string) {
    s == "1" || s == "true" || s == "yes" || s == "on"
  }

  /** `truthyEnv`: an unset variable is the empty string, which is not truthy. */
  predicate TruthyEnv(v: Option<string>) {
    TruthyWord(Trim(ToLower(v.GetOr([]))))
  }

  /** A truthy word in any letter case, with white space around it, is truthy. */
  lemma TruthyPadded(pre: string, w: string, post: string)
    requires forall i :: 0 <= i < |pre| ==> IsSpace(pre[i])
    requires forall i :: 0 <= i < |post| ==> IsSpace(post[i])
    requires TruthyWord(ToLower(w))
    ensures TruthyEnv(Some(pre + w + post))
  {
    var lw := ToLower(w);
    ToLowerAppend(pre + w, post);
    ToLowerAppend(pre, w);
    assert ToLower(pre) == pre;
    assert ToLower(post) == post;
    assert lw != [] && !IsSpace(lw[0]) && !IsSpace(lw[|lw| - 1]);
    TrimPadded(pre, lw, post);
  }

  /** An unset or empty variable is not truthy. */
  lemma UnsetNotTruthy(v: Option<string>)
    requires Unset(v)
    ensures !TruthyEnv(v)
  {
    var t := Trim(ToLower(v.GetOr([])));
    assert v.GetOr([]) == [];
    assert |t| == 0;
  }

  /**
   * `isInviteRequired`: `INVITE_REQUIRED` is truthy. Unset or empty, it is
   * not; `1`, `true`, `yes` or `on` in any letter case, it is.
   */
  predicate IsInviteRequired(env: InviteEnv): (required: bool)
    ensures Unset(env.inviteRequired) ==> !required
    ensures env.inviteRequired.Some? && TruthyWord(ToLower(env.inviteRequired.value)) ==> required
  {
    var required := TruthyEnv(env.inviteRequired);
    assert Unset(env.inviteRequired) ==> !required by {
      if Unset(env.inviteRequired) {
        UnsetNotTruthy(env.inviteRequired);
      }
    }
    assert env.inviteRequired.Some? && TruthyWord(ToLower(env.inviteRequired.value)) ==> required by {
      if env.inviteRequired.Some? && TruthyWord(ToLower(env.inviteRequired.value)) {
        var w := env.inviteRequired.value;
        assert [] + w + [] == w;
        TruthyPadded([], w, []);
      }
    }
    required
  }

  /** The character class `[,\\n]` of `parseInviteCodes`: a comma, a backslash and the letter n. */
  const CodeSeparators: set<char> := {',', '\\', 'n'}

  /**
   * `parseInviteCodes`: split on the separator class, trim each part and drop
   * the empty ones; an unset or empty variable has no codes.
   */
  function ParseInviteCodes(raw: Option<string>): (r: seq<string>)
    ensures forall k :: 0 <= k < |r| ==> r[k] != [] && Trim(r[k]) == r[k] && NoneIn(r[k], CodeSeparators)
    ensures raw.None? || raw.value == [] ==> r == []
  {
    if raw.None? || raw.value == [] then []
    else
      var parts := SplitOn(raw.value, CodeSeparators);
      var trimmed := TrimAll(parts);
      ParseFacts(parts, trimmed);
      Filter(trimmed, NonEmpty)
  }

  lemma ParseFacts(parts: seq<string>, trimmed: seq<string>)
    requires forall k :: 0 <= k < |parts| ==> NoneIn(parts[k], CodeSeparators)
    requires trimmed == TrimAll(parts)
    ensures forall k :: 0 <= k < |trimmed| ==> Trim(trimmed[k]) == trimmed[k] && NoneIn(trimmed[k], CodeSeparators)
  {
    forall k | 0 <= k < |trimmed| ensures Trim(trimmed[k]) == trimmed[k] && NoneIn(trimmed[k], CodeSeparators) {
      TrimTwice(parts[k]);
      TrimWithin(parts[k], CodeSeparators);
    }
  }

  /**
   * A list of trimmed, non-empty codes without a separator character, written
   * comma-separated into `INVITE_CODES`, is read back as the same list.
   */
  lemma CodesRoundTrip(codes: seq<string>)
    requires |codes| >= 1
    requires forall k :: 0 <= k < |codes| ==> codes[k] != [] && Trim(codes[k]) == codes[k] && NoneIn(codes[k], CodeSeparators)
    ensures ParseInviteCodes(Some(Join(codes, ","))) == codes
  {
    var raw := Join(codes, ",");
    SplitJoin(codes, ',', CodeSeparators);
    JoinNonEmpty(codes, ",");
    TrimmedCodes(codes);
    FilterAll(codes, NonEmpty);
  }

  lemma TrimmedCodes(codes: seq<string>)
    requires forall k :: 0 <= k < |codes| ==> codes[k] != [] && Trim(codes[k]) == codes[k]
    ensures TrimAll(codes) == codes
    ensures forall k :: 0 <= k < |codes| ==> NonEmpty(codes[k])
  {
  }

  /** A joined list whose first part is not empty is not empty. */
  lemma JoinNonEmpty(parts: seq<string>, sep: string)
    requires |parts| >= 1 && parts[0] != []
    ensures Join(parts, sep) != []
  {
    JoinContainsPart(parts, sep, 0);
    var i :| 0 <= i <= |Join(parts, sep)| - |parts[0]| && OccursAt(Join(parts, sep), parts[0], i);
  }

  /**
   * `isInviteCodeValid`: anything goes when invites are not required;
   * otherwise a blank code is refused, a code equal to the non-empty trimmed
   * `INVITE_CODE` is accepted, and otherwise the code must be in the
   * `INVITE_CODES` list, an empty list refusing every code.
   */
  function IsInviteCodeValid(env: InviteEnv, codeRaw: string): (r: bool)
    ensures !IsInviteRequired(env) ==> r
    ensures IsInviteRequired(env) && Trim(codeRaw) == [] ==> !r
    ensures IsInviteRequired(env) && Trim(codeRaw) != [] && Trim(codeRaw) == Trim(env.inviteCode.GetOr([])) ==> r
    ensures IsInviteRequired(env) && Trim(codeRaw) != Trim(env.inviteCode.GetOr([])) ==>
      (r <==> Trim(codeRaw) != [] && Trim(codeRaw) in ParseInviteCodes(env.inviteCodes))
    ensures IsInviteRequired(env) && Trim(codeRaw) != Trim(env.inviteCode.GetOr([])) ==>
      ParseInviteCodes(env.inviteCodes) == [] ==> !r
  {
    if !IsInviteRequired(env) then true
    else
      var code := Trim(codeRaw);
      if code == [] then false
      else
        var single := Trim(env.inviteCode.GetOr([]));
        if single != [] && code == single then true
        else
          var codes := ParseInviteCodes(env.inviteCodes);
          if |codes| == 0 then false
          else code in codes
  }

  /** The secret used when none of the three secret variables is set. */
  const DevSecret := "dev-secret-change-me"

  /** `getCookieSecret`: the first non-empty of the three variables, else the development secret. */
  function CookieSecret(env: InviteEnv): (r: string)
    ensures r != []
    ensures !Unset(env.cookieSecret) ==> r == env.cookieSecret.value
    ensures Unset(env.cookieSecret) && !Unset(env.authSecret) ==> r == env.authSecret.value
    ensures Unset(env.cookieSecret) && Unset(env.authSecret) && !Unset(env.nextAuthSecret) ==> r == env.nextAuthSecret.value
    ensures Unset(env.cookieSecret) && Unset(env.authSecret) && Unset(env.nextAuthSecret) ==> r == DevSecret
  {
    if !Unset(env.cookieSecret) then env.cookieSecret.value
    else if !Unset(env.authSecret) then env.authSecret.value
    else if !Unset(env.nextAuthSecret) then env.nextAuthSecret.value
    else DevSecret
  }

  /** `Math.floor(ms / 1000)`: Dafny's division by a positive number rounds down as well. */
  function Seconds(ms: int): (s: int)
    ensures s * 1000 <= ms < s * 1000 + 1000
  {
    ms / 1000
  }

  /** The signed part of a cookie: `v1.<seconds>`. */
  function Payload(ts: int): string {
    "v1." + IntToString(ts)
  }

  /**
   * `createInviteCookieValue`: the payload, a dot, and the payload's
   * signature. When the signature is a hex digest, the value splits on its
   * dots into `v1`, the whole seconds and the signature.
   */
  function CreateInviteCookieValue(env: InviteEnv, nowMs: int, hmac: (string, string) -> string): (r: string)
    ensures |r| > 3 && r[..3] == "v1."
    ensures nowMs >= 1000 && AllHexDigits(hmac(CookieSecret(env), Payload(Seconds(nowMs)))) ==>
      SplitOn(r, {'.'}) == ["v1", NatToString(Seconds(nowMs)), hmac(CookieSecret(env), Payload(Seconds(nowMs)))]
  {
    var payload := Payload(Seconds(nowMs));
    var r := payload + "." + hmac(CookieSecret(env), payload);
    assert r[..3] == payload[..3];
    assert nowMs >= 1000 && AllHexDigits(hmac(CookieSecret(env), payload)) ==>
      SplitOn(r, {'.'}) == ["v1", NatToString(Seconds(nowMs)), hmac(CookieSecret(env), payload)] by {
      if nowMs >= 1000 && AllHexDigits(hmac(CookieSecret(env), payload)) {
        CookieParts(Seconds(nowMs), hmac(CookieSecret(env), payload));
      }
    }
    r
  }

  /** A JavaScript number: a finite value, or one of the three values that are not finite. */
  datatype JsNumber = NaN | Finite(value: real) | PosInf | NegInf

  /**
   * `Number(s)`: white space around the text is ignored, blank text is 0 and
   * decimal digits are read in base 10, exactly (a double agrees below 2^53);
   * any other syntax is `other`'s answer.
   */
  function ToNumber(s: string, other: string -> JsNumber): (r: JsNumber)
    ensures Trim(s) == [] ==> r == Finite(0.0)
    ensures Trim(s) != [] && AllAsciiDigits(Trim(s)) ==> r == Finite(DecimalValue(Trim(s)) as real)
  {
    var t := Trim(s);
    if t == [] then Finite(0.0)
    else if AllAsciiDigits(t) then Finite(DecimalValue(t) as real)
    else other(s)
  }

  /**
   * `nowSec - ts > maxAgeSec`: the cookie made at `ts` seconds is too old at
   * clock `nowMs`. Against a max age of NaN or +Infinity the comparison is
   * false, against -Infinity it is true.
   */
  predicate Expired(nowMs: int, ts: real, maxAge: JsNumber) {
    if maxAge.Finite? then Seconds(nowMs) as real - ts > maxAge.value else maxAge.NegInf?
  }

  /** `${x}` for a finite number: a whole number is its decimal digits, anything else is `show(x)`. */
  function NumberText(x: real, show: real -> string): string {
    if x >= 0.0 && x == x.Floor as real then NatToString(x.Floor) else show(x)
  }

  /** The cookie's lifetime in seconds: `Number(INVITE_COOKIE_MAX_AGE_SEC ?? "86400")`. */
  function MaxAge(env: InviteEnv, other: string -> JsNumber): JsNumber {
    ToNumber(env.cookieMaxAge.GetOr("86400"), other)
  }

  /**
   * `isInviteCookieValueValid` at clock `nowMs`. A max age that is NaN or
   * +Infinity never expires a cookie, since the comparison is false; one
   * that is -Infinity expires every cookie.
   */
  function IsInviteCookieValueValid(env: InviteEnv, value: Option<string>, nowMs: int,
                                    hmac: (string, string) -> string,
                                    other: string -> JsNumber, show: real -> string): (r: bool)
    ensures !IsInviteRequired(env) ==> r
    ensures IsInviteRequired(env) && Unset(value) ==> !r
    ensures IsInviteRequired(env) && value.Some? && |SplitOn(value.value, {'.'})| != 3 ==> !r
    ensures IsInviteRequired(env) && value.Some? && |SplitOn(value.value, {'.'})| == 3 ==>
      SplitOn(value.value, {'.'})[0] != "v1" ==> !r
    ensures IsInviteRequired(env) && value.Some? && |SplitOn(value.value, {'.'})| == 3 ==>
      var ts := ToNumber(SplitOn(value.value, {'.'})[1], other);
      !ts.Finite? || ts.value <= 0.0 ==> !r
    ensures IsInviteRequired(env) && !Unset(value) && |SplitOn(value.value, {'.'})| == 3 ==>
      var parts := SplitOn(value.value, {'.'});
      var ts := ToNumber(parts[1], other);
      parts[0] == "v1" && ts.Finite? && ts.value > 0.0 ==>
        (r <==> parts[2] == hmac(CookieSecret(env), "v1." + NumberText(ts.value, show))
                && !Expired(nowMs, ts.value, MaxAge(env, other)))
  {
    if !IsInviteRequired(env) then true
    else if Unset(value) then false
    else
      var parts := SplitOn(value.value, {'.'});
      if |parts| != 3 then false
      else if parts[0] != "v1" then false
      else
        var ts := ToNumber(parts[1], other);
        if !ts.Finite? || ts.value <= 0.0 then false
        else
          var expected := hmac(CookieSecret(env), "v1." + NumberText(ts.value, show));
          if parts[2] != expected then false
          else !Expired(nowMs, ts.value, MaxAge(env, other))
  }

  /** A max age of -Infinity refuses every cookie while invites are required. */
  lemma NegativeMaxAgeRefusesAll(env: InviteEnv, value: Option<string>, nowMs: int,
                                 hmac: (string, string) -> string,
                                 other: string -> JsNumber, show: real -> string)
    requires MaxAge(env, other) == NegInf
    ensures IsInviteRequired(env) ==> !IsInviteCookieValueValid(env, value, nowMs, hmac, other, show)
  {
  }

  /**
   * A cookie created at `createdMs` (after the first second of 1970) is
   * accepted at `nowMs` while no more than the max age has passed, given that
   * the signature is a hex digest.
   */
  lemma CookieRoundTrip(env: InviteEnv, createdMs: int, nowMs: int, hmac: (string, string) -> string,
                        other: string -> JsNumber, show: real -> string)
    requires createdMs >= 1000
    requires AllHexDigits(hmac(CookieSecret(env), Payload(Seconds(createdMs))))
    requires !Expired(nowMs, Seconds(createdMs) as real, MaxAge(env, other))
    ensures IsInviteCookieValueValid(env, Some(CreateInviteCookieValue(env, createdMs, hmac)), nowMs, hmac, other, show)
  {
    CreatedCookieParses(env, createdMs, hmac, other, show);
    var parts := SplitOn(CreateInviteCookieValue(env, createdMs, hmac), {'.'});
    assert ToNumber(parts[1], other).value == Seconds(createdMs) as real;
  }

  /**
   * A cookie made after the first second of 1970 with a hex signature is
   * non-empty, splits into `v1`, its time and its signature, its time reads
   * back as the seconds it was made at, and the payload signed is the one
   * the check signs again.
   */
  lemma CreatedCookieParses(env: InviteEnv, createdMs: int, hmac: (string, string) -> string,
                            other: string -> JsNumber, show: real -> string)
    requires createdMs >= 1000
    requires AllHexDigits(hmac(CookieSecret(env), Payload(Seconds(createdMs))))
    ensures var cookie := CreateInviteCookieValue(env, createdMs, hmac);
      var parts := SplitOn(cookie, {'.'});
      && !Unset(Some(cookie))
      && |parts| == 3 && parts[0] == "v1"
      && ToNumber(parts[1], other) == Finite(Seconds(createdMs) as real)
      && parts[2] == hmac(CookieSecret(env), "v1." + NumberText(Seconds(createdMs) as real, show))
  {
    var ts := Seconds(createdMs);
    DigitsNumber(ts, other, show);
    assert Payload(ts) == "v1." + NumberText(ts as real, show);
  }

  /** A cookie value splits on its dots into the version, the seconds' digits and the signature. */
  lemma CookieParts(ts: int, sig: string)
    requires ts >= 1
    requires AllHexDigits(sig)
    ensures SplitOn(Payload(ts) + "." + sig, {'.'}) == ["v1", NatToString(ts), sig]
  {
    var digits := NatToString(ts);
    var parts := ["v1", digits, sig];
    assert parts[1..] == [digits, sig] && parts[1..][1..] == [sig];
    assert Join([sig], ".") == sig;
    assert Join([digits, sig], ".") == digits + "." + sig;
    assert Join(parts, ".") == "v1" + "." + Join([digits, sig], ".");
    assert Payload(ts) + "." + sig == Join(parts, ".");
    forall k | 0 <= k < |sig| ensures sig[k] != '.' {
      assert IsHexDigit(sig[k]);
    }
    SplitJoin(parts, '.', {'.'});
  }

  /** `Number` reads a whole number's digits back as that number, and `${}` writes them again. */
  lemma DigitsNumber(ts: nat, other: string -> JsNumber, show: real -> string)
    ensures ToNumber(NatToString(ts), other) == Finite(ts as real)
    ensures NumberText(ts as real, show) == NatToString(ts)
  {
    DigitsTrimmed(ts);
    DecimalRoundTrip(ts);
    assert (ts as real).Floor == ts;
  }

  lemma DigitsTrimmed(ts: nat)
    ensures Trim(NatToString(ts)) == NatToString(ts)
  {
    var d := NatToString(ts);
    assert IsAsciiDigit(d[0]) && IsAsciiDigit(d[|d| - 1]);
    TrimKeeps(d);
  }

  /** Unset, the max age is one day. */
  lemma DefaultMaxAge(env: InviteEnv, other: string -> JsNumber)
    requires env.cookieMaxAge.None?
    ensures MaxAge(env, other) == Finite(86400.0)
  {
    var d := NatToString(86400);
    assert d == "86400" by {
      assert NatToString(8) == "8";
      assert NatToString(86) == "86";
      assert NatToString(864) == "864";
      assert NatToString(8640) == "8640";
    }
    TrimKeeps(d);
    DecimalRoundTrip(86400);
  }
}

=== FILE: lists.dfy ===
/**
 * The array operations the application composes: `filter`, `slice(0, n)`,
 * `Array.from(new Set(xs))` (de-duplication keeping first occurrences) and a
 * descending `sort` by a numeric key, as JavaScript's `Array.prototype.sort`
 * performs it with a comparator `(a, b) => key(b) - key(a)`.
 */
module Lists {

  ghost predicate NoDups<T>(s: seq<T>) {
    forall i, j :: 0 <= i < j < |s| ==> s[i] != s[j]
  }

  function Min(a: int, b: int): int { if a <= b then a else b }

  /** `s.slice(0, n)`. */
  function Take<T>(s: seq<T>, n: nat): (r: seq<T>)
    ensures |r| == Min(n, |s|) && r == s[..|r|]
    ensures multiset(r) <= multiset(s)
  {
    if |s| <= n then s
    else
      assert s == s[..n] + s[n..];
      s[..n]
  }

  /** `s.filter(p)`: the elements satisfying p, in their order. */
  function Filter<T>(s: seq<T>, p: T -> bool): (r: seq<T>)
    ensures |r| <= |s|
    ensures forall i :: 0 <= i < |r| ==> r[i] in s && p(r[i])
    ensures forall i :: 0 <= i < |s| && p(s[i]) ==> s[i] in r
    ensures multiset(r) <= multiset(s)
  {
    if s == [] then []
    else
      var init := s[..|s| - 1];
      assert s == init + [s[|s| - 1]];
      Filter(init, p) + (if p(s[|s| - 1]) then [s[|s| - 1]] else [])
  }

  lemma {:induction false} FilterAppend<T>(a: seq<T>, b: seq<T>, p: T -> bool)
    ensures Filter(a + b, p) == Filter(a, p) + Filter(b, p)
  {
    if b == [] {
      assert a + b == a;
    } else {
      var b', z := b[..|b| - 1], b[|b| - 1];
      var tail := if p(z) then [z] else [];
      FilterAppend(a, b', p);
      assert (a + b)[..|a + b| - 1] == a + b';
      assert (a + b)[|a + b| - 1] == z;
      calc {
        Filter(a + b, p);
        Filter(a + b', p) + tail;
        Filter(a, p) + Filter(b', p) + tail;
        Filter(a, p) + (Filter(b', p) + tail);
        Filter(a, p) + Filter(b, p);
      }
    }
  }

  /** A property of every element of two sequences holds of every element of their concatenation. */
  lemma AllAppend<T>(a: seq<T>, b: seq<T>, p: T -> bool)
    requires forall k :: 0 <= k < |a| ==> p(a[k])
    requires forall k :: 0 <= k < |b| ==> p(b[k])
    ensures forall k :: 0 <= k < |a + b| ==> p((a + b)[k])
  {
    forall k | 0 <= k < |a + b| ensures p((a + b)[k]) {
      if k >= |a| {
        assert (a + b)[k] == b[k - |a|];
      }
    }
  }

  /** Filtering by a predicate every element satisfies changes nothing. */
  lemma {:induction false} FilterAll<T>(s: seq<T>, p: T -> bool)
    requires forall x :: x in s ==> p(x)
    ensures Filter(s, p) == s
  {
    if s != [] {
      var init := s[..|s| - 1];
      assert s == init + [s[|s| - 1]];
      FilterAll(init, p);
    }
  }

  /** Filtering by a predicate no element satisfies leaves nothing. */
  lemma {:induction false} FilterNone<T>(s: seq<T>, p: T -> bool)
    requires forall i :: 0 <= i < |s| ==> !p(s[i])
    ensures Filter(s, p) == []
  {
    if s != [] {
      var init := s[..|s| - 1];
      forall i | 0 <= i < |init| ensures !p(init[i]) {
        assert init[i] == s[i];
      }
      FilterNone(init, p);
    }
  }

  /** A filter keeps nothing exactly when no element passes. */
  lemma {:induction false} FilterEmpty<T>(s: seq<T>, p: T -> bool)
    ensures Filter(s, p) == [] <==> forall i :: 0 <= i < |s| ==> !p(s[i])
  {
    if Filter(s, p) != [] {
      FilterNoneEmpty(s, p);
    }
  }

  lemma FilterNoneEmpty<T>(s: seq<T>, p: T -> bool)
    requires Filter(s, p) != []
    ensures exists i :: 0 <= i < |s| && p(s[i])
  {
    var x := Filter(s, p)[0];
    assert x in s;
    var i :| 0 <= i < |s| && s[i] == x;
  }

  lemma {:induction false} FilterKeepsNoDups<T>(s: seq<T>, p: T -> bool)
    requires NoDups(s)
    ensures NoDups(Filter(s, p))
  {
    if s != [] {
      FilterKeepsNoDups(s[..|s| - 1], p);
    }
  }

  /** `Array.from(new Set(s))`: the first occurrence of every element, in order. */
  function Dedupe<T(==)>(s: seq<T>): (r: seq<T>)
    ensures NoDups(r)
    ensures forall i :: 0 <= i < |r| ==> r[i] in s
    ensures forall i :: 0 <= i < |s| ==> s[i] in r
    ensures |r| <= |s|
  {
    if s == [] then []
    else
      var d := Dedupe(s[..|s| - 1]);
      if s[|s| - 1] in d then d else d + [s[|s| - 1]]
  }

  /** De-duplicating a concatenation keeps the de-duplicated first part in front. */
  lemma {:induction false} DedupeAppend<T>(a: seq<T>, b: seq<T>)
    ensures |Dedupe(a)| <= |Dedupe(a + b)|
    ensures Dedupe(a + b)[..|Dedupe(a)|] == Dedupe(a)
    ensures forall k :: |Dedupe(a)| <= k < |Dedupe(a + b)| ==> Dedupe(a + b)[k] !in a
  {
    if b == [] {
      assert a + b == a;
    } else {
      var b' := b[..|b| - 1];
      DedupeAppend(a, b');
      assert (a + b)[..|a + b| - 1] == a + b';
    }
  }

  /** A list without duplicates is left as it is. */
  lemma {:induction false} DedupeNoDups<T>(s: seq<T>)
    requires NoDups(s)
    ensures Dedupe(s) == s
  {
    if s != [] {
      DedupeNoDups(s[..|s| - 1]);
      assert s == s[..|s| - 1] + [s[|s| - 1]];
    }
  }

  predicate SortedDesc<T>(s: seq<T>, key: T -> real) {
    forall i, j :: 0 <= i < j < |s| ==> key(s[i]) >= key(s[j])
  }

  /** Inserts x after every element whose key is at least x's. */
  function InsertDesc<T>(x: T, s: seq<T>, key: T -> real): (r: seq<T>)
    requires SortedDesc(s, key)
    ensures SortedDesc(r, key)
    ensures multiset(r) == multiset(s) + multiset{x}
  {
    if s == [] then [x]
    else if key(x) > key(s[0]) then [x] + s
    else
      var rest := InsertDesc(x, s[1..], key);
      BoundedByHead(x, s, rest, key);
      assert s == [s[0]] + s[1..];
      assert multiset(s) == multiset{s[0]} + multiset(s[1..]);
      [s[0]] + rest
  }

  lemma BoundedByHead<T>(x: T, s: seq<T>, rest: seq<T>, key: T -> real)
    requires s != [] && SortedDesc(s, key) && key(x) <= key(s[0])
    requires multiset(rest) == multiset(s[1..]) + multiset{x}
    ensures forall j :: 0 <= j < |rest| ==> key(rest[j]) <= key(s[0])
  {
    forall j | 0 <= j < |rest| ensures key(rest[j]) <= key(s[0]) {
      assert rest[j] in multiset(rest);
      if rest[j] != x {
        assert rest[j] in multiset(s[1..]);
        assert rest[j] in s[1..];
      }
    }
  }

  /** The sort of s by non-increasing key (an insertion sort; the order among equal keys is not part of the contract). */
  function SortDesc<T>(s: seq<T>, key: T -> real): (r: seq<T>)
    ensures SortedDesc(r, key)
    ensures multiset(r) == multiset(s)
    ensures |r| == |s|
  {
    if s == [] then []
    else
      var init, last := s[..|s| - 1], s[|s| - 1];
      assert s == init + [last];
      assert multiset(s) == multiset(init) + multiset{last};
      InsertDesc(last, SortDesc(init, key), key)
  }

  /**
   * `sort(byKeyDesc).slice(0, n)`: the n elements with the largest keys,
   * largest first; every element left out has a key no larger than any kept.
   */
  function TopDesc<T>(s: seq<T>, key: T -> real, n: nat): (r: seq<T>)
    ensures |r| == Min(n, |s|)
    ensures SortedDesc(r, key)
    ensures multiset(r) <= multiset(s)
    ensures forall k :: 0 <= k < |r| ==> r[k] in s
    ensures forall x :: x in s && x !in r ==> forall k :: 0 <= k < |r| ==> key(x) <= key(r[k])
    ensures |r| < n ==> forall x :: x in s ==> x in r
  {
    var sorted := SortDesc(s, key);
    var r := Take(sorted, n);
    PrefixKept(s, sorted, r);
    PrefixHoldsLargest(s, sorted, r, key);
    r
  }

  /** The largest n of the elements of s that pass p, in non-increasing key order. */
  function FilterTop<T>(s: seq<T>, p: T -> bool, key: T -> real, n: nat): (r: seq<T>)
    ensures |r| <= n
    ensures SortedDesc(r, key)
    ensures multiset(r) <= multiset(s)
    ensures forall k :: 0 <= k < |r| ==> r[k] in s && p(r[k])
    ensures forall x :: x in s && p(x) && x !in r ==> forall k :: 0 <= k < |r| ==> key(x) <= key(r[k])
    ensures |r| < n ==> forall x :: x in s && p(x) ==> x in r
  {
    var f := Filter(s, p);
    var r := TopDesc(f, key, n);
    FilterKeepsAll(s, p);
    assert multiset(r) <= multiset(s) by {
      assert multiset(r) <= multiset(f) <= multiset(s);
    }
    r
  }

  /** Every element of s that passes p is in the filtered sequence. */
  lemma FilterKeepsAll<T>(s: seq<T>, p: T -> bool)
    ensures forall x :: x in s && p(x) ==> x in Filter(s, p)
  {
    forall x | x in s && p(x) ensures x in Filter(s, p) {
      var i :| 0 <= i < |s| && s[i] == x;
    }
  }

  /** A prefix of a permutation of s takes its elements from s. */
  lemma PrefixKept<T>(s: seq<T>, sorted: seq<T>, r: seq<T>)
    requires multiset(sorted) == multiset(s) && |r| <= |sorted| && r == sorted[..|r|]
    ensures multiset(r) <= multiset(s)
    ensures forall k :: 0 <= k < |r| ==> r[k] in s
    ensures |r| == |sorted| ==> forall x :: x in s ==> x in r
  {
    assert sorted == r + sorted[|r|..];
    assert multiset(sorted) == multiset(r) + multiset(sorted[|r|..]);
    forall k | 0 <= k < |r| ensures r[k] in s {
      assert r[k] in multiset(sorted);
    }
    forall x | x in s && |r| == |sorted| ensures x in r {
      assert r == sorted;
      assert x in multiset(sorted);
    }
  }

  /** What a prefix of a permutation of s sorted by non-increasing key leaves out is no larger than what it keeps. */
  lemma PrefixHoldsLargest<T>(s: seq<T>, sorted: seq<T>, r: seq<T>, key: T -> real)
    requires SortedDesc(sorted, key) && multiset(sorted) == multiset(s) && |r| <= |sorted| && r == sorted[..|r|]
    ensures forall x :: x in s && x !in r ==> forall k :: 0 <= k < |r| ==> key(x) <= key(r[k])
  {
    forall x | x in s && x !in r ensures forall k :: 0 <= k < |r| ==> key(x) <= key(r[k]) {
      assert x in multiset(sorted);
      var j :| 0 <= j < |sorted| && sorted[j] == x;
      assert j >= |r|;
    }
  }

  /**
   * `filter(p).slice(0, n)`: at most n elements that pass, each at most as
   * often as in s, and every passing element when fewer than n are kept.
   */
  function FilterTake<T>(s: seq<T>, p: T -> bool, n: nat): (r: seq<T>)
    ensures |r| <= n
    ensures forall k :: 0 <= k < |r| ==> r[k] in s && p(r[k])
    ensures |r| < n ==> forall x :: x in s && p(x) ==> x in r
    ensures multiset(r) <= multiset(s)
  {
    var hits := Filter(s, p);
    var r := Take(hits, n);
    assert |r| < n ==> r == hits;
    r
  }

  /** Filtering and cutting a sorted sequence keeps it sorted. */
  lemma FilterTakeSorted<T>(s: seq<T>, p: T -> bool, n: nat, key: T -> real)
    requires SortedDesc(s, key)
    ensures SortedDesc(FilterTake(s, p, n), key)
  {
    FilterKeepsSorted(s, p, key);
  }

  /** Cutting the matches of a sorted sequence leaves out none larger than those kept. */
  lemma FilterTakeLeftOut<T>(s: seq<T>, p: T -> bool, n: nat, key: T -> real)
    requires SortedDesc(s, key)
    ensures var r := FilterTake(s, p, n);
      forall x :: x in s && p(x) && x !in r ==> forall k :: 0 <= k < |r| ==> key(x) <= key(r[k])
  {
    var f := Filter(s, p);
    var r := FilterTake(s, p, n);
    FilterKeepsSorted(s, p, key);
    FilterKeepsAll(s, p);
    assert r == f[..|r|];
    forall x, k | x in s && p(x) && x !in r && 0 <= k < |r| ensures key(x) <= key(r[k]) {
      var j :| 0 <= j < |f| && f[j] == x;
      assert forall i :: 0 <= i < |r| ==> f[i] == r[i] != x;
      assert r[k] == f[k];
    }
  }

  /** Filtering keeps a sequence sorted. */
  lemma FilterKeepsSorted<T>(s: seq<T>, p: T -> bool, key: T -> real)
    requires SortedDesc(s, key)
    ensures SortedDesc(Filter(s, p), key)
  {
    FilterKeepsPairwise(s, p, (a: T, b: T) => key(a) >= key(b));
  }

  /** Filtering keeps a relation that holds between every element and each later one. */
  lemma {:induction false} FilterKeepsPairwise<T>(s: seq<T>, p: T -> bool, le: (T, T) -> bool)
    requires forall i, j :: 0 <= i < j < |s| ==> le(s[i], s[j])
    ensures forall i, j :: 0 <= i < j < |Filter(s, p)| ==> le(Filter(s, p)[i], Filter(s, p)[j])
  {
    if s != [] {
      var init, z := s[..|s| - 1], s[|s| - 1];
      assert s == init + [z];
      var f := Filter(init, p);
      FilterKeepsPairwise(init, p, le);
      if p(z) {
        forall k | 0 <= k < |f| ensures le(f[k], z) {
          var i :| 0 <= i < |init| && init[i] == f[k];
        }
        SnocPairwise(f, z, le);
      }
    }
  }

  /** Appending an element that every earlier element relates to keeps a pairwise relation. */
  lemma SnocPairwise<T>(f: seq<T>, z: T, le: (T, T) -> bool)
    requires forall i, j :: 0 <= i < j < |f| ==> le(f[i], f[j])
    requires forall k :: 0 <= k < |f| ==> le(f[k], z)
    ensures forall i, j :: 0 <= i < j < |f + [z]| ==> le((f + [z])[i], (f + [z])[j])
  {
  }

  /** Filtering drops an element exactly when some element fails the test. */
  lemma {:induction false} FilterShorter<T>(s: seq<T>, p: T -> bool)
    ensures |Filter(s, p)| < |s| <==> exists i :: 0 <= i < |s| && !p(s[i])
  {
    if s != [] {
      var init, z := s[..|s| - 1], s[|s| - 1];
      assert s == init + [z];
      FilterShorter(init, p);
      if exists i :: 0 <= i < |init| && !p(init[i]) {
        var i :| 0 <= i < |init| && !p(init[i]);
        assert s[i] == init[i];
      }
    }
  }

  /**
   * `Array.from(new Set(a.concat(b))).filter(p).slice(0, n)`: at most n distinct
   * elements, each satisfying p and taken from a or b.
   */
  lemma MergeFacts<T>(a: seq<T>, b: seq<T>, p: T -> bool, n: nat)
    ensures var r := Take(Filter(Dedupe(a + b), p), n);
      |r| <= n && NoDups(r) && forall k :: 0 <= k < |r| ==> p(r[k]) && (r[k] in a || r[k] in b)
  {
    var d := Dedupe(a + b);
    FilterKeepsNoDups(d, p);
    var f := Filter(d, p);
    var r := Take(f, n);
    forall k | 0 <= k < |r| ensures p(r[k]) && (r[k] in a || r[k] in b) {
      assert r[k] == f[k];
      assert f[k] in d;
      assert f[k] in a + b;
    }
  }

  /** An element occurs at most once in a sequence without duplicates. */
  lemma {:induction false} NoDupsOccursOnce<T>(s: seq<T>, x: T)
    requires NoDups(s)
    ensures multiset(s)[x] <= 1
  {
    if s != [] {
      var init := s[..|s| - 1];
      assert s == init + [s[|s| - 1]];
      NoDupsOccursOnce(init, x);
      if s[|s| - 1] == x {
        assert x !in init;
      }
    }
  }

  /** A sequence in which every element occurs at most once has no duplicates. */
  lemma {:induction false} OccursOnceNoDups<T>(s: seq<T>)
    requires forall x :: multiset(s)[x] <= 1
    ensures NoDups(s)
  {
    if s != [] {
      var init, z := s[..|s| - 1], s[|s| - 1];
      assert s == init + [z];
      assert multiset(s) == multiset(init) + multiset{z};
      forall x ensures multiset(init)[x] <= 1 {
        assert multiset(s)[x] <= 1;
      }
      OccursOnceNoDups(init);
      assert multiset(s)[z] <= 1;
      forall i, j | 0 <= i < j < |s| ensures s[i] != s[j] {
        if j == |s| - 1 {
          assert s[i] == init[i] && init[i] in multiset(init);
        } else {
          assert s[i] == init[i] && s[j] == init[j];
        }
      }
    }
  }

  /** A sequence whose elements, with their counts, are among those of a sequence without duplicates has none either. */
  lemma SubMultisetKeepsNoDups<T>(r: seq<T>, s: seq<T>)
    requires multiset(r) <= multiset(s)
    ensures NoDups(s) ==> NoDups(r)
  {
    if NoDups(s) {
      forall x ensures multiset(r)[x] <= 1 {
        NoDupsOccursOnce(s, x);
      }
      OccursOnceNoDups(r);
    }
  }

  /** No two elements share a key. */
  ghost predicate UniqueBy<T, K>(s: seq<T>, key: T -> K) {
    forall i, j :: 0 <= i < j < |s| ==> key(s[i]) != key(s[j])
  }

  /** Elements drawn, with their counts, from a sequence with unique keys have unique keys. */
  lemma SubMultisetKeepsUnique<T, K>(r: seq<T>, s: seq<T>, key: T -> K)
    requires multiset(r) <= multiset(s)
    ensures UniqueBy(s, key) ==> UniqueBy(r, key)
  {
    if UniqueBy(s, key) {
      assert NoDups(s) by {
        forall i, j | 0 <= i < j < |s| ensures s[i] != s[j] {
          assert key(s[i]) != key(s[j]);
        }
      }
      SubMultisetKeepsNoDups(r, s);
      forall i, j | 0 <= i < j < |r| ensures key(r[i]) != key(r[j]) {
        assert r[i] in multiset(s) && r[j] in multiset(s);
        var p :| 0 <= p < |s| && s[p] == r[i];
        var q :| 0 <= q < |s| && s[q] == r[j];
        assert p != q;
      }
    }
  }

  /**
   * Elements built one per key from distinct keys, then drawn with their
   * counts, have distinct keys.
   */
  lemma SelectionKeepsKeysUnique<T, K>(keys: seq<K>, all: seq<T>, r: seq<T>, key: T -> K)
    requires |all| == |keys| && forall k :: 0 <= k < |all| ==> key(all[k]) == keys[k]
    requires multiset(r) <= multiset(all)
    ensures NoDups(keys) ==> UniqueBy(r, key)
  {
    if NoDups(keys) {
      assert UniqueBy(all, key) by {
        forall i, j | 0 <= i < j < |all| ensures key(all[i]) != key(all[j]) {
          assert keys[i] != keys[j];
        }
      }
      SubMultisetKeepsUnique(r, all, key);
    }
  }

  /** Reordering keeps a sequence free of duplicates. */
  lemma PermutationKeepsNoDups<T>(a: seq<T>, b: seq<T>)
    requires multiset(a) == multiset(b) && NoDups(a)
    ensures NoDups(b)
  {
    forall x ensures multiset(b)[x] <= 1 {
      NoDupsOccursOnce(a, x);
    }
    OccursOnceNoDups(b);
  }

  /** The set of a sequence's elements. */
  function Elements<T(!new)>(s: seq<T>): (r: set<T>)
    ensures forall x :: x in r <==> x in s
  {
    set x | x in s
  }

  /** A sequence without duplicates has as many elements as its set. */
  lemma {:induction false} DistinctCard<T(!new)>(s: seq<T>)
    requires NoDups(s)
    ensures |Elements(s)| == |s|
  {
    if s != [] {
      var init := s[..|s| - 1];
      assert s == init + [s[|s| - 1]];
      DistinctCard(init);
      assert Elements(s) == Elements(init) + {s[|s| - 1]};
    }
  }

  lemma ElementsSnoc<T(!new)>(s: seq<T>, x: T)
    ensures Elements(s + [x]) == Elements(s) + {x}
  {
  }

  /** Lists the elements of a finite set once each, in an unspecified order. */
  method Enumerate<T(!new)>(s: set<T>) returns (r: seq<T>)
    ensures NoDups(r)
    ensures forall x :: x in r <==> x in s
  {
    r := [];
    var rest := s;
    while rest != {}
      invariant NoDups(r)
      invariant rest !! Elements(r) && rest + Elements(r) == s
      decreases |rest|
    {
      var x :| x in rest;
      r := r + [x];
      rest := rest - {x};
    }
  }
}

=== FILE: search_route.dfy ===
/**
 * `POST /api/search`: semantic ranking of the caller's newest articles by
 * embedding similarity, with a case-sensitive substring search over title,
 * url and summary as the fallback.
 *
 * The embedding service, the parser of a stored embedding and the
 * similarity measure are parameters: `embed` says what `createEmbedding`
 * did, `parse` stands for `parseEmbedding` and `score` for
 * `cosineSimilarity`.
 */
module SearchRoute {
  import opened Wrappers
  import opened Text
  import opened Lists
  import opened Database
  import opened Services
  import FS = FallbackStore
  import ArticlesRoute

  /** How many of the caller's newest articles semantic ranking looks at. */
  const PoolSize := 200
  /** How many results the handler returns. */
  const ResultSize := 50

  /** One search hit as the handler renders it (no body length, no update time). */
  datatype Hit = Hit(
    id: ArticleId,
    url: string,
    title: string,
    summary: Option<string>,
    readAt: Option<int>,
    createdAt: int,
    tags: set<string>)

  function HitOf(a: DbArticle, tags: set<string>): (h: Hit)
    ensures h.id == a.id && h.url == a.url && h.title == a.title && h.summary == a.summary
    ensures h.createdAt == a.createdAt && h.readAt == a.readAt && h.tags == tags
  {
    Hit(a.id, a.url, a.title, a.summary, a.readAt, a.createdAt, tags)
  }

  datatype SearchResponse =
    | BadRequest
    | Unauthorized
    | FoundInFile(saved: seq<FS.Article>)
    | FoundInDb(hits: seq<Hit>)

  /** The database `contains` filter on title, url and summary; tags are not searched. */
  predicate LexicalMatch(a: DbArticle, q: string) {
    Contains(a.title, q) || Contains(a.url, q) || (a.summary.Some? && Contains(a.summary.value, q))
  }

  /** User u's 50 newest articles that match q, each row at most once. */
  function Lexical(articles: seq<DbArticle>, u: UserId, q: string): (r: seq<DbArticle>)
    ensures |r| <= ResultSize
    ensures SortedDesc(r, CreatedKey)
    ensures forall k :: 0 <= k < |r| ==> r[k] in articles && r[k].userId == u && LexicalMatch(r[k], q)
    ensures forall a :: a in articles && a.userId == u && LexicalMatch(a, q) && a !in r ==>
      forall k :: 0 <= k < |r| ==> a.createdAt <= r[k].createdAt
    ensures |r| < ResultSize ==>
      forall a :: a in articles && a.userId == u && LexicalMatch(a, q) ==> a in r
    ensures multiset(r) <= multiset(articles)
    ensures UniqueIds(articles) ==> UniqueIds(r)
  {
    var r := FilterTop(articles, (a: DbArticle) => a.userId == u && LexicalMatch(a, q), CreatedKey, ResultSize);
    SubMultisetKeepsUnique(r, articles, IdOf);
    r
  }

  /** An article whose stored embedding parses takes part in semantic ranking. */
  predicate Parseable(a: DbArticle, parse: Option<string> -> Option<Vector>) {
    parse(a.embedding).Some?
  }

  /** The similarity of a parseable article to the query vector. */
  function Score(a: DbArticle, qv: Vector, parse: Option<string> -> Option<Vector>, score: (Vector, Vector) -> real): real
    requires Parseable(a, parse)
  {
    score(qv, parse(a.embedding).value)
  }

  /** The `map` and `filter` steps, without the scores: the parseable pool articles, in pool order. */
  function Candidates(pool: seq<DbArticle>, parse: Option<string> -> Option<Vector>): (r: seq<DbArticle>)
    ensures forall k :: 0 <= k < |r| ==> r[k] in pool && Parseable(r[k], parse)
    ensures forall a :: a in pool && Parseable(a, parse) ==> a in r
    ensures multiset(r) <= multiset(pool)
  {
    Filter(pool, (a: DbArticle) => Parseable(a, parse))
  }

  /** The ranking key: the score of a parseable article (the others are never ranked). */
  function ScoreKey(qv: Vector, parse: Option<string> -> Option<Vector>, score: (Vector, Vector) -> real)
    : DbArticle -> real
  {
    (a: DbArticle) => if Parseable(a, parse) then Score(a, qv, parse, score) else 0.0
  }

  /**
   * The `sort` by score and `slice(0, 50)`, then `map((x) => x.article)`:
   * sorting the (article, score) pairs by score and keeping their articles
   * is sorting the candidates by their own score. The result holds the 50
   * best-scoring parseable pool articles (all of them when fewer), best
   * first, none more often than in the pool, so no row twice.
   */
  function Ranked(pool: seq<DbArticle>, qv: Vector, parse: Option<string> -> Option<Vector>,
                  score: (Vector, Vector) -> real): (r: seq<DbArticle>)
    ensures |r| == Min(ResultSize, |Candidates(pool, parse)|)
    ensures multiset(r) <= multiset(pool)
    ensures forall k :: 0 <= k < |r| ==> r[k] in pool && Parseable(r[k], parse)
    ensures forall i, j :: 0 <= i < j < |r| ==>
      Score(r[i], qv, parse, score) >= Score(r[j], qv, parse, score)
    ensures forall a :: a in pool && Parseable(a, parse) && a !in r ==>
      forall k :: 0 <= k < |r| ==> Score(a, qv, parse, score) <= Score(r[k], qv, parse, score)
    ensures r == [] <==> forall a :: a in pool ==> !Parseable(a, parse)
    ensures UniqueIds(pool) ==> UniqueIds(r)
  {
    var c := Candidates(pool, parse);
    var r := TopDesc(c, ScoreKey(qv, parse, score), ResultSize);
    RankedFacts(pool, qv, parse, score, c, r);
    SubMultisetKeepsUnique(r, pool, IdOf);
    r
  }

  /** The candidates' top entries by ScoreKey are the pool's best-scoring parseable articles. */
  lemma RankedFacts(pool: seq<DbArticle>, qv: Vector, parse: Option<string> -> Option<Vector>,
                    score: (Vector, Vector) -> real, c: seq<DbArticle>, r: seq<DbArticle>)
    requires c == Candidates(pool, parse)
    requires r == TopDesc(c, ScoreKey(qv, parse, score), ResultSize)
    ensures forall i, j :: 0 <= i < j < |r| ==>
      Score(r[i], qv, parse, score) >= Score(r[j], qv, parse, score)
    ensures forall a :: a in pool && Parseable(a, parse) && a !in r ==>
      forall k :: 0 <= k < |r| ==> Score(a, qv, parse, score) <= Score(r[k], qv, parse, score)
    ensures r == [] <==> forall a :: a in pool ==> !Parseable(a, parse)
  {
    var key := ScoreKey(qv, parse, score);
    forall i, j | 0 <= i < j < |r| ensures Score(r[i], qv, parse, score) >= Score(r[j], qv, parse, score) {
      assert key(r[i]) >= key(r[j]);
    }
    forall a | a in pool && Parseable(a, parse) && a !in r
      ensures forall k :: 0 <= k < |r| ==> Score(a, qv, parse, score) <= Score(r[k], qv, parse, score)
    {
      assert a in c;
      forall k | 0 <= k < |r| ensures Score(a, qv, parse, score) <= Score(r[k], qv, parse, score) {
        assert key(a) <= key(r[k]);
      }
    }
    forall a | a in pool && Parseable(a, parse) ensures r != [] {
      assert a in c;
    }
  }

  /**
   * The articles the handler reports in database mode: the semantic ranking
   * of the 200 newest when the query has a vector and some candidate was
   * scored, the lexical search otherwise (no vector, nothing scored, or
   * the embedding call threw).
   */
  function Chosen(articles: seq<DbArticle>, u: UserId, q: string, outcome: EmbedOutcome,
                  parse: Option<string> -> Option<Vector>, score: (Vector, Vector) -> real): (r: seq<DbArticle>)
    ensures |r| <= ResultSize
    ensures forall k :: 0 <= k < |r| ==> r[k] in articles && r[k].userId == u
    ensures var pool := ArticlesRoute.NewestRows(articles, u, PoolSize);
      if outcome.Returned? && outcome.vector.Some? && exists a :: a in pool && Parseable(a, parse)
      then r == Ranked(pool, outcome.vector.value, parse, score)
      else r == Lexical(articles, u, q)
  {
    match outcome
    case Threw => Lexical(articles, u, q)
    case Returned(None) => Lexical(articles, u, q)
    case Returned(Some(qv)) => SemanticOrLexical(articles, u, q, qv, parse, score)
  }

  /** With a query vector: the ranking of the pool when it scored anything, the lexical search otherwise. */
  function SemanticOrLexical(articles: seq<DbArticle>, u: UserId, q: string, qv: Vector,
                             parse: Option<string> -> Option<Vector>, score: (Vector, Vector) -> real)
    : (r: seq<DbArticle>)
    ensures |r| <= ResultSize
    ensures forall k :: 0 <= k < |r| ==> r[k] in articles && r[k].userId == u
    ensures var pool := ArticlesRoute.NewestRows(articles, u, PoolSize);
      if exists a :: a in pool && Parseable(a, parse)
      then r == Ranked(pool, qv, parse, score)
      else r == Lexical(articles, u, q)
  {
    var pool := ArticlesRoute.NewestRows(articles, u, PoolSize);
    var ranked := Ranked(pool, qv, parse, score);
    RankedOwn(articles, u, pool, ranked, qv, parse, score);
    if |ranked| > 0 then ranked else Lexical(articles, u, q)
  }

  /** The ranking of the pool lists at most 50 of user u's articles, and is empty exactly when nothing parses. */
  lemma RankedOwn(articles: seq<DbArticle>, u: UserId, pool: seq<DbArticle>, ranked: seq<DbArticle>, qv: Vector,
                  parse: Option<string> -> Option<Vector>, score: (Vector, Vector) -> real)
    requires pool == ArticlesRoute.NewestRows(articles, u, PoolSize)
    requires ranked == Ranked(pool, qv, parse, score)
    ensures |ranked| <= ResultSize
    ensures forall k :: 0 <= k < |ranked| ==> ranked[k] in articles && ranked[k].userId == u
    ensures |ranked| > 0 <==> exists a :: a in pool && Parseable(a, parse)
  {
    forall k | 0 <= k < |ranked| ensures ranked[k] in articles && ranked[k].userId == u {
      assert ranked[k] in pool;
    }
    if exists a :: a in pool && Parseable(a, parse) {
      var a :| a in pool && Parseable(a, parse);
      assert ranked != [];
    }
  }

  /** The rendered hits, with the names of each article's tags. */
  function Hits(rows: seq<DbArticle>, tags: map<string, TagId>, links: set<Link>): (r: seq<Hit>)
    ensures |r| == |rows|
    ensures forall k :: 0 <= k < |r| ==> r[k] == HitOf(rows[k], LinkedNames(tags, links, rows[k].id))
  {
    seq(|rows|, k requires 0 <= k < |rows| => HitOf(rows[k], LinkedNames(tags, links, rows[k].id)))
  }

  /**
   * The handler. `query` is the request's `query` when it is a string;
   * 400 comes before the session check, and the query is trimmed only
   * after the emptiness test.
   */
  function Search(env: Env, session: Option<Session>, query: Option<string>, articles: seq<DbArticle>,
                  tags: map<string, TagId>, links: set<Link>, stored: seq<FS.Article>,
                  outcome: EmbedOutcome, parse: Option<string> -> Option<Vector>,
                  score: (Vector, Vector) -> real): (r: SearchResponse)
    ensures r.BadRequest? <==> query.None? || query.value == []
    ensures r.Unauthorized? <==> query.Some? && query.value != [] && session.None?
    ensures r.FoundInFile? <==> query.Some? && query.value != [] && session.Some? && UseFallback(env)
    ensures r.FoundInFile? ==>
      r.saved == FS.SearchArticles(stored, session.value.id, Trim(query.value), ResultSize)
    ensures r.FoundInDb? ==>
      var rows := Chosen(articles, session.value.id, Trim(query.value), outcome, parse, score);
      |r.hits| == |rows| <= ResultSize
      && forall k :: 0 <= k < |rows| ==> r.hits[k] == HitOf(rows[k], LinkedNames(tags, links, rows[k].id))
  {
    if query.None? || query.value == [] then BadRequest
    else
      var q := Trim(query.value);
      if session.None? then Unauthorized
      else if UseFallback(env) then FoundInFile(FS.SearchArticles(stored, session.value.id, q, ResultSize))
      else FoundInDb(Hits(Chosen(articles, session.value.id, q, outcome, parse, score), tags, links))
  }
}

=== FILE: services.dfy ===
/**
 * What the route handlers receive from outside: the signed-in session, the
 * environment, and the embedding service. The session lookup, the process
 * environment and the OpenAI client are not modelled; the handlers take
 * their answers as parameters.
 */
module Services {
  import opened Wrappers
  import Database
  import FallbackStore

  /** The session's user; a session without a user id is no session. */
  datatype Session = Session(id: Database.UserId, email: Option<string>, name: Option<string>)

  /** `NODE_ENV` and `DATABASE_URL`. */
  datatype Env = Env(nodeEnv: Option<string>, databaseUrl: Option<string>)

  /** Whether the handlers use the file store instead of the database. */
  predicate UseFallback(env: Env) {
    FallbackStore.ShouldUseFallbackStore(env.nodeEnv, env.databaseUrl)
  }

  /** An embedding vector. */
  type Vector = seq<real>

  /** What `createEmbedding` did: it threw, or returned a vector or null (no API key). */
  datatype EmbedOutcome = Threw | Returned(vector: Option<Vector>)

  /** `v ? String(v) : null`: an empty string counts as absent. */
  function Truthy(v: Option<string>): (r: Option<string>)
    ensures r.Some? <==> v.Some? && v.value != []
    ensures r.Some? ==> r == v
  {
    if v.Some? && v.value != [] then v else None
  }
}

=== FILE: tag_stats.dfy ===
/**
 * The per-tag counting both insights handlers do over articles loaded with
 * their tags: a map from tag name to the number of those articles that
 * carry it, filled in the order names are first met.
 */
module TagStats {
  import opened Lists
  import opened Database

  /** The names of all tags on the articles of s. */
  function AllNames(s: seq<DbArticle>, tags: map<string, TagId>, links: set<Link>): set<string> {
    if s == [] then {} else AllNames(s[..|s| - 1], tags, links) + LinkedNames(tags, links, s[|s| - 1].id)
  }

  /** A name is among all names exactly when some article of s carries it. */
  lemma {:induction false} AllNamesMeaning(s: seq<DbArticle>, tags: map<string, TagId>, links: set<Link>, n: string)
    ensures n in AllNames(s, tags, links) <==> exists k :: 0 <= k < |s| && n in LinkedNames(tags, links, s[k].id)
  {
    if s != [] {
      var init := s[..|s| - 1];
      AllNamesMeaning(init, tags, links, n);
      assert forall k :: 0 <= k < |init| ==> init[k] == s[k];
    }
  }

  /** How many articles of s carry the tag named n. */
  function CountTagged(s: seq<DbArticle>, tags: map<string, TagId>, links: set<Link>, n: string): (r: nat)
    ensures r <= |s|
  {
    if s == [] then 0
    else CountTagged(s[..|s| - 1], tags, links, n) + (if n in LinkedNames(tags, links, s[|s| - 1].id) then 1 else 0)
  }

  /** A name no article carries has count 0, and a name some article carries a positive count. */
  lemma {:induction false} CountPositive(s: seq<DbArticle>, tags: map<string, TagId>, links: set<Link>, n: string)
    ensures CountTagged(s, tags, links, n) > 0 <==> n in AllNames(s, tags, links)
  {
    if s != [] {
      var init := s[..|s| - 1];
      CountPositive(init, tags, links, n);
      assert forall k :: 0 <= k < |init| ==> init[k] == s[k];
    }
  }

  /**
   * The counting loop: `names` lists each tag name once, in the order
   * first met, and `counts` maps it to the number of articles carrying it.
   */
  method CountTags(arts: seq<DbArticle>, tags: map<string, TagId>, links: set<Link>)
    returns (names: seq<string>, counts: map<string, nat>)
    ensures NoDups(names)
    ensures Elements(names) == counts.Keys == AllNames(arts, tags, links)
    ensures forall n :: n in counts ==> counts[n] == CountTagged(arts, tags, links, n) > 0
  {
    names, counts := [], map[];
    for i := 0 to |arts|
      invariant NoDups(names)
      invariant Elements(names) == counts.Keys == AllNames(arts[..i], tags, links)
      invariant forall n :: n in counts ==> counts[n] == CountTagged(arts[..i], tags, links, n)
    {
      var here := LinkedNames(tags, links, arts[i].id);
      var cur := Enumerate(here);
      ghost var before := arts[..i];
      assert arts[..i + 1][..i] == before;
      names, counts := CountArticle(names, counts, before, tags, links, cur);
    }
    assert arts[..|arts|] == arts;
    forall n | n in counts ensures counts[n] > 0 {
      CountPositive(arts, tags, links, n);
    }
  }

  /**
   * The inner loop over one article's tag names `cur`: a name already counted
   * gets one more, a new name is appended with count 1.
   */
  method CountArticle(names: seq<string>, counts: map<string, nat>, ghost before: seq<DbArticle>,
                      tags: map<string, TagId>, links: set<Link>, cur: seq<string>)
    returns (names': seq<string>, counts': map<string, nat>)
    requires NoDups(names) && NoDups(cur)
    requires Elements(names) == counts.Keys == AllNames(before, tags, links)
    requires forall n :: n in counts ==> counts[n] == CountTagged(before, tags, links, n)
    ensures NoDups(names')
    ensures Elements(names') == counts'.Keys == AllNames(before, tags, links) + Elements(cur)
    ensures forall n :: n in counts' ==>
      counts'[n] == CountTagged(before, tags, links, n) + (if n in cur then 1 else 0)
  {
    names', counts' := names, counts;
    for j := 0 to |cur|
      invariant NoDups(names')
      invariant Elements(names') == counts'.Keys == AllNames(before, tags, links) + Elements(cur[..j])
      invariant forall n :: n in counts' ==>
        counts'[n] == CountTagged(before, tags, links, n) + (if n in cur[..j] then 1 else 0)
    {
      var name := cur[j];
      assert name !in cur[..j];
      assert cur[..j + 1] == cur[..j] + [name];
      if name in counts' {
        counts' := counts'[name := counts'[name] + 1];
      } else {
        CountPositive(before, tags, links, name);
        names' := names' + [name];
        counts' := counts'[name := 1];
      }
    }
    assert cur[..|cur|] == cur;
  }

  /** One entry of a tag ranking. */
  datatype TagCount = TagCount(name: string, count: nat)

  function CountKey(t: TagCount): real { t.count as real }

  function NameOf(t: TagCount): string { t.name }

  /** The (name, count) entries in map order. */
  function Entries(names: seq<string>, counts: map<string, nat>): (r: seq<TagCount>)
    requires forall k :: 0 <= k < |names| ==> names[k] in counts
    ensures |r| == |names|
    ensures forall k :: 0 <= k < |r| ==> r[k] == TagCount(names[k], counts[names[k]])
  {
    seq(|names|, k requires 0 <= k < |names| => TagCount(names[k], counts[names[k]]))
  }
}

=== FILE: tagging.dfy ===
/**
 * Attaching a list of tag names to one article: names are trimmed, blanks
 * dropped and duplicates removed; names already attached are skipped; each
 * remaining name is fetched or created in the global tag table and then
 * linked, first in one bulk insert and, if that fails, row by row with
 * duplicate-row errors absorbed.
 */
module Tagging {
  import opened Wrappers
  import opened Text
  import opened Lists
  import opened Database

  datatype MergeResult = MergeResult(added: nat, total: nat)

  /** `Array.from(new Set(tagNames.map(t => t.trim()).filter(Boolean)))`. */
  function UniqueNames(tagNames: seq<string>): (r: seq<string>)
    ensures NoDups(r)
    ensures forall k :: 0 <= k < |r| ==> r[k] != [] && exists i :: 0 <= i < |tagNames| && r[k] == Trim(tagNames[i])
    ensures forall i :: 0 <= i < |tagNames| && Trim(tagNames[i]) != [] ==> Trim(tagNames[i]) in r
  {
    var trimmed := TrimAll(tagNames);
    var kept := Filter(trimmed, NonEmpty);
    forall i | 0 <= i < |tagNames| && Trim(tagNames[i]) != [] ensures Trim(tagNames[i]) in kept {
      assert trimmed[i] == Trim(tagNames[i]);
    }
    forall x | x in kept ensures exists i :: 0 <= i < |tagNames| && x == Trim(tagNames[i]) {
      var i :| 0 <= i < |trimmed| && trimmed[i] == x;
    }
    Dedupe(kept)
  }

  /** `unique.filter(t => !existingNames.has(t))`. */
  function ToAdd(unique: seq<string>, existing: set<string>): (r: seq<string>)
    ensures forall k :: 0 <= k < |r| ==> r[k] in unique && r[k] !in existing
    ensures forall n :: n in unique && n !in existing ==> n in r
  {
    Filter(unique, Absent(existing))
  }

  /** The test `n => !existing.has(n)`. */
  function Absent(existing: set<string>): string -> bool {
    n => n !in existing
  }

  /** The rows a merge of `names` into article a stands for, given the tag table. */
  function NewLinks(a: ArticleId, names: seq<string>, tags: map<string, TagId>): set<Link> {
    set n | n in names && n in tags :: (a, tags[n])
  }

  /** The tag ids of the names in `racing`. */
  function RacedIds(names: seq<string>, ids: seq<TagId>, racing: set<string>): (r: set<TagId>)
    requires |ids| == |names|
    ensures forall t :: t in r ==> exists k :: 0 <= k < |ids| && ids[k] == t
  {
    set k | 0 <= k < |names| && names[k] in racing :: ids[k]
  }

  lemma NewLinksOfIds(a: ArticleId, names: seq<string>, ids: seq<TagId>, tags: map<string, TagId>)
    requires |ids| == |names|
    requires forall k :: 0 <= k < |names| ==> names[k] in tags && ids[k] == tags[names[k]]
    ensures NewLinks(a, names, tags) == set k | 0 <= k < |ids| :: (a, ids[k])
  {
    var lhs, rhs := NewLinks(a, names, tags), set k | 0 <= k < |ids| :: (a, ids[k]);
    forall l | l in lhs ensures l in rhs {
      var n :| n in names && n in tags && l == (a, tags[n]);
      var k :| 0 <= k < |names| && names[k] == n;
    }
    forall l | l in rhs ensures l in lhs {
      var k :| 0 <= k < |ids| && l == (a, ids[k]);
      assert names[k] in names;
    }
  }

  lemma RacedWithin(a: ArticleId, ids: seq<TagId>, raced: set<TagId>, tags: map<string, TagId>)
    requires forall t :: t in raced ==> exists k :: 0 <= k < |ids| && ids[k] == t
    ensures (set t | t in raced && TagIdExists(tags, t) :: (a, t)) <= set k | 0 <= k < |ids| :: (a, ids[k])
  {
    forall t | t in raced && TagIdExists(tags, t) ensures (a, t) in set k | 0 <= k < |ids| :: (a, ids[k]) {
      var k :| 0 <= k < |ids| && ids[k] == t;
    }
  }

  /**
   * `mergeTagsToArticle(prisma, { articleId, tagNames })`. The parameter
   * `racing` names the tags that another request links to the same article
   * between this call's read of the existing links and its bulk insert; it is
   * empty in a run without interleaving.
   */
  method MergeTagsToArticle(db: Db, articleId: ArticleId, tagNames: seq<string>, racing: set<string>)
    returns (r: Result<MergeResult, DbError>)
    requires db.Valid()
    modifies db
    ensures db.Valid()
    ensures db.articles == old(db.articles) && db.users == old(db.users)
    ensures forall n :: n in old(db.tags) ==> n in db.tags && db.tags[n] == old(db.tags)[n]
    ensures old(db.links) <= db.links
    ensures var toAdd := ToAdd(UniqueNames(tagNames), old(LinkedNames(db.tags, db.links, articleId)));
      && (toAdd == [] ==>
            r == Ok(MergeResult(0, old(LinkCount(db.links, articleId))))
            && db.tags == old(db.tags) && db.links == old(db.links) && db.nextId == old(db.nextId))
      && (toAdd != [] ==>
            (forall n :: n in db.tags <==> n in old(db.tags) || n in toAdd)
            && (r.Err? <==> !HasArticle(db.articles, articleId))
            && (r.Err? ==> r.error == ForeignKeyViolation && db.links == old(db.links))
            && (r.Ok? ==>
                  r.value == MergeResult(|toAdd|, LinkCount(db.links, articleId))
                  && db.links == old(db.links) + NewLinks(articleId, toAdd, db.tags)))
    ensures r.Ok? ==> r.value.total == old(LinkCount(db.links, articleId)) + r.value.added
    ensures r.Ok? ==> |db.links| == |old(db.links)| + r.value.added
    ensures forall l :: l in db.links && l !in old(db.links) ==> l.0 == articleId
    ensures r.Ok? ==> forall n :: n in UniqueNames(tagNames) ==> n in LinkedNames(db.tags, db.links, articleId)
  {
    var unique := UniqueNames(tagNames);
    if |unique| == 0 {
      var current := LinkCount(db.links, articleId);
      MergedNamesLinked(db.tags, db.links, db.tags, db.links, articleId, tagNames);
      return Ok(MergeResult(0, current));
    }

    var existing := LinksOf(db.links, articleId);
    var existingNames := LinkedNames(db.tags, db.links, articleId);
    var toAdd := ToAdd(unique, existingNames);
    if |toAdd| == 0 {
      MergedNamesLinked(db.tags, db.links, db.tags, db.links, articleId, tagNames);
      return Ok(MergeResult(0, |existing|));
    }

    ghost var tags0, links0 := db.tags, db.links;
    var linked := LinkNames(db, articleId, toAdd, racing);
    if linked.Err? {
      return Err(linked.error);
    }
    ToAddNoDups(unique, existingNames);
    AddedIsGrowth(tags0, links0, db.tags, articleId, toAdd);
    MergedNamesLinked(tags0, links0, db.tags, db.links, articleId, tagNames);
    var total := LinkCount(db.links, articleId);
    return Ok(MergeResult(|toAdd|, total));
  }

  /**
   * The writing half of the merge: get-or-create a tag row per name, then insert
   * the links (bulk, then row by row); `racing` as in the merge.
   */
  method LinkNames(db: Db, a: ArticleId, names: seq<string>, racing: set<string>) returns (r: Result<(), DbError>)
    requires db.Valid()
    modifies db
    ensures db.Valid()
    ensures db.articles == old(db.articles) && db.users == old(db.users)
    ensures forall n :: n in old(db.tags) ==> n in db.tags && db.tags[n] == old(db.tags)[n]
    ensures forall n :: n in db.tags <==> n in old(db.tags) || n in names
    ensures r.Err? <==> !HasArticle(db.articles, a) && names != []
    ensures r.Err? ==> r.error == ForeignKeyViolation && db.links == old(db.links)
    ensures r.Ok? ==> db.links == old(db.links) + NewLinks(a, names, db.tags)
  {
    var tagIds := UpsertAll(db, names);
    NewLinksOfIds(a, names, tagIds, db.tags);

    // The interleaved request: its rows land between the read and the insert.
    var raced := RacedIds(names, tagIds, racing);
    RacedWithin(a, tagIds, raced, db.tags);
    db.LinkConcurrently(a, raced);

    r := InsertLinks(db, a, tagIds);
  }

  /** The get-or-create loop: one tag row per name, in order. */
  method UpsertAll(db: Db, names: seq<string>) returns (ids: seq<TagId>)
    requires db.Valid()
    modifies db
    ensures db.Valid()
    ensures |ids| == |names|
    ensures forall k :: 0 <= k < |names| ==> names[k] in db.tags && ids[k] == db.tags[names[k]]
    ensures forall k :: 0 <= k < |ids| ==> TagIdExists(db.tags, ids[k])
    ensures forall n :: n in old(db.tags) ==> n in db.tags && db.tags[n] == old(db.tags)[n]
    ensures forall n :: n in db.tags <==> n in old(db.tags) || n in names
    ensures db.articles == old(db.articles) && db.users == old(db.users) && db.links == old(db.links)
  {
    ids := [];
    for i := 0 to |names|
      invariant db.Valid()
      invariant |ids| == i
      invariant forall k :: 0 <= k < i ==> names[k] in db.tags && ids[k] == db.tags[names[k]]
      invariant forall n :: n in old(db.tags) ==> n in db.tags && db.tags[n] == old(db.tags)[n]
      invariant forall n :: n in db.tags <==> n in old(db.tags) || n in names[..i]
      invariant db.articles == old(db.articles) && db.users == old(db.users) && db.links == old(db.links)
    {
      var id := db.UpsertTag(names[i]);
      ids := ids + [id];
    }
    assert names[..|names|] == names;
    forall k | 0 <= k < |ids| ensures TagIdExists(db.tags, ids[k]) {
      assert db.tags[names[k]] == ids[k];
    }
  }

  /**
   * The bulk insert of the rows (a, ids[k]) and, when it fails, the row-by-row
   * retry that skips rows already present and stops at any other error.
   */
  method InsertLinks(db: Db, a: ArticleId, ids: seq<TagId>) returns (r: Result<(), DbError>)
    requires db.Valid()
    requires forall k :: 0 <= k < |ids| ==> TagIdExists(db.tags, ids[k])
    modifies db
    ensures db.Valid()
    ensures db.articles == old(db.articles) && db.users == old(db.users)
    ensures db.tags == old(db.tags) && db.nextId == old(db.nextId)
    ensures r.Err? <==> !HasArticle(db.articles, a) && ids != []
    ensures r.Err? ==> r.error == ForeignKeyViolation && db.links == old(db.links)
    ensures r.Ok? ==> db.links == old(db.links) + set k | 0 <= k < |ids| :: (a, ids[k])
  {
    var created := db.CreateLinks(a, ids);
    if created.Ok? {
      return Ok(());
    }
    r := LinkEach(db, a, ids);
  }

  /** The row-by-row retry: rows already present are skipped, any other error stops it. */
  method LinkEach(db: Db, a: ArticleId, ids: seq<TagId>) returns (r: Result<(), DbError>)
    requires db.Valid()
    requires forall k :: 0 <= k < |ids| ==> TagIdExists(db.tags, ids[k])
    modifies db
    ensures db.Valid()
    ensures db.articles == old(db.articles) && db.users == old(db.users)
    ensures db.tags == old(db.tags) && db.nextId == old(db.nextId)
    ensures r.Err? <==> !HasArticle(db.articles, a) && ids != []
    ensures r.Err? ==> r.error == ForeignKeyViolation && db.links == old(db.links)
    ensures r.Ok? ==> db.links == old(db.links) + Pairs(a, ids)
  {
    for i := 0 to |ids|
      invariant db.Valid()
      invariant db.articles == old(db.articles) && db.users == old(db.users)
      invariant db.tags == old(db.tags) && db.nextId == old(db.nextId)
      invariant !HasArticle(db.articles, a) ==> i == 0
      invariant db.links == old(db.links) + Pairs(a, ids[..i])
    {
      PairsSnoc(a, ids[..i], ids[i]);
      assert ids[..i + 1] == ids[..i] + [ids[i]];
      var one := db.CreateLink(a, ids[i]);
      if one.Err? {
        if one.error == UniqueViolation {
          continue;
        }
        return Err(one.error);
      }
    }
    assert ids[..|ids|] == ids;
    return Ok(());
  }

  lemma {:induction false} ToAddNoDups(unique: seq<string>, existing: set<string>)
    requires NoDups(unique)
    ensures NoDups(ToAdd(unique, existing))
  {
    FilterKeepsNoDups(unique, Absent(existing));
  }

  /**
   * After a successful merge every unique name is attached to the article:
   * the names it skipped were attached before, and the rest were linked.
   */
  lemma MergedNamesLinked(tags: map<string, TagId>, links: set<Link>, tags': map<string, TagId>, links': set<Link>,
                          a: ArticleId, tagNames: seq<string>)
    requires forall n :: n in tags ==> n in tags' && tags'[n] == tags[n]
    requires links <= links'
    requires var toAdd := ToAdd(UniqueNames(tagNames), LinkedNames(tags, links, a));
      (forall n :: n in toAdd ==> n in tags') && NewLinks(a, toAdd, tags') <= links'
    ensures forall n :: n in UniqueNames(tagNames) ==> n in LinkedNames(tags', links', a)
  {
    var unique := UniqueNames(tagNames);
    var existing := LinkedNames(tags, links, a);
    var toAdd := ToAdd(unique, existing);
    forall n | n in unique ensures n in LinkedNames(tags', links', a) {
      if n in existing {
        assert (a, tags[n]) in links;
      } else {
        assert n in toAdd;
        assert (a, tags'[n]) in NewLinks(a, toAdd, tags');
      }
    }
  }

  /**
   * A second merge of the same names into the same article finds every name
   * attached already: nothing is left to add, so it reports `added = 0` and
   * writes nothing.
   */
  lemma SecondMergeAddsNothing(tags: map<string, TagId>, links: set<Link>, tags': map<string, TagId>, links': set<Link>,
                               a: ArticleId, tagNames: seq<string>)
    requires forall n :: n in tags ==> n in tags' && tags'[n] == tags[n]
    requires links <= links'
    requires var toAdd := ToAdd(UniqueNames(tagNames), LinkedNames(tags, links, a));
      (forall n :: n in toAdd ==> n in tags') && NewLinks(a, toAdd, tags') <= links'
    ensures ToAdd(UniqueNames(tagNames), LinkedNames(tags', links', a)) == []
  {
    MergedNamesLinked(tags, links, tags', links', a, tagNames);
    FilterEmpty(UniqueNames(tagNames), Absent(LinkedNames(tags', links', a)));
  }

  /** Distinct names with distinct ids give as many links as names. */
  lemma {:induction false} NewLinksCount(a: ArticleId, names: seq<string>, tags: map<string, TagId>)
    requires NoDups(names)
    requires forall n :: n in names ==> n in tags
    requires forall n, m :: n in tags && m in tags && n != m ==> tags[n] != tags[m]
    ensures |NewLinks(a, names, tags)| == |names|
  {
    if names != [] {
      var init, last := names[..|names| - 1], names[|names| - 1];
      assert names == init + [last];
      NewLinksCount(a, init, tags);
      assert NewLinks(a, names, tags) == NewLinks(a, init, tags) + {(a, tags[last])};
      assert (a, tags[last]) !in NewLinks(a, init, tags);
    }
  }

  /**
   * The article gains exactly as many links as names it did not have: names
   * not attached before map to rows absent before (an existing tag that was
   * not linked, or a tag created with a fresh id).
   */
  lemma AddedIsGrowth(tags: map<string, TagId>, links: set<Link>, tags': map<string, TagId>, a: ArticleId,
                      names: seq<string>)
    requires NoDups(names)
    requires forall n :: n in names ==> n in tags' && n !in LinkedNames(tags, links, a)
    requires forall n :: n in tags ==> n in tags' && tags'[n] == tags[n]
    requires forall n, m :: n in tags' && m in tags' && n != m ==> tags'[n] != tags'[m]
    requires forall l :: l in links ==> TagIdExists(tags, l.1)
    ensures LinkCount(links + NewLinks(a, names, tags'), a) == LinkCount(links, a) + |names|
    ensures |links + NewLinks(a, names, tags')| == |links| + |names|
  {
    var added := NewLinks(a, names, tags');
    NewLinksCount(a, names, tags');
    forall l | l in added ensures l !in links && l.0 == a {
      var n :| n in names && n in tags' && l == (a, tags'[n]);
      if n in tags {
        assert (a, tags[n]) !in links;
      } else {
        forall m | m in tags ensures tags[m] != l.1 {
          assert m != n && tags'[m] == tags[m];
        }
        assert !TagIdExists(tags, l.1);
      }
    }
    assert LinksOf(links + added, a) == LinksOf(links, a) + added;
    assert LinksOf(links, a) !! added;
    assert links !! added;
  }
}

=== FILE: tags.dfy ===
/**
 * Tag normalisation, the noise filter and tag extraction from an article's
 * title and summary: hashtags, technical English words and long katakana words.
 */
module Tags {
  import opened Wrappers
  import opened Text
  import opened Lists

  /** The characters a tag keeps: \p{L}, \p{N}, `_`, `-`, the prolonged sound mark and the iteration mark. */
  predicate IsTagChar(c: char) {
    IsLetter(c) || IsNumber(c) || c == '_' || c == '-' || c == 'ー' || c == '々'
  }

  predicate AllTagChars(s: string) {
    forall i :: 0 <= i < |s| ==> IsTagChar(s[i])
  }

  /** The half-width and the full-width number sign. */
  predicate IsHashMark(c: char) { c == '#' || c == '＃' }

  predicate AllHashMarks(s: string) {
    forall i :: 0 <= i < |s| ==> IsHashMark(s[i])
  }

  predicate HasAsciiLetter(s: string) {
    exists i | 0 <= i < |s| :: IsAsciiLetter(s[i])
  }

  /** Every character is its own lower-case form. */
  predicate IsLowerForm(s: string) {
    forall i :: 0 <= i < |s| ==> LowerChar(s[i]) == s[i]
  }

  const MaxTagLength: nat := 40

  /** Whether t is one of words. */
  predicate InList(t: string, words: seq<string>)
    decreases |words|
  {
    words != [] && (t == words[0] || InList(t, words[1..]))
  }

  /** The stop words `normalizeTag` rejects. */
  const StopWordList: seq<string> :=
    ["note", "qiita", "zenn", "github", "youtube", "www", "com", "jp", "html", "https", "http"]

  predicate IsStopWord(t: string) { InList(t, StopWordList) }

  /** Generic Japanese words `isNoisyTag` rejects. */
  const JapaneseStopWordList: seq<string> :=
    ["入門", "方法", "完全", "解説", "まとめ", "実装", "設定", "比較", "紹介",
     "最新", "初心者", "勉強", "学習", "記事", "自分", "未来", "会社", "仕事"]

  predicate IsJapaneseStopWord(t: string) { InList(t, JapaneseStopWordList) }

  /** Generic katakana words `isNoisyTag` rejects. */
  const KatakanaStopWordList: seq<string> :=
    ["プロダクト", "アーキテクチャ", "テクノロジー", "コンテンツ",
     "マーケティング", "キャリア", "リーダーシップ", "ミーティング"]

  predicate IsKatakanaStopWord(t: string) { InList(t, KatakanaStopWordList) }

  /** English words kept as keyword tags whenever they occur. */
  const AllowExactList: seq<string> :=
    ["ai", "ml", "llm", "nlp", "rag", "gpt", "openai", "langchain", "nextjs", "next-auth",
     "nextauth", "prisma", "typescript", "javascript", "react", "node", "sql", "postgres",
     "sqlite", "docker", "kubernetes", "aws", "gcp", "azure"]

  predicate IsAllowExact(t: string) { InList(t, AllowExactList) }

  /**
   * What a normalised tag looks like: 2 to 40 tag characters, not a stop word,
   * and lower case whenever it holds an ASCII letter.
   */
  predicate IsCanonical(t: string) {
    2 <= |t| <= MaxTagLength && AllTagChars(t) && !IsStopWord(t)
    && (HasAsciiLetter(t) ==> IsLowerForm(t))
  }

  /** `s.replace(/^[#＃]+/u, "")`. */
  function DropLeadingHashes(s: string): (r: string)
    ensures |r| <= |s| && r == s[|s| - |r|..]
    ensures r == [] || !IsHashMark(r[0])
  {
    if |s| > 0 && IsHashMark(s[0]) then DropLeadingHashes(s[1..]) else s
  }

  /** `s.replace(/[#＃]+$/u, "")`. */
  function DropTrailingHashes(s: string): (r: string)
    ensures |r| <= |s| && r == s[..|r|]
    ensures r == [] || !IsHashMark(r[|r| - 1])
  {
    if |s| > 0 && IsHashMark(s[|s| - 1]) then DropTrailingHashes(s[..|s| - 1]) else s
  }

  /** `s.replace(/[^\p{L}\p{N}_\-ー々]/gu, "")`: the tag characters of s, in order. */
  function KeepTagChars(s: string): (r: string)
    ensures |r| <= |s| && AllTagChars(r)
  {
    if s == [] then []
    else (if IsTagChar(s[0]) then [s[0]] else []) + KeepTagChars(s[1..])
  }

  /** Removing the non-tag characters of a string made of tag characters changes nothing. */
  lemma {:induction false} KeepTagCharsAll(s: string)
    requires AllTagChars(s)
    ensures KeepTagChars(s) == s
  {
    if s != [] {
      KeepTagCharsAll(s[1..]);
    }
  }

  /** Lower-cases the whole string when it holds an ASCII letter, as `normalizeTag` does. */
  function Lowered(s: string): (r: string)
    ensures |r| == |s|
    ensures AllTagChars(s) ==> AllTagChars(r)
    ensures HasAsciiLetter(r) <==> HasAsciiLetter(s)
    ensures HasAsciiLetter(r) ==> IsLowerForm(r)
  {
    if HasAsciiLetter(s) then
      var r := ToLower(s);
      forall i | 0 <= i < |r| ensures LowerChar(r[i]) == r[i] {
        LowerCharIdempotent(s[i]);
      }
      var i :| 0 <= i < |s| && IsAsciiLetter(s[i]);
      assert IsAsciiLetter(r[i]);
      r
    else
      s
  }

  /**
   * `normalizeTag`: trim, strip leading and trailing number signs, then finish
   * the candidate that is left.
   */
  function NormalizeTag(raw: string): (r: Option<string>)
    ensures r.Some? ==> IsCanonical(r.value)
    ensures Trim(raw) == [] ==> r.None?
  {
    if raw == [] then None
    else
      var s1 := Trim(raw);
      if s1 == [] then None
      else FinishTag(Trim(DropTrailingHashes(DropLeadingHashes(s1))))
  }

  /**
   * The second half of `normalizeTag`: keep the tag characters, lower-case when
   * an ASCII letter is present, reject what is shorter than 2, cut at 40 and
   * reject the stop words.
   */
  function FinishTag(s2: string): (r: Option<string>)
    ensures r.Some? ==> IsCanonical(r.value)
  {
    if s2 == [] then None
    else
      var s3 := Lowered(KeepTagChars(s2));
      if |s3| < 2 then None
      else
        var s4 := if |s3| > MaxTagLength then s3[..MaxTagLength] else s3;
        assert HasAsciiLetter(s4) ==> HasAsciiLetter(s3);
        if IsStopWord(s4) then None else Some(s4)
  }

  /** A candidate made of tag characters reaches the second half unchanged. */
  lemma NormalizeTagChars(raw: string)
    requires 0 < |raw| && AllTagChars(raw)
    ensures NormalizeTag(raw) == FinishTag(raw)
  {
    TagCharFacts(raw[0]);
    TagCharFacts(raw[|raw| - 1]);
    TrimKeeps(raw);
    NoHashesToDrop(raw);
  }

  /** A well-formed tag candidate normalises to its lower-cased form unless it is a stop word. */
  lemma NormalizeWellFormed(raw: string)
    requires 2 <= |raw| <= MaxTagLength && AllTagChars(raw)
    ensures NormalizeTag(raw) == (if IsStopWord(Lowered(raw)) then None else Some(Lowered(raw)))
  {
    NormalizeTagChars(raw);
    KeepTagCharsAll(raw);
  }

  /** Without an ASCII letter the case of a candidate is kept, non-ASCII capitals included. */
  lemma CaseKeptWithoutAscii(raw: string)
    requires 2 <= |raw| <= MaxTagLength && AllTagChars(raw) && !HasAsciiLetter(raw) && !IsStopWord(raw)
    ensures NormalizeTag(raw) == Some(raw)
  {
    NormalizeWellFormed(raw);
  }

  /** With an ASCII letter the whole candidate is lower-cased. */
  lemma CaseFoldedWithAscii(raw: string)
    requires 2 <= |raw| <= MaxTagLength && AllTagChars(raw) && HasAsciiLetter(raw) && !IsStopWord(ToLower(raw))
    ensures NormalizeTag(raw) == Some(ToLower(raw))
  {
    NormalizeWellFormed(raw);
  }

  /** A candidate longer than 40 characters is cut to its first 40, never to a stop word. */
  lemma NormalizeLong(raw: string)
    requires |raw| > MaxTagLength && AllTagChars(raw)
    ensures NormalizeTag(raw) == Some(Lowered(raw)[..MaxTagLength])
  {
    NormalizeTagChars(raw);
    KeepTagCharsAll(raw);
    StopWordsShort(Lowered(raw)[..MaxTagLength]);
  }

  /** No stop word is longer than 7 characters. */
  lemma StopWordsShort(t: string)
    requires |t| > 7
    ensures !IsStopWord(t)
  {
    assert AllShorter(StopWordList, 8);
    ShortListMisses(t, StopWordList);
  }

  /** Every word is shorter than n characters. */
  predicate AllShorter(words: seq<string>, n: nat)
    decreases |words|
  {
    words == [] || (|words[0]| < n && AllShorter(words[1..], n))
  }

  lemma {:induction false} ShortListMisses(t: string, words: seq<string>)
    requires AllShorter(words, |t|)
    ensures !InList(t, words)
    decreases |words|
  {
    if words != [] {
      ShortListMisses(t, words[1..]);
    }
  }

  /** No word starts with the character c. */
  predicate NoneStartsWith(words: seq<string>, c: char)
    decreases |words|
  {
    words == [] || ((words[0] == [] || words[0][0] != c) && NoneStartsWith(words[1..], c))
  }

  lemma {:induction false} InitialMisses(t: string, words: seq<string>)
    requires t != [] && NoneStartsWith(words, t[0])
    ensures !InList(t, words)
    decreases |words|
  {
    if words != [] {
      InitialMisses(t, words[1..]);
    }
  }

  /** A string already in lower-case form is left alone by `Lowered`. */
  lemma LoweredLowerForm(t: string)
    requires HasAsciiLetter(t) ==> IsLowerForm(t)
    ensures Lowered(t) == t
  {
    if HasAsciiLetter(t) {
      assert ToLower(t) == t;
    }
  }

  /** A normalised tag is its own finished form. */
  lemma FinishCanonical(t: string)
    requires IsCanonical(t)
    ensures FinishTag(t) == Some(t)
  {
    KeepTagCharsAll(t);
    LoweredLowerForm(t);
  }

  /** A normalised tag normalises to itself. */
  lemma CanonicalIsFixedPoint(t: string)
    requires IsCanonical(t)
    ensures NormalizeTag(t) == Some(t)
  {
    NormalizeTagChars(t);
    FinishCanonical(t);
  }

  /** Normalising twice is normalising once. */
  lemma NormalizeIdempotent(raw: string)
    ensures NormalizeTag(raw).Some? ==> NormalizeTag(NormalizeTag(raw).value) == NormalizeTag(raw)
  {
    if NormalizeTag(raw).Some? {
      CanonicalIsFixedPoint(NormalizeTag(raw).value);
    }
  }

  /** Number signs around a normalised tag are stripped: `#ai#` and `＃ai` both give `ai`. */
  lemma NormalizeStripsHashes(lead: string, t: string, trail: string)
    requires AllHashMarks(lead) && AllHashMarks(trail) && IsCanonical(t)
    ensures NormalizeTag(lead + t + trail) == Some(t)
  {
    StripAround(lead, t, trail);
    FinishCanonical(t);
  }

  lemma StripAround(lead: string, t: string, trail: string)
    requires AllHashMarks(lead) && AllHashMarks(trail) && 0 < |t| && AllTagChars(t)
    ensures var s := lead + t + trail;
      Trim(s) == s && Trim(DropTrailingHashes(DropLeadingHashes(s))) == t
  {
    PaddedTagTrimmed(lead, t, trail);
    PaddedTagStripped(lead, t, trail);
  }

  lemma PaddedTagTrimmed(lead: string, t: string, trail: string)
    requires AllHashMarks(lead) && AllHashMarks(trail) && 0 < |t| && AllTagChars(t)
    ensures Trim(lead + t + trail) == lead + t + trail
  {
    var s := lead + t + trail;
    TagCharFacts(t[0]);
    TagCharFacts(t[|t| - 1]);
    assert !IsSpace(s[0]) by {
      assert s[0] == (if lead == [] then t[0] else lead[0]);
    }
    assert !IsSpace(s[|s| - 1]) by {
      assert s[|s| - 1] == (if trail == [] then t[|t| - 1] else trail[|trail| - 1]);
    }
    TrimKeeps(s);
  }

  lemma PaddedTagStripped(lead: string, t: string, trail: string)
    requires AllHashMarks(lead) && AllHashMarks(trail) && 0 < |t| && AllTagChars(t)
    ensures Trim(DropTrailingHashes(DropLeadingHashes(lead + t + trail))) == t
  {
    TagCharFacts(t[0]);
    TagCharFacts(t[|t| - 1]);
    DropLeadingRun(lead, t + trail);
    assert lead + t + trail == lead + (t + trail);
    DropTrailingRun(t, trail);
    TrimKeeps(t);
  }

  lemma NoHashesToDrop(s: string)
    requires 0 < |s| && AllTagChars(s)
    ensures Trim(DropTrailingHashes(DropLeadingHashes(s))) == s
  {
    TagCharFacts(s[0]);
    TagCharFacts(s[|s| - 1]);
    assert DropLeadingHashes(s) == s;
    assert DropTrailingHashes(s) == s;
    TrimKeeps(s);
  }

  /** A tag character is neither white space, nor a number sign, nor `/` or `:`. */
  lemma TagCharFacts(c: char)
    requires IsTagChar(c)
    ensures !IsSpace(c) && !IsHashMark(c) && c != '/' && c != ':'
  {
  }

  lemma {:induction false} DropLeadingRun(h: string, rest: string)
    requires AllHashMarks(h) && (rest == [] || !IsHashMark(rest[0]))
    ensures DropLeadingHashes(h + rest) == rest
  {
    if h != [] {
      assert (h + rest)[1..] == h[1..] + rest;
      DropLeadingRun(h[1..], rest);
    }
  }

  lemma {:induction false} DropTrailingRun(rest: string, h: string)
    requires AllHashMarks(h) && (rest == [] || !IsHashMark(rest[|rest| - 1]))
    ensures DropTrailingHashes(rest + h) == rest
  {
    if h != [] {
      assert (rest + h)[..|rest + h| - 1] == rest + h[..|h| - 1];
      DropTrailingRun(rest, h[..|h| - 1]);
    } else {
      assert rest + h == rest;
    }
  }

  /**
   * `isNoisyTag`: the name does not normalise, or its normal form is all digits,
   * or the raw name holds `/` or `:`, or the normal form is a generic Japanese word.
   * A blank name and a name that looks like a path or a url are always noise;
   * a clean name has a normal form that is not a number.
   */
  predicate IsNoisyTag(name: string): (noisy: bool)
    ensures Trim(name) == [] || '/' in name || ':' in name ==> noisy
    ensures !noisy ==> NormalizeTag(name).Some? && !AllAsciiDigits(NormalizeTag(name).value)
  {
    match NormalizeTag(name)
    case None => true
    case Some(n) =>
      AllAsciiDigits(n) || |n| < 2 || '/' in name || ':' in name
      || IsJapaneseStopWord(n) || IsKatakanaStopWord(n)
  }

  predicate IsClean(name: string) { !IsNoisyTag(name) }

  /**
   * For a normalised tag the noise test comes down to three things: all digits,
   * a generic Japanese word, a generic katakana word.
   */
  lemma NoisyCanonical(t: string)
    requires IsCanonical(t)
    ensures IsNoisyTag(t) <==> AllAsciiDigits(t) || IsJapaneseStopWord(t) || IsKatakanaStopWord(t)
  {
    CanonicalIsFixedPoint(t);
    NoSlashOrColon(t);
  }

  lemma NoSlashOrColon(t: string)
    requires AllTagChars(t)
    ensures '/' !in t && ':' !in t
  {
    forall i | 0 <= i < |t| ensures t[i] != '/' && t[i] != ':' {
      TagCharFacts(t[i]);
    }
  }

  /** Whether a raw name is noisy depends on its normal form alone, unless it holds `/` or `:`. */
  lemma NoisyByNormalForm(name: string)
    requires NormalizeTag(name).Some? && '/' !in name && ':' !in name
    ensures IsNoisyTag(name) == IsNoisyTag(NormalizeTag(name).value)
  {
    NoisyCanonical(NormalizeTag(name).value);
  }

  /** The length of the run of characters satisfying p at the start of s, at most max. */
  function RunLength(s: string, p: char -> bool, max: nat): (n: nat)
    ensures n <= |s| && n <= max
    ensures forall i :: 0 <= i < n ==> p(s[i])
    ensures n < |s| && n < max ==> !p(s[n])
  {
    if s == [] || max == 0 || !p(s[0]) then 0 else 1 + RunLength(s[1..], p, max - 1)
  }

  /**
   * The first groups of `text.matchAll(/[#＃]([\p{L}\p{N}_\-ー々]{2,40})/gu)`:
   * a number sign followed by 2 to 40 tag characters, the run taken greedily,
   * scanning on from the end of each match.
   */
  function HashtagMatches(text: string): (ms: seq<string>)
    ensures forall k :: 0 <= k < |ms| ==> 2 <= |ms[k]| <= MaxTagLength && AllTagChars(ms[k])
  {
    if |text| < 3 then []
    else if IsHashMark(text[0]) then
      var n := RunLength(text[1..], IsTagChar, MaxTagLength);
      if n >= 2 then [text[1..1 + n]] + HashtagMatches(text[1 + n..])
      else HashtagMatches(text[1..])
    else HashtagMatches(text[1..])
  }

  function NormalizeOne(m: string): (r: seq<string>)
    ensures r == [] || (|r| == 1 && IsCanonical(r[0]))
  {
    match NormalizeTag(m)
    case Some(n) => [n]
    case None => []
  }

  /** The normal forms of the matches that have one, in match order. */
  function NormalizedAll(ms: seq<string>): (r: seq<string>)
    ensures |r| <= |ms|
    ensures forall k :: 0 <= k < |r| ==> IsCanonical(r[k])
  {
    if ms == [] then []
    else
      var init, last := NormalizedAll(ms[..|ms| - 1]), NormalizeOne(ms[|ms| - 1]);
      AllAppend(init, last, IsCanonical);
      init + last
  }

  lemma NormalizedAllSnoc(ms: seq<string>, i: nat)
    requires i < |ms|
    ensures NormalizedAll(ms[..i + 1]) == NormalizedAll(ms[..i]) + NormalizeOne(ms[i])
  {
    assert ms[..i + 1][..i] == ms[..i];
  }

  /** What `extractHashtags` returns. */
  function Hashtags(text: string): seq<string> {
    if text == [] then [] else NormalizedAll(HashtagMatches(text))
  }

  /**
   * The loop `for (const m of matches) { const n = normalizeTag(m); if (n) out.push(n); }`
   * shared by the hashtag and the katakana scans.
   */
  method NormalizeMatches(ms: seq<string>) returns (out: seq<string>)
    ensures out == NormalizedAll(ms)
    ensures forall k :: 0 <= k < |out| ==> IsCanonical(out[k])
  {
    out := [];
    for i := 0 to |ms|
      invariant out == NormalizedAll(ms[..i])
    {
      NormalizedAllSnoc(ms, i);
      var n := NormalizeTag(ms[i]);
      if n.Some? {
        out := out + [n.value];
      }
    }
    assert ms[..|ms|] == ms;
  }

  /** `extractHashtags`: the normal form of every hashtag body, in text order, repetitions kept. */
  method ExtractHashtags(text: string) returns (out: seq<string>)
    ensures out == Hashtags(text)
    ensures forall k :: 0 <= k < |out| ==> IsCanonical(out[k])
  {
    if text == [] {
      return [];
    }
    out := NormalizeMatches(HashtagMatches(text));
  }

  /** A hashtag body is a well-formed candidate, so its tag is its lower-cased form. */
  lemma HashtagBodyTag(body: string)
    requires 2 <= |body| <= MaxTagLength && AllTagChars(body) && !IsStopWord(Lowered(body))
    ensures NormalizeOne(body) == [Lowered(body)]
  {
    NormalizeWellFormed(body);
  }

  /** The tail characters of the English word pattern `[A-Za-z0-9+._-]`. */
  predicate IsWordChar(c: char) {
    IsAsciiLetter(c) || IsAsciiDigit(c) || c == '+' || c == '.' || c == '_' || c == '-'
  }

  /**
   * `text.matchAll(/[A-Za-z][A-Za-z0-9+._-]{2,40}/g)`: an ASCII letter followed
   * by 2 to 40 word characters, the run taken greedily.
   */
  function EnglishMatches(text: string): (ms: seq<string>)
    ensures forall k :: 0 <= k < |ms| ==>
      3 <= |ms[k]| <= MaxTagLength + 1 && IsAsciiLetter(ms[k][0])
      && forall i :: 0 <= i < |ms[k]| ==> IsWordChar(ms[k][i])
  {
    if |text| < 3 then []
    else if IsAsciiLetter(text[0]) then
      var n := RunLength(text[1..], IsWordChar, MaxTagLength);
      if n >= 2 then [text[..1 + n]] + EnglishMatches(text[1 + n..])
      else EnglishMatches(text[1..])
    else EnglishMatches(text[1..])
  }

  /** The katakana of the pattern `[ァ-ヶー]`. */
  predicate IsKatakana(c: char) { ('ァ' <= c <= 'ヶ') || c == 'ー' }

  /** `text.matchAll(/[ァ-ヶー]{4,20}/g)`. */
  function KatakanaMatches(text: string): (ms: seq<string>)
    ensures forall k :: 0 <= k < |ms| ==>
      4 <= |ms[k]| <= 20 && forall i :: 0 <= i < |ms[k]| ==> IsKatakana(ms[k][i])
  {
    if |text| < 4 then []
    else
      var n := RunLength(text, IsKatakana, 20);
      if n >= 4 then [text[..n]] + KatakanaMatches(text[n..])
      else KatakanaMatches(text[1..])
  }

  /** `/^(gpt|claude|gemini)[-_]?\d+/i`. */
  predicate IsModelVersion(raw: string) {
    VersionAfterAny(ToLower(raw), ModelNames)
  }

  const ModelNames: seq<string> := ["gpt", "claude", "gemini"]

  predicate VersionAfterAny(l: string, names: seq<string>)
    decreases |names|
  {
    names != [] && (VersionAfter(l, names[0]) || VersionAfterAny(l, names[1..]))
  }

  /** l starts with name, then an optional `-` or `_`, then a digit. */
  predicate VersionAfter(l: string, name: string) {
    StartsWith(l, name)
    && var rest := l[|name|..];
       (|rest| > 0 && IsAsciiDigit(rest[0]))
       || (|rest| > 1 && (rest[0] == '-' || rest[0] == '_') && IsAsciiDigit(rest[1]))
  }

  /** `/(ai|llm|rag|auth|oauth|prisma|react|next)/i`. */
  predicate MentionsTechWord(raw: string) {
    ContainsAny(ToLower(raw), TechWords)
  }

  const TechWords: seq<string> := ["ai", "llm", "rag", "auth", "oauth", "prisma", "react", "next"]

  predicate ContainsAny(l: string, words: seq<string>)
    decreases |words|
  {
    words != [] && (Contains(l, words[0]) || ContainsAny(l, words[1..]))
  }

  /**
   * What one English match pushes: its normal form once when allow-listed,
   * otherwise once for a model version and once more for a technical word.
   */
  function EnglishPush(raw: string): (r: seq<string>)
    ensures |r| <= 2
    ensures forall k :: 0 <= k < |r| ==> NormalizeTag(raw) == Some(r[k])
  {
    match NormalizeTag(raw)
    case None => []
    case Some(n) => PushFor(raw, n)
  }

  /** What a match with normal form n pushes. */
  function PushFor(raw: string, n: string): (r: seq<string>)
    ensures |r| <= 2 && forall k :: 0 <= k < |r| ==> r[k] == n
  {
    if IsAllowExact(n) then [n]
    else (if IsModelVersion(raw) then [n] else []) + (if MentionsTechWord(raw) then [n] else [])
  }

  function EnglishPushes(ms: seq<string>): (r: seq<string>)
    ensures forall k :: 0 <= k < |r| ==> IsCanonical(r[k])
  {
    if ms == [] then [] else EnglishPushes(ms[..|ms| - 1]) + EnglishPush(ms[|ms| - 1])
  }

  /** Everything `extractKeywordTags` pushes, before noise filtering and de-duplication. */
  function KeywordCandidates(text: string): seq<string> {
    EnglishPushes(EnglishMatches(text)) + NormalizedAll(KatakanaMatches(text))
  }

  /** What `extractKeywordTags` returns. */
  function KeywordTags(text: string): (r: seq<string>)
    ensures NoDups(r)
    ensures forall k :: 0 <= k < |r| ==> IsClean(r[k]) && IsCanonical(r[k])
  {
    if text == [] then [] else Dedupe(Filter(KeywordCandidates(text), IsClean))
  }

  /** The loop over the English matches, pushing what `EnglishPush` says for each. */
  method PushEnglishMatches(ms: seq<string>) returns (out: seq<string>)
    ensures out == EnglishPushes(ms)
  {
    out := [];
    for i := 0 to |ms|
      invariant out == EnglishPushes(ms[..i])
    {
      assert ms[..i + 1][..i] == ms[..i];
      out := PushEnglishMatch(out, ms[i]);
    }
    assert ms[..|ms|] == ms;
  }

  /** One turn of the loop over the English matches: skip a match without a normal form. */
  method PushEnglishMatch(before: seq<string>, raw: string) returns (out: seq<string>)
    ensures out == before + EnglishPush(raw)
  {
    var n := NormalizeTag(raw);
    if n.None? {
      return before;
    }
    var pushed := PushNormalForm(raw, n.value);
    out := before + pushed;
  }

  /** The pushes for a match whose normal form is n. */
  method PushNormalForm(raw: string, n: string) returns (pushed: seq<string>)
    ensures pushed == PushFor(raw, n)
  {
    pushed := [];
    if IsAllowExact(n) {
      pushed := pushed + [n];
      return;
    }
    if IsModelVersion(raw) {
      pushed := pushed + [n];
    }
    if MentionsTechWord(raw) {
      pushed := pushed + [n];
    }
  }

  /** `extractKeywordTags`: technical English words and long katakana words, clean and distinct. */
  method ExtractKeywordTags(text: string) returns (tags: seq<string>)
    ensures tags == KeywordTags(text)
    ensures NoDups(tags)
    ensures forall k :: 0 <= k < |tags| ==> IsClean(tags[k]) && IsCanonical(tags[k])
  {
    if text == [] {
      return [];
    }
    var en := PushEnglishMatches(EnglishMatches(text));
    var kata := NormalizeMatches(KatakanaMatches(text));
    tags := Dedupe(Filter(en + kata, IsClean));
  }

  /** `[title ?? "", summary ?? ""].filter(Boolean).join(" ")`. */
  function SourceText(title: string, summary: Option<string>): (text: string)
    ensures title == [] ==> text == summary.GetOr("")
    ensures summary.GetOr("") == [] ==> text == title
  {
    var s := summary.GetOr("");
    if title == [] then s
    else if s == [] then title
    else title + " " + s
  }

  /** What `extractArticleTags` returns. */
  function ArticleTags(title: string, summary: Option<string>): seq<string> {
    var text := SourceText(title, summary);
    Take(Filter(Dedupe(Hashtags(text) + KeywordTags(text)), IsClean), 20)
  }

  /**
   * `extractArticleTags`: at most 20 distinct clean tags, every one a hashtag or
   * a keyword of the title and summary, the hashtags first.
   */
  method ExtractArticleTags(title: string, summary: Option<string>, url: string) returns (tags: seq<string>)
    ensures tags == ArticleTags(title, summary)
    ensures |tags| <= 20 && NoDups(tags)
    ensures forall k :: 0 <= k < |tags| ==> IsClean(tags[k]) && IsCanonical(tags[k])
    ensures forall k :: 0 <= k < |tags| ==>
      tags[k] in Hashtags(SourceText(title, summary)) || tags[k] in KeywordTags(SourceText(title, summary))
    ensures forall i, j :: 0 <= i < j < |tags| && tags[j] in Hashtags(SourceText(title, summary)) ==>
      tags[i] in Hashtags(SourceText(title, summary))
  {
    var text := SourceText(title, summary);
    var h := ExtractHashtags(text);
    var kw := ExtractKeywordTags(text);
    tags := Take(Filter(Dedupe(h + kw), IsClean), 20);
    MergedTags(h, kw, tags);
  }

  /** Merging canonical hashtags h with canonical keywords kw gives at most 20 distinct clean tags, h's first. */
  lemma MergedTags(h: seq<string>, kw: seq<string>, r: seq<string>)
    requires forall x :: x in h ==> IsCanonical(x)
    requires forall x :: x in kw ==> IsCanonical(x)
    requires r == Take(Filter(Dedupe(h + kw), IsClean), 20)
    ensures |r| <= 20 && NoDups(r)
    ensures forall k :: 0 <= k < |r| ==> IsClean(r[k]) && IsCanonical(r[k]) && (r[k] in h || r[k] in kw)
    ensures forall i, j :: 0 <= i < j < |r| && r[j] in h ==> r[i] in h
  {
    MergeFacts(h, kw, IsClean, 20);
    HashtagsFirst(h, kw, IsClean, 20);
  }

  /** De-duplicating, filtering and cutting `hashtags + keywords` never puts a keyword before a hashtag. */
  lemma HashtagsFirst<T>(h: seq<T>, kw: seq<T>, p: T -> bool, n: nat)
    ensures var r := Take(Filter(Dedupe(h + kw), p), n);
      forall i, j :: 0 <= i < j < |r| && r[j] in h ==> r[i] in h
  {
    DedupeAppend(h, kw);
    FrontFirst(Dedupe(h + kw), Dedupe(h), h, p, n);
  }

  /**
   * When d starts with dh, whose elements lie in h, and continues with
   * elements outside h, any prefix of a filter of d lists h's members first.
   */
  lemma FrontFirst<T>(d: seq<T>, dh: seq<T>, h: seq<T>, p: T -> bool, n: nat)
    requires |dh| <= |d| && d[..|dh|] == dh
    requires forall k :: 0 <= k < |dh| ==> dh[k] in h
    requires forall k :: |dh| <= k < |d| ==> d[k] !in h
    ensures var r := Take(Filter(d, p), n);
      forall i, j :: 0 <= i < j < |r| && r[j] in h ==> r[i] in h
  {
    var rest := d[|dh|..];
    assert d == dh + rest;
    FilterAppend(dh, rest, p);
    FilteredFrom(dh, h, p);
    RestOutside(d, dh, h, p);
    InFrontFirst(Filter(dh, p), Filter(rest, p), h, n);
  }

  lemma FilteredFrom<T>(dh: seq<T>, h: seq<T>, p: T -> bool)
    requires forall k :: 0 <= k < |dh| ==> dh[k] in h
    ensures forall k :: 0 <= k < |Filter(dh, p)| ==> Filter(dh, p)[k] in h
  {
  }

  lemma RestOutside<T>(d: seq<T>, dh: seq<T>, h: seq<T>, p: T -> bool)
    requires |dh| <= |d|
    requires forall k :: |dh| <= k < |d| ==> d[k] !in h
    ensures forall k :: 0 <= k < |Filter(d[|dh|..], p)| ==> Filter(d[|dh|..], p)[k] !in h
  {
    var rest := d[|dh|..];
    forall k | 0 <= k < |Filter(rest, p)| ensures Filter(rest, p)[k] !in h {
      var m :| 0 <= m < |rest| && rest[m] == Filter(rest, p)[k];
      assert d[|dh| + m] == rest[m];
    }
  }

  /** In a prefix of `front + back`, where front lies in h and back outside it, h's members come first. */
  lemma InFrontFirst<T>(front: seq<T>, back: seq<T>, h: seq<T>, n: nat)
    requires forall k :: 0 <= k < |front| ==> front[k] in h
    requires forall k :: 0 <= k < |back| ==> back[k] !in h
    ensures var r := Take(front + back, n);
      forall i, j :: 0 <= i < j < |r| && r[j] in h ==> r[i] in h
  {
    var r := Take(front + back, n);
    forall j | |front| <= j < |r| ensures r[j] !in h {
      assert r[j] == back[j - |front|];
    }
    forall i | 0 <= i < |r| && i < |front| ensures r[i] in h {
      assert r[i] == front[i];
    }
  }

  /** `A.I` in a title is one English match. */
  lemma DottedAcronymMatches()
    ensures EnglishMatches("A.I") == ["A.I"]
  {
    assert RunLength(".I", IsWordChar, MaxTagLength) == 2;
    assert "A.I"[..3] == "A.I";
  }

  /** The normal form of `A.I` is `ai`: the dot is dropped and the letters lower-cased. */
  lemma DottedAcronymIsAi()
    ensures NormalizeTag("A.I") == Some("ai")
  {
    AiStrips();
    AiFinishes();
  }

  lemma AiStrips()
    ensures Trim("A.I") == "A.I"
    ensures Trim(DropTrailingHashes(DropLeadingHashes("A.I"))) == "A.I"
  {
    AiTrims();
    AiHasNoHashes();
  }

  lemma AiTrims()
    ensures Trim("A.I") == "A.I"
  {
    var a := "A.I";
    assert a[0] == 'A' && a[|a| - 1] == 'I';
    TrimKeeps(a);
  }

  lemma AiHasNoHashes()
    ensures DropTrailingHashes(DropLeadingHashes("A.I")) == "A.I"
  {
    var a := "A.I";
    assert a[0] == 'A' && a[|a| - 1] == 'I';
    HashesKept(a);
  }

  /** A string that neither starts nor ends with a hash mark loses none. */
  lemma HashesKept(s: string)
    requires s != [] && !IsHashMark(s[0]) && !IsHashMark(s[|s| - 1])
    ensures DropTrailingHashes(DropLeadingHashes(s)) == s
  {
  }

  lemma AiFinishes()
    ensures FinishTag("A.I") == Some("ai")
  {
    AiKeeps();
    AiLowers();
    AiNotStopWord();
  }

  lemma AiKeeps()
    ensures KeepTagChars("A.I") == "AI"
  {
  }

  lemma AiLowers()
    ensures Lowered("AI") == "ai"
  {
    assert IsAsciiLetter("AI"[0]);
  }

  lemma AiNotStopWord()
    ensures !IsStopWord("ai")
  {
    assert NoneStartsWith(StopWordList, 'a');
    InitialMisses("ai", StopWordList);
  }

  /** So `A.I` pushes the allow-listed keyword `ai`. */
  lemma DottedAcronymPushesAi()
    ensures EnglishPush("A.I") == ["ai"]
  {
    DottedAcronymIsAi();
    assert IsAllowExact("ai");
  }
}

=== FILE: tags_auto_route.dfy ===
/**
 * `POST /api/tags/auto`: tags the caller's untagged articles in bulk. The
 * 200 newest articles without any tag are each run through the article-tag
 * extraction and merged; the reply counts the articles processed, the links
 * added and the caller's articles still untagged afterwards.
 */
module TagsAutoRoute {
  import opened Wrappers
  import opened Lists
  import opened Database
  import Tags
  import opened Tagging
  import ArticlesRoute

  /** `take: 200`. */
  const MaxTargets: nat := 200

  datatype AutoResponse =
    | Unauthorized
    | Done(processed: nat, addedTags: nat, remaining: nat)
    | ServerError(error: DbError)

  /** `where: { userId, tags: { none: {} } }`. */
  predicate UntaggedBy(links: set<Link>, u: UserId, a: DbArticle) {
    a.userId == u && !IsTagged(links, a.id)
  }

  function UntaggedOf(articles: seq<DbArticle>, links: set<Link>, u: UserId): (r: seq<DbArticle>)
    ensures forall k :: 0 <= k < |r| ==> r[k] in articles && r[k].userId == u && !IsTagged(links, r[k].id)
    ensures forall i :: 0 <= i < |articles| && UntaggedBy(links, u, articles[i]) ==> articles[i] in r
    ensures multiset(r) <= multiset(articles)
  {
    Filter(articles, a => UntaggedBy(links, u, a))
  }

  /**
   * The targets: the caller's untagged articles, newest first, at most 200,
   * each row at most once; every untagged article left out is no newer than
   * every target.
   */
  function AutoTargets(articles: seq<DbArticle>, links: set<Link>, u: UserId): (r: seq<DbArticle>)
    ensures |r| == Min(MaxTargets, |UntaggedOf(articles, links, u)|)
    ensures SortedDesc(r, CreatedKey)
    ensures forall k :: 0 <= k < |r| ==> r[k] in articles && r[k].userId == u && !IsTagged(links, r[k].id)
    ensures forall x :: x in UntaggedOf(articles, links, u) && x !in r ==> forall k :: 0 <= k < |r| ==> r[k].createdAt >= x.createdAt
    ensures multiset(r) <= multiset(articles)
    ensures UniqueIds(articles) ==> UniqueIds(r)
  {
    var r := TopDesc(UntaggedOf(articles, links, u), CreatedKey, MaxTargets);
    SubMultisetKeepsUnique(r, articles, IdOf);
    r
  }

  /** Article x is one of the targets. */
  predicate IsTarget(targets: seq<DbArticle>, x: ArticleId) {
    exists k | 0 <= k < |targets| :: targets[k].id == x
  }

  /** The tags auto-tagging extracts for an article. */
  function Extracted(a: DbArticle): seq<string> {
    Tags.ArticleTags(a.title, a.summary)
  }

  /**
   * The route handler. `session` is the signed-in user's id, if any; the
   * merges run without interleaving requests. When it completes, every
   * target carries every tag extracted from it, and a target from which
   * nothing was extracted is still untagged.
   */
  method AutoTag(db: Db, session: Option<UserId>) returns (r: AutoResponse)
    requires db.Valid()
    modifies db
    ensures db.Valid()
    ensures r == Unauthorized <==> session.None?
    ensures session.None? ==> db.links == old(db.links) && db.tags == old(db.tags)
    ensures db.articles == old(db.articles) && db.users == old(db.users)
    ensures old(db.links) <= db.links
    ensures forall n :: n in old(db.tags) ==> n in db.tags && db.tags[n] == old(db.tags)[n]
    ensures session.Some? ==> forall l :: l in db.links && l !in old(db.links) ==>
      IsTarget(AutoTargets(old(db.articles), old(db.links), session.value), l.0)
    ensures session.Some? && r.Done? ==> r.processed == |AutoTargets(old(db.articles), old(db.links), session.value)|
    ensures r.Done? ==> r.addedTags == |db.links| - |old(db.links)|
    ensures session.Some? && r.Done? ==> r.remaining == |UntaggedOf(db.articles, db.links, session.value)|
    ensures session.Some? && r.Done? ==>
      forall a :: a in AutoTargets(old(db.articles), old(db.links), session.value) ==>
        forall n :: n in Extracted(a) ==> n in LinkedNames(db.tags, db.links, a.id)
    ensures session.Some? && r.Done? ==>
      forall a :: a in AutoTargets(old(db.articles), old(db.links), session.value) && Extracted(a) == [] ==>
        !IsTagged(db.links, a.id)
  {
    if session.None? {
      return Unauthorized;
    }
    var userId := session.value;
    var targets := AutoTargets(db.articles, db.links, userId);
    var merged := TagAll(db, targets);
    if merged.Err? {
      return ServerError(merged.error);
    }
    AutoTagDone(old(db.articles), old(db.links), db.tags, db.links, targets, Extracted);
    var remaining := |UntaggedOf(db.articles, db.links, userId)|;
    return Done(|targets|, merged.value, remaining);
  }

  /**
   * The loop over the targets, in order, stopping at the first failed
   * merge. Only targets gain links; when every merge succeeds, each target
   * carries its extracted tags, each new link belongs to a target that had
   * some, and the result counts the links added.
   */
  method TagAll(db: Db, targets: seq<DbArticle>) returns (res: Result<nat, DbError>)
    requires db.Valid()
    modifies db
    ensures db.Valid()
    ensures db.articles == old(db.articles) && db.users == old(db.users)
    ensures old(db.links) <= db.links
    ensures forall n :: n in old(db.tags) ==> n in db.tags && db.tags[n] == old(db.tags)[n]
    ensures forall l :: l in db.links && l !in old(db.links) ==> IsTarget(targets, l.0)
    ensures res.Ok? ==> forall l :: l in db.links && l !in old(db.links) ==> NewLinkOf(targets, l.0, Extracted)
    ensures res.Ok? ==> forall k :: 0 <= k < |targets| ==> Carries(db.tags, db.links, targets[k], Extracted)
    ensures res.Ok? ==> res.value == |db.links| - |old(db.links)|
  {
    ghost var tagsOld, linksOld := db.tags, db.links;
    var totalAdded: nat := 0;
    for i := 0 to |targets|
      invariant db.Valid()
      invariant db.articles == old(db.articles) && db.users == old(db.users)
      invariant Progress(tagsOld, linksOld, db.tags, db.links, targets[..i], Extracted)
      invariant totalAdded == |db.links| - |linksOld|
    {
      var one := TagStep(db, targets, i, tagsOld, linksOld);
      if one.Err? {
        return Err(one.error);
      }
      totalAdded := totalAdded + one.value.added;
    }
    assert targets[..|targets|] == targets;
    NewLinksAreTargets(targets, old(db.links), db.links, Extracted);
    return Ok(totalAdded);
  }

  /** Iteration i of TagAll: keeps the loop's invariant, or reports the failure with only targets linked. */
  method TagStep(db: Db, targets: seq<DbArticle>, i: nat, ghost tagsOld: map<string, TagId>, ghost linksOld: set<Link>)
    returns (res: Result<MergeResult, DbError>)
    requires db.Valid() && i < |targets|
    requires Progress(tagsOld, linksOld, db.tags, db.links, targets[..i], Extracted)
    modifies db
    ensures db.Valid()
    ensures db.articles == old(db.articles) && db.users == old(db.users)
    ensures res.Err? ==> linksOld <= db.links && TagsKept(tagsOld, db.tags)
    ensures res.Err? ==> forall l :: l in db.links && l !in linksOld ==> IsTarget(targets, l.0)
    ensures res.Ok? ==> Progress(tagsOld, linksOld, db.tags, db.links, targets[..i + 1], Extracted)
    ensures res.Ok? ==> |db.links| == |old(db.links)| + res.value.added
  {
    ghost var tags0, links0 := db.tags, db.links;
    res := TagOne(db, targets[i]);
    if res.Err? {
      NewLinksTargeted(targets, i, linksOld, links0, db.links, Extracted);
    } else {
      MergeStep(targets, i, tagsOld, linksOld, tags0, links0, db.tags, db.links, Extracted);
    }
  }

  /** Tags keep their ids. */
  ghost predicate TagsKept(tags0: map<string, TagId>, tags1: map<string, TagId>) {
    forall n :: n in tags0 ==> n in tags1 && tags1[n] == tags0[n]
  }

  /**
   * TagAll's invariant after the targets in `done`: links only grew, tags
   * kept their ids, each new link belongs to a done target that had tags,
   * and each done target carries its tags.
   */
  ghost predicate Progress(tagsOld: map<string, TagId>, linksOld: set<Link>,
                           tags: map<string, TagId>, links: set<Link>, done: seq<DbArticle>,
                           ex: DbArticle -> seq<string>)
  {
    && linksOld <= links
    && TagsKept(tagsOld, tags)
    && (forall l :: l in links && l !in linksOld ==> NewLinkOf(done, l.0, ex))
    && (forall k :: 0 <= k < |done| ==> Carries(tags, links, done[k], ex))
  }

  /** Every tag `ex` gives for a is linked to it (`ex` is `Extracted` in every use). */
  ghost predicate Carries(tags: map<string, TagId>, links: set<Link>, a: DbArticle, ex: DbArticle -> seq<string>) {
    Covered(tags, links, a.id, ex(a))
  }

  /** Each of `names` is a tag linked to article `id`, checked name by name. */
  ghost predicate Covered(tags: map<string, TagId>, links: set<Link>, id: ArticleId, names: seq<string>)
    decreases |names|
  {
    names == [] || (names[0] in tags && (id, tags[names[0]]) in links && Covered(tags, links, id, names[1..]))
  }

  /** `Covered` says that every name is among the article's linked names. */
  lemma {:induction false} CoveredMeans(tags: map<string, TagId>, links: set<Link>, id: ArticleId, names: seq<string>)
    ensures Covered(tags, links, id, names) <==> forall n :: n in names ==> n in LinkedNames(tags, links, id)
    decreases |names|
  {
    if names != [] {
      CoveredMeans(tags, links, id, names[1..]);
      var linked := LinkedNames(tags, links, id);
      assert names[0] in linked <==> names[0] in tags && (id, tags[names[0]]) in links;
      assert names == [names[0]] + names[1..];
      assert forall n :: n in names <==> n == names[0] || n in names[1..];
    }
  }

  /** Adding tags and links keeps every name covered. */
  lemma {:induction false} CoveredMono(tags0: map<string, TagId>, links0: set<Link>,
                                       tags1: map<string, TagId>, links1: set<Link>, id: ArticleId, names: seq<string>)
    requires forall n :: n in tags0 ==> n in tags1 && tags1[n] == tags0[n]
    requires links0 <= links1
    requires Covered(tags0, links0, id, names)
    ensures Covered(tags1, links1, id, names)
    decreases |names|
  {
    if names != [] {
      CoveredMono(tags0, links0, tags1, links1, id, names[1..]);
    }
  }

  /** Article x got a new link from one of the processed targets, which had something extracted. */
  ghost predicate NewLinkOf(done: seq<DbArticle>, x: ArticleId, ex: DbArticle -> seq<string>) {
    exists k :: 0 <= k < |done| && done[k].id == x && ex(done[k]) != []
  }

  /** Merging target i, which adds links only to itself and only when it has tags, extends the progress to it. */
  lemma MergeStep(targets: seq<DbArticle>, i: nat, tagsOld: map<string, TagId>, linksOld: set<Link>,
                  tags0: map<string, TagId>, links0: set<Link>, tags1: map<string, TagId>, links1: set<Link>,
                  ex: DbArticle -> seq<string>)
    requires i < |targets|
    requires Progress(tagsOld, linksOld, tags0, links0, targets[..i], ex)
    requires TagsKept(tags0, tags1) && links0 <= links1
    requires forall l :: l in links1 && l !in links0 ==> l.0 == targets[i].id
    requires Carries(tags1, links1, targets[i], ex)
    requires ex(targets[i]) == [] ==> links1 == links0
    ensures Progress(tagsOld, linksOld, tags1, links1, targets[..i + 1], ex)
  {
    var done := targets[..i + 1];
    assert done[..i] == targets[..i];
    forall k | 0 <= k < i + 1 ensures Carries(tags1, links1, done[k], ex) {
      if k < i {
        assert Carries(tags0, links0, done[..i][k], ex);
        CoveredMono(tags0, links0, tags1, links1, done[k].id, ex(done[k]));
      }
    }
    forall l | l in links1 && l !in linksOld ensures NewLinkOf(done, l.0, ex) {
      if l in links0 {
        var k :| 0 <= k < i && done[..i][k].id == l.0 && ex(done[..i][k]) != [];
        assert done[k] == done[..i][k];
      } else {
        assert done[i] == targets[i];
      }
    }
  }

  /** A link added for a processed target belongs to a target. */
  lemma NewLinksAreTargets(targets: seq<DbArticle>, linksOld: set<Link>, links: set<Link>, ex: DbArticle -> seq<string>)
    requires forall l :: l in links && l !in linksOld ==> NewLinkOf(targets, l.0, ex)
    ensures forall l :: l in links && l !in linksOld ==> IsTarget(targets, l.0)
  {
    forall l | l in links && l !in linksOld ensures IsTarget(targets, l.0) {
      var k :| 0 <= k < |targets| && targets[k].id == l.0 && ex(targets[k]) != [];
    }
  }

  /** When iteration i stops early, every new link still belongs to a target. */
  lemma NewLinksTargeted(targets: seq<DbArticle>, i: nat, linksOld: set<Link>, links0: set<Link>, links1: set<Link>,
                         ex: DbArticle -> seq<string>)
    requires i < |targets|
    requires forall l :: l in links0 && l !in linksOld ==> NewLinkOf(targets[..i], l.0, ex)
    requires forall l :: l in links1 && l !in links0 ==> l.0 == targets[i].id
    ensures forall l :: l in links1 && l !in linksOld ==> IsTarget(targets, l.0)
  {
    forall l | l in links1 && l !in linksOld ensures IsTarget(targets, l.0) {
      if l in links0 {
        var k :| 0 <= k < i && targets[..i][k].id == l.0 && ex(targets[..i][k]) != [];
        assert targets[k] == targets[..i][k];
      } else {
        assert targets[i].id == l.0;
      }
    }
  }

  /**
   * One iteration: extract the article's tags and merge them into it. A
   * success links every extracted tag and reports the links added; nothing
   * extracted means nothing changes; only this article gains links.
   */
  method TagOne(db: Db, a: DbArticle) returns (res: Result<MergeResult, DbError>)
    requires db.Valid()
    modifies db
    ensures db.Valid()
    ensures db.articles == old(db.articles) && db.users == old(db.users)
    ensures forall n :: n in old(db.tags) ==> n in db.tags && db.tags[n] == old(db.tags)[n]
    ensures old(db.links) <= db.links
    ensures forall l :: l in db.links && l !in old(db.links) ==> l.0 == a.id
    ensures Extracted(a) == [] ==> res.Ok? && db.links == old(db.links)
    ensures res.Ok? ==> Carries(db.tags, db.links, a, Extracted)
    ensures res.Ok? ==> |db.links| == |old(db.links)| + res.value.added
  {
    var tags := Tags.ExtractArticleTags(a.title, a.summary, a.url);
    res := MergeTagsToArticle(db, a.id, tags, {});
    ArticlesRoute.CanonicalNamesKept(tags);
    if tags == [] {
      assert UniqueNames(tags) == [];
    }
    CoveredMeans(db.tags, db.links, a.id, tags);
  }

  /**
   * At the end: every target carries its tags, and targets with nothing extracted got no link, since row ids are unique.
   */
  lemma AutoTagDone(articles: seq<DbArticle>, links0: set<Link>, tags1: map<string, TagId>, links1: set<Link>,
                    targets: seq<DbArticle>, ex: DbArticle -> seq<string>)
    requires UniqueIds(articles)
    requires forall k :: 0 <= k < |targets| ==> targets[k] in articles && !IsTagged(links0, targets[k].id)
    requires forall l :: l in links1 && l !in links0 ==> NewLinkOf(targets, l.0, ex)
    requires forall k :: 0 <= k < |targets| ==> Carries(tags1, links1, targets[k], ex)
    ensures forall a :: a in targets ==> forall n :: n in ex(a) ==> n in LinkedNames(tags1, links1, a.id)
    ensures forall a :: a in targets && ex(a) == [] ==> !IsTagged(links1, a.id)
  {
    forall a | a in targets ensures forall n :: n in ex(a) ==> n in LinkedNames(tags1, links1, a.id) {
      var k :| 0 <= k < |targets| && targets[k] == a;
      CoveredMeans(tags1, links1, a.id, ex(a));
    }
    forall a | a in targets && ex(a) == [] ensures !IsTagged(links1, a.id) {
      if l :| l in links1 && l.0 == a.id {
        var j :| 0 <= j < |targets| && targets[j] == a;
        assert l !in links0;
        var k :| 0 <= k < |targets| && targets[k].id == a.id && ex(targets[k]) != [];
      }
    }
  }
}

=== FILE: tags_cleanup_route.dfy ===
/**
 * `POST /api/tags/cleanup`: removes the caller's links to noisy tags and
 * garbage-collects tag rows that no article refers to any more.
 */
module TagsCleanupRoute {
  import opened Wrappers
  import opened Text
  import opened Lists
  import opened Database
  import opened Tags

  datatype CleanupResponse =
    | Unauthorized
    | Done(removed: nat, remaining: nat)

  /** The route's test: the name does not normalise, or its normal form is noisy. */
  predicate CleanupNoisy(name: string) {
    match NormalizeTag(name)
    case None => true
    case Some(n) => IsNoisyTag(n)
  }

  /**
   * Because the noise test is applied to the normal form, which never holds
   * `/` or `:`, a stored name counts as noisy exactly when it does not
   * normalise or its normal form is all digits or a generic word.
   */
  lemma CleanupNoisyIff(name: string)
    ensures CleanupNoisy(name) <==>
      NormalizeTag(name).None?
      || var n := NormalizeTag(name).value;
         AllAsciiDigits(n) || IsJapaneseStopWord(n) || IsKatakanaStopWord(n)
  {
    if NormalizeTag(name).Some? {
      NoisyCanonical(NormalizeTag(name).value);
    }
  }

  /** For a name without `/` and `:` the route's test and `isNoisyTag` agree. */
  lemma CleanupAgreesWithIsNoisy(name: string)
    requires '/' !in name && ':' !in name
    ensures CleanupNoisy(name) == IsNoisyTag(name)
  {
    if NormalizeTag(name).Some? {
      NoisyByNormalForm(name);
    }
  }

  /** The ids of the tags linked to the caller's articles (`distinct: ["tagId"]`). */
  function UserTagIds(articles: seq<DbArticle>, links: set<Link>, u: UserId): (r: set<TagId>)
    ensures forall t :: t in r <==> exists l :: l in links && OwnedBy(articles, l.0, u) && l.1 == t
  {
    set l | l in UserLinks(articles, links, u) :: l.1
  }

  /** The ids among `ids` of the tags whose name is noisy (`tags.filter(...)`). */
  function NoisyIds(tags: map<string, TagId>, ids: set<TagId>): (r: set<TagId>)
    ensures forall t :: t in r <==> t in ids && exists n :: n in tags && tags[n] == t && CleanupNoisy(n)
  {
    set n | n in tags && tags[n] in ids && CleanupNoisy(n) :: tags[n]
  }

  /** `now` is `links` without user u's links to the tags in `ids`. */
  ghost predicate LinksRemoved(links: set<Link>, articles: seq<DbArticle>, u: UserId, ids: set<TagId>, now: set<Link>) {
    now == links - UserLinksTo(articles, links, u, ids)
  }

  /** `now` is `tags` without the rows among `ids` that no link refers to. */
  ghost predicate TagsRemoved(tags: map<string, TagId>, ids: set<TagId>, links: set<Link>, now: map<string, TagId>) {
    (forall n :: n in now ==> n in tags && now[n] == tags[n])
    && (forall n :: n in tags && n !in now <==> n in tags && tags[n] in ids && TagLinks(links, tags[n]) == {})
  }

  /** The route handler; `session` is the signed-in user's id, if any. */
  method Cleanup(db: Db, session: Option<UserId>) returns (r: CleanupResponse)
    requires db.Valid()
    modifies db
    ensures db.Valid()
    ensures r == Unauthorized <==> session.None?
    ensures db.articles == old(db.articles) && db.users == old(db.users)
    ensures session.None? ==> db.links == old(db.links) && db.tags == old(db.tags)
    ensures session.Some? ==>
      var noisy := NoisyIds(old(db.tags), UserTagIds(old(db.articles), old(db.links), session.value));
      && LinksRemoved(old(db.links), db.articles, session.value, noisy, db.links)
      && TagsRemoved(old(db.tags), noisy, db.links, db.tags)
      && r == Done(|old(db.links)| - |db.links|, |UserLinks(db.articles, db.links, session.value)|)
  {
    if session.None? {
      return Unauthorized;
    }
    var removed, remaining := CleanupFor(db, session.value);
    return Done(removed, remaining);
  }

  /** The signed-in branch of the handler, for user u. */
  method CleanupFor(db: Db, u: UserId) returns (removed: nat, remaining: nat)
    requires db.Valid()
    modifies db
    ensures db.Valid()
    ensures db.articles == old(db.articles) && db.users == old(db.users)
    ensures var noisy := NoisyIds(old(db.tags), UserTagIds(old(db.articles), old(db.links), u));
      && LinksRemoved(old(db.links), db.articles, u, noisy, db.links)
      && TagsRemoved(old(db.tags), noisy, db.links, db.tags)
    ensures removed == |old(db.links)| - |db.links|
    ensures remaining == |UserLinks(db.articles, db.links, u)|
  {
    var ids := UserTagIds(db.articles, db.links, u);
    if ids == {} {
      assert forall l :: l in UserLinks(db.articles, db.links, u) ==> l.1 in ids;
      assert UserLinks(db.articles, db.links, u) == {};
      assert UserLinksTo(db.articles, db.links, u, {}) == {};
      return 0, 0;
    }
    var noisySet := NoisyIds(db.tags, ids);
    var noisy := Enumerate(noisySet);
    assert Elements(noisy) == noisySet;
    removed := RemoveNoisy(db, u, noisy);
    remaining := |UserLinks(db.articles, db.links, u)|;
  }

  /** The loop over the noisy tags. */
  method RemoveNoisy(db: Db, u: UserId, noisy: seq<TagId>) returns (removed: nat)
    requires db.Valid()
    requires NoDups(noisy)
    modifies db
    ensures db.Valid()
    ensures db.articles == old(db.articles) && db.users == old(db.users)
    ensures LinksRemoved(old(db.links), db.articles, u, Elements(noisy), db.links)
    ensures TagsRemoved(old(db.tags), Elements(noisy), db.links, db.tags)
    ensures removed == |old(db.links)| - |db.links|
  {
    removed := 0;
    assert UserLinksTo(db.articles, db.links, u, {}) == {};
    for i := 0 to |noisy|
      invariant db.articles == old(db.articles) && db.users == old(db.users) && db.nextId == old(db.nextId)
      invariant LinksRemoved(old(db.links), db.articles, u, Elements(noisy[..i]), db.links)
      invariant TagsRemoved(old(db.tags), Elements(noisy[..i]), db.links, db.tags)
      invariant removed == |old(db.links)| - |db.links|
    {
      assert noisy[i] !in noisy[..i];
      ElementsSnoc(noisy[..i], noisy[i]);
      assert noisy[..i + 1] == noisy[..i] + [noisy[i]];
      var count := RemoveStep(db, u, old(db.links), old(db.tags), Elements(noisy[..i]), noisy[i]);
      removed := removed + count;
    }
    assert noisy[..|noisy|] == noisy;
    RemovalKeepsConsistent(db.users, db.articles, old(db.tags), old(db.links), db.nextId,
                           u, Elements(noisy), db.tags, db.links);
  }

  /** Removing links and the tag rows they no longer reach keeps the store consistent. */
  lemma RemovalKeepsConsistent(users: seq<DbUser>, articles: seq<DbArticle>, tags: map<string, TagId>,
                               links: set<Link>, nextId: nat, u: UserId, ids: set<TagId>,
                               tags1: map<string, TagId>, links1: set<Link>)
    requires Consistent(users, articles, tags, links, nextId)
    requires LinksRemoved(links, articles, u, ids, links1)
    requires TagsRemoved(tags, ids, links1, tags1)
    ensures Consistent(users, articles, tags1, links1, nextId)
  {
    forall l | l in links1 ensures TagIdExists(tags1, l.1) {
      var n :| n in tags && tags[n] == l.1;
      assert l in TagLinks(links1, l.1);
    }
    ShrinkKeepsConsistent(users, articles, tags, links, nextId, tags1, links1);
  }

  /** One turn of the loop: from the tags `done` to the tags `done + {t}`. */
  method RemoveStep(db: Db, u: UserId, ghost links: set<Link>, ghost tags: map<string, TagId>,
                    ghost done: set<TagId>, t: TagId)
    returns (count: nat)
    requires t !in done
    requires LinksRemoved(links, db.articles, u, done, db.links)
    requires TagsRemoved(tags, done, db.links, db.tags)
    modifies db
    ensures db.articles == old(db.articles) && db.users == old(db.users) && db.nextId == old(db.nextId)
    ensures LinksRemoved(links, db.articles, u, done + {t}, db.links)
    ensures TagsRemoved(tags, done + {t}, db.links, db.tags)
    ensures count == |old(db.links)| - |db.links|
  {
    ghost var links0, tags0 := db.links, db.tags;
    count := RemoveTagForUser(db, t, u);
    LinksStep(db.articles, links, u, done, t, links0, db.links);
    TagsStep(tags, tags0, db.tags, db.articles, u, links0, db.links, done, t);
  }

  /**
   * One iteration: delete the caller's links to tag id, then the tag row
   * itself if no link to it is left.
   */
  method RemoveTagForUser(db: Db, id: TagId, u: UserId) returns (count: nat)
    modifies db
    ensures db.articles == old(db.articles) && db.users == old(db.users) && db.nextId == old(db.nextId)
    ensures db.links == old(db.links) - UserLinksTo(db.articles, old(db.links), u, {id})
    ensures count == |old(db.links)| - |db.links|
    ensures TagLinks(db.links, id) == {} ==> db.tags == map n | n in old(db.tags) && old(db.tags)[n] != id :: old(db.tags)[n]
    ensures TagLinks(db.links, id) != {} ==> db.tags == old(db.tags)
  {
    count := db.DeleteUserLinksOfTag(id, u);
    var stillUsed := |TagLinks(db.links, id)|;
    if stillUsed == 0 {
      var deleted := db.DeleteTag(id);
    }
  }

  lemma LinksStep(articles: seq<DbArticle>, links: set<Link>, u: UserId, d: set<TagId>, id: TagId,
                  links0: set<Link>, links1: set<Link>)
    requires links0 == links - UserLinksTo(articles, links, u, d)
    requires links1 == links0 - UserLinksTo(articles, links0, u, {id})
    ensures links1 == links - UserLinksTo(articles, links, u, d + {id})
  {
  }

  lemma TagsStep(tags: map<string, TagId>, tags0: map<string, TagId>, tags1: map<string, TagId>,
                 articles: seq<DbArticle>, u: UserId, links0: set<Link>, links1: set<Link>, d: set<TagId>, id: TagId)
    requires id !in d
    requires links1 == links0 - UserLinksTo(articles, links0, u, {id})
    requires TagsRemoved(tags, d, links0, tags0)
    requires TagLinks(links1, id) == {} ==> tags1 == map n | n in tags0 && tags0[n] != id :: tags0[n]
    requires TagLinks(links1, id) != {} ==> tags1 == tags0
    ensures TagsRemoved(tags, d + {id}, links1, tags1)
  {
    forall n | n in tags && tags[n] != id ensures TagLinks(links1, tags[n]) == TagLinks(links0, tags[n]) {
    }
  }
}

=== FILE: text.dfy ===
/**
 * Strings as sequences of Unicode scalar values, and the JavaScript string
 * operations the application relies on: trim, toLowerCase, includes,
 * startsWith, join, split on a character class, the \s class, and the
 * conversions between numbers and decimal or hexadecimal text.
 */
module Text {

  /** ECMAScript WhiteSpace and LineTerminator: what `trim` strips and what `\s` matches. */
  predicate IsSpace(c: char) {
    c == ' ' || c == '\t' || c == '\n' || c == '\U{000B}' || c == '\U{000C}' || c == '\r'
    || c == '\U{00A0}' || c == '\U{1680}' || ('\U{2000}' <= c <= '\U{200A}')
    || c == '\U{2028}' || c == '\U{2029}' || c == '\U{202F}' || c == '\U{205F}'
    || c == '\U{3000}' || c == '\U{FEFF}'
  }

  predicate IsAsciiUpper(c: char) { 'A' <= c <= 'Z' }
  predicate IsAsciiLower(c: char) { 'a' <= c <= 'z' }
  predicate IsAsciiLetter(c: char) { IsAsciiUpper(c) || IsAsciiLower(c) }
  predicate IsAsciiDigit(c: char) { '0' <= c <= '9' }
  predicate IsHexDigit(c: char) { IsAsciiDigit(c) || 'a' <= c <= 'f' || 'A' <= c <= 'F' }

  predicate AllAsciiDigits(s: string) { forall i :: 0 <= i < |s| ==> IsAsciiDigit(s[i]) }
  predicate AllHexDigits(s: string) { forall i :: 0 <= i < |s| ==> IsHexDigit(s[i]) }

  /**
   * The Unicode class \p{L} (letters), over the scripts the application meets:
   * Latin, Greek, Cyrillic, Hiragana, Katakana (with the prolonged sound mark),
   * CJK ideographs with the iteration marks, Hangul and the full-width forms.
   */
  predicate IsLetter(c: char) {
    IsAsciiLetter(c)
    || c == '\U{00AA}' || c == '\U{00B5}' || c == '\U{00BA}'
    || ('\U{00C0}' <= c <= '\U{00D6}') || ('\U{00D8}' <= c <= '\U{00F6}') || ('\U{00F8}' <= c <= '\U{024F}')
    || c == '\U{0386}' || ('\U{0388}' <= c <= '\U{038A}') || c == '\U{038C}'
    || ('\U{038E}' <= c <= '\U{03A1}') || ('\U{03A3}' <= c <= '\U{03F5}') || ('\U{03F7}' <= c <= '\U{03FF}')
    || ('\U{0400}' <= c <= '\U{0481}') || ('\U{048A}' <= c <= '\U{052F}')
    || ('\U{3041}' <= c <= '\U{3096}') || ('\U{309D}' <= c <= '\U{309F}')
    || ('\U{30A1}' <= c <= '\U{30FA}') || ('\U{30FC}' <= c <= '\U{30FF}')
    || c == '\U{3005}' || c == '\U{3006}'
    || ('\U{3400}' <= c <= '\U{4DBF}') || ('\U{4E00}' <= c <= '\U{9FFF}')
    || ('\U{AC00}' <= c <= '\U{D7A3}')
    || ('\U{FF21}' <= c <= '\U{FF3A}') || ('\U{FF41}' <= c <= '\U{FF5A}') || ('\U{FF66}' <= c <= '\U{FF9D}')
  }

  /** The Unicode class \p{N} (numbers), over the same scripts. */
  predicate IsNumber(c: char) {
    IsAsciiDigit(c)
    || c == '\U{00B2}' || c == '\U{00B3}' || c == '\U{00B9}' || ('\U{00BC}' <= c <= '\U{00BE}')
    || ('\U{0660}' <= c <= '\U{0669}') || ('\U{0966}' <= c <= '\U{096F}')
    || ('\U{2160}' <= c <= '\U{2188}') || ('\U{2460}' <= c <= '\U{249B}')
    || c == '\U{3007}' || ('\U{3021}' <= c <= '\U{3029}') || ('\U{FF10}' <= c <= '\U{FF19}')
  }

  /** Simple lower-case mapping of one character (ASCII, Latin-1, Greek, Cyrillic, full-width Latin). */
  function LowerChar(c: char): (l: char)
    ensures IsLetter(c) ==> IsLetter(l)
    ensures !IsLetter(c) ==> l == c
    ensures !IsAsciiUpper(l)
    ensures IsAsciiLetter(c) <==> IsAsciiLetter(l)
  {
    if IsAsciiUpper(c) then (c as int + 32) as char
    else if '\U{00C0}' <= c <= '\U{00DE}' && c != '\U{00D7}' then (c as int + 32) as char
    else if '\U{0391}' <= c <= '\U{03AB}' && c != '\U{03A2}' then (c as int + 32) as char
    else if '\U{0410}' <= c <= '\U{042F}' then (c as int + 32) as char
    else if '\U{0400}' <= c <= '\U{040F}' then (c as int + 80) as char
    else if '\U{FF21}' <= c <= '\U{FF3A}' then (c as int + 32) as char
    else c
  }

  lemma LowerCharIdempotent(c: char)
    ensures LowerChar(LowerChar(c)) == LowerChar(c)
  {
  }

  /** `toLowerCase`, one character at a time. */
  function ToLower(s: string): (r: string)
    ensures |r| == |s|
    ensures forall i :: 0 <= i < |s| ==> r[i] == LowerChar(s[i])
  {
    seq(|s|, i requires 0 <= i < |s| => LowerChar(s[i]))
  }

  lemma ToLowerIdempotent(s: string)
    ensures ToLower(ToLower(s)) == ToLower(s)
  {
    forall i | 0 <= i < |s| ensures ToLower(ToLower(s))[i] == ToLower(s)[i] {
      LowerCharIdempotent(s[i]);
    }
  }

  /** `trimStart`: the suffix left after dropping the leading white space. */
  function TrimStart(s: string): (r: string)
    ensures |r| <= |s| && r == s[|s| - |r|..]
    ensures r == [] || !IsSpace(r[0])
    ensures forall i :: 0 <= i < |s| - |r| ==> IsSpace(s[i])
    ensures |s| > 0 && IsSpace(s[0]) ==> |r| < |s|
  {
    if |s| > 0 && IsSpace(s[0]) then TrimStart(s[1..]) else s
  }

  /** `trimEnd`: the prefix left after dropping the trailing white space. */
  function TrimEnd(s: string): (r: string)
    ensures |r| <= |s| && r == s[..|r|]
    ensures r == [] || !IsSpace(r[|r| - 1])
    ensures forall i :: |r| <= i < |s| ==> IsSpace(s[i])
  {
    if |s| > 0 && IsSpace(s[|s| - 1]) then TrimEnd(s[..|s| - 1]) else s
  }

  /** `trim`. */
  function Trim(s: string): (r: string)
  {
    TrimEnd(TrimStart(s))
  }

  /** A string trims to nothing exactly when it is all white space. */
  lemma TrimBlank(s: string)
    ensures Trim(s) == [] <==> forall i :: 0 <= i < |s| ==> IsSpace(s[i])
  {
    TrimEndKeepsHead(TrimStart(s));
    if forall i :: 0 <= i < |s| ==> IsSpace(s[i]) {
      TrimStartBlank(s);
    }
  }

  /** `trimStart` removes a string of white space entirely. */
  lemma {:induction false} TrimStartBlank(s: string)
    requires forall i :: 0 <= i < |s| ==> IsSpace(s[i])
    ensures TrimStart(s) == []
  {
    if s != [] {
      assert forall i :: 0 <= i < |s[1..]| ==> s[1..][i] == s[i + 1];
      TrimStartBlank(s[1..]);
    }
  }

  /** `trimEnd` keeps a first character that is not white space. */
  lemma TrimEndKeepsHead(t: string)
    requires t == [] || !IsSpace(t[0])
    ensures TrimEnd(t) == [] ==> t == []
  {
    if t != [] {
      assert TrimEnd(t)[..1] == t[..1];
    }
  }

  /** Lower-casing works character by character, so it distributes over concatenation. */
  lemma ToLowerAppend(a: string, b: string)
    ensures ToLower(a + b) == ToLower(a) + ToLower(b)
  {
  }

  /** A string that occurs in s still occurs in it once both are lower-cased. */
  lemma ContainsToLower(s: string, q: string)
    requires Contains(s, q)
    ensures Contains(ToLower(s), ToLower(q))
  {
    var i :| 0 <= i <= |s| - |q| && OccursAt(s, q, i);
    assert ToLower(s)[i..i + |q|] == ToLower(q);
    assert OccursAt(ToLower(s), ToLower(q), i);
  }

  /** Each part of a joined list occurs in the joined string. */
  lemma {:induction false} JoinContainsPart(parts: seq<string>, sep: string, k: nat)
    requires k < |parts|
    ensures Contains(Join(parts, sep), parts[k])
  {
    if k == 0 {
      var post := if |parts| == 1 then [] else sep + Join(parts[1..], sep);
      assert Join(parts, sep) == [] + parts[0] + post;
      ContainsSelf(parts[0]);
      ContainsWithin([], parts[0], post, parts[0]);
    } else {
      JoinContainsPart(parts[1..], sep, k - 1);
      assert parts[1..][k - 1] == parts[k];
      assert Join(parts, sep) == parts[0] + sep + Join(parts[1..], sep) + [];
      ContainsWithin(parts[0] + sep, Join(parts[1..], sep), [], parts[k]);
    }
  }

  /** A trimmed string is empty or has no white space at either end, so trimming twice changes nothing. */
  lemma TrimTwice(s: string)
    ensures Trim(s) == [] || (!IsSpace(Trim(s)[0]) && !IsSpace(Trim(s)[|Trim(s)| - 1]))
    ensures Trim(Trim(s)) == Trim(s)
  {
    var t := TrimStart(s);
    var r := TrimEnd(t);
    if r != [] {
      assert r[0] == t[0];
    }
    TrimKeeps(r);
  }

  /** Trimming only removes characters, so a class absent from s stays absent. */
  lemma TrimWithin(s: string, cs: set<char>)
    requires NoneIn(s, cs)
    ensures NoneIn(Trim(s), cs)
  {
    var t := TrimStart(s);
    var r := TrimEnd(t);
    forall i | 0 <= i < |r| ensures r[i] !in cs {
      assert r[i] == t[i] == s[|s| - |t| + i];
    }
  }

  /** White space around a string without white space at its ends is what trim removes. */
  lemma {:induction false} TrimPadded(pre: string, x: string, post: string)
    requires forall i :: 0 <= i < |pre| ==> IsSpace(pre[i])
    requires forall i :: 0 <= i < |post| ==> IsSpace(post[i])
    requires x != [] && !IsSpace(x[0]) && !IsSpace(x[|x| - 1])
    ensures Trim(pre + x + post) == x
  {
    assert pre + x + post == pre + (x + post);
    assert (x + post)[0] == x[0];
    TrimStartPadded(pre, x + post);
    TrimEndPadded(x, post);
  }

  lemma {:induction false} TrimStartPadded(pre: string, rest: string)
    requires forall i :: 0 <= i < |pre| ==> IsSpace(pre[i])
    requires rest != [] && !IsSpace(rest[0])
    ensures TrimStart(pre + rest) == rest
  {
    if pre != [] {
      assert (pre + rest)[1..] == pre[1..] + rest;
      TrimStartPadded(pre[1..], rest);
    }
  }

  lemma {:induction false} TrimEndPadded(x: string, post: string)
    requires forall i :: 0 <= i < |post| ==> IsSpace(post[i])
    requires x != [] && !IsSpace(x[|x| - 1])
    ensures TrimEnd(x + post) == x
  {
    if post != [] {
      var init := post[..|post| - 1];
      assert (x + post)[..|x + post| - 1] == x + init;
      TrimEndPadded(x, init);
    } else {
      assert x + post == x;
    }
  }

  /** A string whose two ends are not white space is its own trim. */
  lemma TrimKeeps(s: string)
    requires s == [] || (!IsSpace(s[0]) && !IsSpace(s[|s| - 1]))
    ensures Trim(s) == s
  {
  }

  /** `filter(Boolean)` on strings. */
  predicate NonEmpty(s: string) {
    s != []
  }

  /** `parts.map(p => p.trim())`. */
  function TrimAll(parts: seq<string>): (r: seq<string>)
    ensures |r| == |parts|
    ensures forall k :: 0 <= k < |r| ==> r[k] == Trim(parts[k])
  {
    seq(|parts|, k requires 0 <= k < |parts| => Trim(parts[k]))
  }

  /** `s.includes(q)`. */
  predicate Contains(s: string, q: string) {
    exists i | 0 <= i <= |s| - |q| :: OccursAt(s, q, i)
  }

  /** Text found in s is still found once s is wrapped in other text. */
  lemma ContainsWithin(pre: string, s: string, post: string, q: string)
    requires Contains(s, q)
    ensures Contains(pre + s + post, q)
  {
    var i :| 0 <= i <= |s| - |q| && OccursAt(s, q, i);
    assert (pre + s + post)[|pre| + i..|pre| + i + |q|] == s[i..i + |q|];
    assert OccursAt(pre + s + post, q, |pre| + i);
  }

  predicate OccursAt(s: string, q: string, i: int) {
    0 <= i <= |s| - |q| && s[i..i + |q|] == q
  }

  lemma ContainsSelf(s: string)
    ensures Contains(s, s)
  {
    assert OccursAt(s, s, 0);
  }

  /** Of `pre + mid + sep + line`, the middle part occurs in it, and so does anything found in the last. */
  lemma PartsContained(pre: string, mid: string, sep: string, line: string)
    ensures Contains(pre + mid + sep + line, mid)
    ensures forall q :: Contains(line, q) ==> Contains(pre + mid + sep + line, q)
  {
    ContainsSelf(mid);
    assert pre + mid + sep + line == pre + mid + (sep + line);
    ContainsWithin(pre, mid, sep + line, mid);
    forall q | Contains(line, q) ensures Contains(pre + mid + sep + line, q) {
      assert pre + mid + sep + line == (pre + mid + sep) + line + [];
      ContainsWithin(pre + mid + sep, line, [], q);
    }
  }

  lemma ContainsEmpty(s: string)
    ensures Contains(s, [])
  {
    assert OccursAt(s, [], 0);
  }

  /** `s.startsWith(p)`. */
  predicate StartsWith(s: string, p: string) {
    |p| <= |s| && s[..|p|] == p
  }

  /** `parts.join(sep)`. */
  function Join(parts: seq<string>, sep: string): (r: string)
  {
    if |parts| == 0 then []
    else if |parts| == 1 then parts[0]
    else parts[0] + sep + Join(parts[1..], sep)
  }

  predicate NoneIn(s: string, cs: set<char>) {
    forall i :: 0 <= i < |s| ==> s[i] !in cs
  }

  /** `s.split(re)` for a regular expression that is one character class. */
  function SplitOn(s: string, seps: set<char>): (parts: seq<string>)
    ensures |parts| >= 1
    ensures forall k :: 0 <= k < |parts| ==> NoneIn(parts[k], seps)
  {
    if s == [] then [[]]
    else
      var rest := SplitOn(s[1..], seps);
      if s[0] in seps then [[]] + rest
      else [[s[0]] + rest[0]] + rest[1..]
  }

  lemma {:induction false} SplitOnPrefix(a: string, rest: string, seps: set<char>)
    requires NoneIn(a, seps)
    ensures SplitOn(a + rest, seps) == [a + SplitOn(rest, seps)[0]] + SplitOn(rest, seps)[1..]
  {
    if a != [] {
      assert (a + rest)[1..] == a[1..] + rest;
      SplitOnPrefix(a[1..], rest, seps);
      assert [a[0]] + (a[1..] + SplitOn(rest, seps)[0]) == a + SplitOn(rest, seps)[0];
    } else {
      var p := SplitOn(rest, seps);
      assert a + rest == rest;
      assert a + p[0] == p[0];
      assert p == [p[0]] + p[1..];
    }
  }

  /**
   * Splitting a joined list on a class that holds its separator gives the
   * list back, when no part holds a character of the class.
   */
  lemma {:induction false} SplitJoin(parts: seq<string>, sep: char, seps: set<char>)
    requires sep in seps
    requires |parts| >= 1
    requires forall k :: 0 <= k < |parts| ==> NoneIn(parts[k], seps)
    ensures SplitOn(Join(parts, [sep]), seps) == parts
  {
    if |parts| == 1 {
      SplitOnPrefix(parts[0], [], seps);
      assert parts[0] + [] == parts[0];
    } else {
      var tail := Join(parts[1..], [sep]);
      SplitJoin(parts[1..], sep, seps);
      assert Join(parts, [sep]) == parts[0] + ([sep] + tail);
      SplitOnPrefix(parts[0], [sep] + tail, seps);
      assert ([sep] + tail)[1..] == tail;
      assert SplitOn([sep] + tail, seps) == [[]] + parts[1..];
      assert parts[0] + [] == parts[0];
      assert parts == [parts[0]] + parts[1..];
    }
  }

  /** `s.replace(/\s+/g, " ")`: every run of white space becomes one space. */
  function CollapseSpaces(s: string): (r: string)
    ensures |r| <= |s|
    decreases |s|
  {
    if s == [] then []
    else if IsSpace(s[0]) then [' '] + CollapseSpaces(TrimStart(s))
    else [s[0]] + CollapseSpaces(s[1..])
  }

  /** `s.replace(/\s/g, "")`. */
  function RemoveSpaces(s: string): (r: string)
    ensures |r| <= |s|
    ensures forall i :: 0 <= i < |r| ==> !IsSpace(r[i])
  {
    if s == [] then []
    else (if IsSpace(s[0]) then [] else [s[0]]) + RemoveSpaces(s[1..])
  }

  function DigitChar(d: nat): (c: char)
    requires d < 10
    ensures IsAsciiDigit(c)
  {
    ('0' as int + d) as char
  }

  /** `String(n)` for a natural number. */
  function NatToString(n: nat): (s: string)
    ensures |s| >= 1 && AllAsciiDigits(s)
    ensures |s| > 1 ==> s[0] != '0'
  {
    if n < 10 then [DigitChar(n)] else NatToString(n / 10) + [DigitChar(n % 10)]
  }

  /** `String(i)` for an integer. */
  function IntToString(i: int): string {
    if i < 0 then "-" + NatToString(-i) else NatToString(i)
  }

  /** The value of a string of decimal digits (as `parseInt(s, 10)` reads it). */
  function DecimalValue(s: string): nat
    requires AllAsciiDigits(s)
  {
    if s == [] then 0 else DecimalValue(s[..|s| - 1]) * 10 + (s[|s| - 1] as int - '0' as int)
  }

  function HexDigitValue(c: char): (v: nat)
    requires IsHexDigit(c)
    ensures v < 16
  {
    if IsAsciiDigit(c) then c as int - '0' as int
    else if 'a' <= c <= 'f' then c as int - 'a' as int + 10
    else c as int - 'A' as int + 10
  }

  /** The value of a string of hexadecimal digits (as `parseInt(s, 16)` reads it). */
  function HexValue(s: string): nat
    requires AllHexDigits(s)
  {
    if s == [] then 0 else HexValue(s[..|s| - 1]) * 16 + HexDigitValue(s[|s| - 1])
  }

  /** Printing a number and reading it back gives the number. */
  lemma {:induction false} DecimalRoundTrip(n: nat)
    ensures DecimalValue(NatToString(n)) == n
  {
    if n >= 10 {
      DecimalRoundTrip(n / 10);
      var s := NatToString(n);
      assert s[..|s| - 1] == NatToString(n / 10);
    }
  }
}

=== FILE: wrappers.dfy ===
/** Optional values and error-carrying results, used wherever the source returns null or throws. */
module Wrappers {

  datatype Option<+T> = None | Some(value: T) {
    function GetOr(default: T): T {
      match this
      case Some(v) => v
      case None => default
    }
  }

  datatype Result<+T, +E> = Ok(value: T) | Err(error: E)
}
